=== FILE: README.md ===
# vora_admin back office, modelled in Dafny

This project models the data rules of the vora_admin back office. The back office is a Next.js
application where staff manage the product catalog (products and their localized rows and tool
bundles), the tool catalog, member and administrator records, administrator sign-in with two-factor
authentication, the route guard, the locale choice, and the query-string rules of the list screens.

The database is a snapshot of in-memory tables (`DbSchema.Catalog`). `CatalogStore.CatalogDb` is a
class whose fields are those tables; its methods are the SQL statements the server actions issue.
Each action (`ProductActions.CreateProduct`, `ToolActions.UpdateTool`, ...) is a method that runs
the statements one by one and restores the saved snapshot when one of them fails, as a
transaction does. Every action is proved equal to a specification function
(`CreateOutcome`, `UpdateToolOutcome`, ...), and the lemmas about those functions state what the
source promises:

- which inputs succeed;
- which child rows exist afterwards;
- what stays unchanged;
- that foreign keys and unique ids are kept.

A statement also fails when a bound parameter does not read as its column's type. `PgInput` states
what the uuid and numeric input functions accept and the range of integer. The store checks
prices, quotas, usage limits, tiers and the `WHERE id = ...` parameter with them, in column order
and before any constraint, and the lookups by id fail the same way.

The read queries are functions over the tables:

- WHERE is `Common.Where`.
- LEFT JOIN is `Common.LeftJoin`.
- ORDER BY is `Common.SortBy`, a stable insertion sort over a total preorder that puts NULL last
  ascending and first descending, as PostgreSQL does.
- LIMIT/OFFSET is `Common.LimitOffset`.

Lemmas state the filters, the fallbacks and the counts of each query, and, for every list, that a
page holds exactly the rows of the ordered list from the offset on. PostgreSQL leaves the order of
rows with equal sort keys open; the model fixes one (see "Left out").

The sign-in ladder, the route guard and the locale choice are pure functions with lemmas. The
administrator table that two-factor enablement updates is the class `AdminAuth.AdminStore`. The
browser's `URLSearchParams` is the class `UrlParams.SearchParams`. The list-screen handlers are
methods over it, and the data grid's pagination state is the class `ListNavigation.PaginatedTable`.

JavaScript details are written out:

- `a || b` on a nullable text treats the empty string as missing (`Common.OrText`, `Common.Truthy`).
- `parseInt` yields NaN, modelled as `None`.
- `===` between two NaNs is false (`ListNavigation.SameNumber`).

Inputs from outside the model are parameters:

- the clock (`now: Time`);
- database-generated ids (`newId`);
- a failing statement (`fault: Option<Fault>`, naming the statement that raises and its message);
- the bcrypt and TOTP checks (`PasswordCheck`, `OtpCheck`);
- the decrypted session and the locale cookie.

## Model

| member | source | states |
|---|---|---|
| Common.OrText | src/features/admin/members/queries.ts:127-128 | `value \|\| fallback` on a nullable text: a non-empty value is kept, while null or "" gives the fallback |
| Common.Truthy | src/features/admin/admins/queries.ts:61 | `value \|\| undefined`: present exactly when the value is non-null and non-empty, and then equal to it |
| Common.OrElse | src/features/admin/members/queries.ts:131 | a missing value gives the fallback; a present one is kept |
| Common.LowerText | src/features/admin/admins/queries.ts:86 | `toLowerCase` keeps the length and lowers each character |
| Common.LowerTextIdempotent | src/features/admin/admins/queries.ts:86 | lowering an already lowered text changes nothing |
| Common.EmptyPatternMatchesEverything | src/features/admin/products/actions.ts:148 | the pattern `%%` built from an empty query matches every text |
| Common.LoweredQueryMatchesSame | src/features/admin/admins/queries.ts:86-88 | lowering the search term before a case-insensitive match changes no match |
| Common.LeftJoinRows | src/features/admin/tools/queries.ts:119-126 | every joined row pairs a left row with a right row satisfying the join condition, or with NULL when there is none; every left row appears |
| Common.LeftJoinLength | src/features/admin/tools/queries.ts:96-103 | a left join never has fewer rows than its left side, and has exactly as many when each left row has at most one partner |
| Common.LimitOffset | src/features/admin/products/queries.ts:111-112 | a negative limit or offset is a query error naming which one; otherwise the result is the window of rows from the offset, at most limit long |
| Common.PageOf | src/features/admin/products/queries.ts:24 | with offset (page-1)*pageSize, a page exists exactly when pageSize >= 0 and either page >= 1 or pageSize = 0; it then holds exactly min(pageSize, n - offset) rows of an n-row list, none past the end, and row i of the page is row offset+i of the list |
| Common.OffsetSign | src/features/admin/products/queries.ts:24 | the offset is negative exactly when page < 1 and pageSize > 0 |
| Common.TotalPages | src/features/admin/admins/queries.ts:69 | ceil(total/pageSize) is defined exactly when pageSize > 0, and then total <= totalPages*pageSize < total+pageSize |
| Common.TotalPagesIsLeast | src/features/admin/admins/queries.ts:69 | no smaller page count covers the total |
| Common.OrderedTotal | src/features/admin/products/queries.ts:110 | the ORDER BY comparison (NULL last ascending, first descending) relates any two keys |
| Common.OrderedTrans | src/features/admin/products/queries.ts:110 | the ORDER BY comparison is transitive |
| Common.SortByCorrect | src/features/admin/products/queries.ts:110 | ORDER BY returns a permutation of its input that is sorted by the key in the requested direction |
| Common.TopRows | src/features/admin/admins/queries.ts:138-143 | `WHERE ... ORDER BY ... LIMIT n` gives exactly min(n, number of passing rows) rows, each from the table and passing the filter, in the requested order; they are a sub-multiset of the passing rows, and every passing row left out sorts no earlier than the last row kept |
| Common.WhereCount | src/features/admin/products/queries.ts:106-109 | a WHERE keeps every occurrence of a row that passes and none of a row that does not |
| Common.LeftJoinPairCount | src/features/admin/products/queries.ts:100-104 | a left join yields a left row paired with a right row once per occurrence of each when the right row joins it, and never otherwise |
| Common.LeftJoinUnpairedCount | src/features/admin/products/queries.ts:100-104 | a left join yields a left row paired with NULL once per occurrence when no right row joins it, and never otherwise |
| Common.FirstAt | src/features/admin/auth/actions.ts:25 | the row a first-match lookup finds is the earliest row that matches |
| PgInput.ShortTextIsNoUuid | src/lib/db/schema.ts:403 | the uuid input function refuses every text shorter than 32 characters, such as "", a number or a short code |
| PgInput.ValidatedUuidReads | src/lib/db/schema.ts:340 | every 8-4-4-4-12 hexadecimal id the tool validator accepts is read by the uuid input function |
| PgInput.EmptyPriceRefused | src/lib/db/schema.ts:436-437 | the numeric input function refuses the empty text a cleared price field submits, and any all-blank text |
| PgInput.DigitsAreNumeric | src/lib/db/schema.ts:436-437 | every non-empty run of digits, such as the default price "0", reads as numeric |
| PgInput.FractionPriceReads | src/lib/db/schema.ts:436-437 | a price with a decimal fraction ("12.50") reads as numeric |
| PgInput.ExponentPriceReads | src/lib/db/schema.ts:436-437 | a signed price with an exponent between blanks (" -0.5e3 ") reads as numeric |
| PgInput.SeparatorPriceRefused | src/lib/db/schema.ts:436-437 | a price with a thousands separator ("1,000") is refused |
| PgInput.CurrencyPriceRefused | src/lib/db/schema.ts:436-437 | a price with a currency sign ("$5") is refused |
| DbSchema.ParseLanguage | src/lib/db/schema.ts:14 | exactly "KR", "EN" and "JP" are language codes, and a parsed code prints back as the same text |
| DbSchema.ParseCurrency | src/lib/db/schema.ts:9 | exactly "USD", "KRW" and "JPY" are currency codes, and a parsed code prints back as the same text |
| DbSchema.EnumTextRoundTrip | src/lib/db/schema.ts:9-14 | printing a language or currency code and parsing it back gives the same code |
| DbSchema.LanguageRankIsDeclarationOrder | src/lib/db/schema.ts:14 | the enum's sort order is its declaration order: KR before EN before JP |
| DbSchema.ParseCategory | src/lib/db/schema.ts:19 | a tool category parses only from its own enum text; any other text is rejected |
| DbSchema.DetachPurchases | src/lib/db/schema.ts:461-465 | ON DELETE SET NULL: the same purchases with the same ids, whose product id is nulled exactly where it named the deleted product |
| DbSchema.DeleteToolCascadeRemovesReferences | src/lib/db/schema.ts:376-493 | after a tool is deleted, no tool_i18n, product_tools or purchase_tool_quotas row names it, and the other rows of those tables remain |
| DbSchema.DeleteToolCascadeConsistent | src/lib/db/schema.ts:376-493 | the tool delete cascade keeps every foreign key and unique id intact and removes exactly that tool id |
| DbSchema.DeleteProductCascadeRemovesReferences | src/lib/db/schema.ts:390-465 | after a product is deleted, its products_i18n and product_tools rows are gone and its purchases remain with the product id nulled |
| DbSchema.DeleteProductCascadeConsistent | src/lib/db/schema.ts:390-465 | the product delete cascade keeps every foreign key and unique id intact and removes exactly that product id |
| CatalogStore.ProductInsertError | src/features/admin/products/actions.ts:23-32 | inserting a product fails exactly when the statement raises or the id is already taken |
| CatalogStore.ProductI18nInsertError | src/lib/db/schema.ts:429-447 | inserting localized rows fails exactly when the statement raises, some row's current_price or price is text the numeric type refuses, or a row names a product that does not exist; a refused price is reported before a missing product |
| CatalogStore.BundleInsertError | src/lib/db/schema.ts:382-399 | inserting bundle rows fails exactly when the statement raises, some quota_allocation lies outside the integer range, or a row names a missing product or tool |
| CatalogStore.ToolInsertError | src/lib/db/schema.ts:339-346 | inserting a tool fails exactly when the statement raises, internal_usage_limit or tier lies outside the integer range, or the id is already taken |
| CatalogStore.ToolI18nInsertError | src/lib/db/schema.ts:375-379 | inserting tool localized rows fails exactly when the statement raises or a row names a missing tool |
| CatalogStore.FirstBadPrice | src/lib/db/schema.ts:436-437 | no price is reported exactly when every row's current_price and price read as numeric, and a reported text is one the numeric type refuses |
| CatalogStore.FirstOutOfRange | src/lib/db/schema.ts:343 | no value is reported exactly when every bound integer lies in the integer range, and a reported value is one of them outside it |
| CatalogStore.KeyedError | src/lib/db/schema.ts:340 | a statement with `WHERE id = $n` succeeds exactly when it does not raise, its integers fit and the id reads as a uuid; a refused id is reported as invalid uuid text |
| CatalogStore.CatalogDb.Restore | src/features/admin/products/actions.ts:21 | a rollback puts back every table as saved |
| CatalogStore.CatalogDb.InsertProduct | src/features/admin/products/actions.ts:23-32 | on success the row is appended to products and nothing else changes; on failure nothing changes |
| CatalogStore.CatalogDb.InsertProductI18n | src/features/admin/products/actions.ts:36-46 | on success the rows are appended to products_i18n and nothing else changes; on failure nothing changes |
| CatalogStore.CatalogDb.InsertProductTools | src/features/admin/products/actions.ts:51-58 | on success the rows are appended to product_tools and nothing else changes; on failure nothing changes |
| CatalogStore.CatalogDb.UpdateProduct | src/features/admin/products/actions.ts:78-88 | fails without a change when the statement raises or the id is not uuid text; otherwise rewrites in place the rows with the id, and only those |
| CatalogStore.CatalogDb.DeleteProductI18nOf | src/features/admin/products/actions.ts:91 | fails without a change when the statement raises or the id is not uuid text; otherwise removes exactly the product's localized rows |
| CatalogStore.CatalogDb.DeleteProductToolsOf | src/features/admin/products/actions.ts:105 | removes exactly the product's bundle rows |
| CatalogStore.CatalogDb.InsertTool | src/features/admin/tools/actions.ts:31-42 | on success the row is appended to tools and nothing else changes; on failure nothing changes |
| CatalogStore.CatalogDb.InsertToolI18n | src/features/admin/tools/actions.ts:50-57 | on success the rows are appended to tool_i18n and nothing else changes; on failure nothing changes |
| CatalogStore.CatalogDb.UpdateTool | src/features/admin/tools/actions.ts:101 | fails without a change when the statement raises, a bound internal_usage_limit or tier lies outside the integer range, or the id is not uuid text; otherwise rewrites in place the tool rows with the id, and only those |
| CatalogStore.CatalogDb.DeleteToolI18nOf | src/features/admin/tools/actions.ts:106 | removes exactly the tool's localized rows |
| CatalogStore.CatalogDb.DeleteTool | src/features/admin/tools/actions.ts:132-134 | fails without a change when the statement raises or the id is not uuid text; otherwise deletes the tool with the schema's cascades |
| ToolDisplay.Priority | src/features/admin/products/actions.ts:156 | KR has priority 1, EN 2, every other language 3 |
| ToolDisplay.ChosenI18nIsHighestPriority | src/features/admin/products/actions.ts:154-157 | a localized row is chosen exactly when the tool has one; the chosen row belongs to the tool and no row of the tool has a higher priority |
| ToolDisplay.DisplayNameByPriority | src/features/admin/products/actions.ts:153-159 | the display name is the tool code when the tool has no localized row or its rows of highest priority are all unnamed; when those rows are all named it is the name of one of them |
| ToolDisplay.DisplayNameFromKr | src/features/admin/products/actions.ts:153-159 | a tool with a named Korean row, every Korean row named, shows the name of one of its Korean rows |
| ToolDisplay.DisplayNameFromEn | src/features/admin/products/actions.ts:153-159 | a tool with no Korean row and a named English row, every English row named, shows the name of one of its English rows |
| ProductSchema.ParseProductType | src/features/admin/products/schema.ts:19 | exactly SUBSCRIPTION and PURCHASE are product types, and a parsed type prints back as the same text |
| ProductSchema.ParseBillingCycle | src/features/admin/products/schema.ts:21 | exactly MONTHLY, YEARLY and ONCE are billing cycles, and a parsed cycle prints back as the same text |
| ProductSchema.ParseI18n | src/features/admin/products/schema.ts:3-10 | a localized entry parses exactly when the language and currency are enum values and the name and price are non-empty; the parsed entry is well formed |
| ProductSchema.ParseToolEntry | src/features/admin/products/schema.ts:12-16 | a bundle entry parses exactly when its toolId is a uuid and its sortOrder is a number; quotaAllocation may be null |
| ProductSchema.ParseCreate | src/features/admin/products/schema.ts:18-31 | the create schema accepts exactly the valid inputs: non-empty productCode, at least one localized entry, valid entries and enums; the result is well formed |
| ProductSchema.ParseUpdate | src/features/admin/products/schema.ts:35-37 | the update schema accepts exactly the create schema's inputs that also carry a uuid id, and parses them the same way |
| ProductSchema.ParseCreateRoundTrip | src/features/admin/products/schema.ts:18-31 | the form of a well-formed draft parses back to the same draft |
| ProductSchema.EntryRoundTrip | src/features/admin/products/schema.ts:3-10 | a well-formed localized entry, written back as form fields, parses to itself |
| ProductSchema.UpdateIsCreatePlusId | src/features/admin/products/schema.ts:35-37 | a well-formed draft passes the update schema exactly when it carries a uuid id; an absent or null id fails it |
| ProductSchema.CreateDefaults | src/features/admin/products/schema.ts:26-30 | an absent isActive becomes true, absent tools become the empty list, and a supplied isActive is kept |
| ProductSchema.NoLanguageCurrencyPairing | src/features/admin/products/schema.ts:4-8 | any language may be paired with any currency |
| ProductSchema.NoTypeCyclePairing | src/features/admin/products/schema.ts:19-21 | any product type may be paired with any billing cycle |
| ProductActions.MessageOr | src/features/admin/products/actions.ts:64-66 | `e.message \|\| fallback`: the error's message, or the fixed fallback when the message is empty |
| ProductActions.I18nRows | src/features/admin/products/actions.ts:36-46 | one products_i18n row per entry, in order, each tagged with the product id |
| ProductActions.BundleRows | src/features/admin/products/actions.ts:51-58 | one product_tools row per tool entry, in order, each tagged with the product id |
| ProductActions.InsertAggregate | src/features/admin/products/actions.ts:23-59 | the three inserts stop at the first failing statement, whose error is CreateError's, and on success add exactly the aggregate |
| ProductActions.CreateProduct | src/features/admin/products/actions.ts:14-67 | the transaction ends in the state and response of CreateOutcome |
| ProductActions.CreateSucceedsIff | src/features/admin/products/actions.ts:14-67 | create succeeds exactly when the input is valid, the new id is free, every price reads as numeric, every quota fits the integer range, every bundled tool exists and no statement raises |
| ProductActions.CreateErrorIff | src/features/admin/products/actions.ts:21-60 | the create statements all succeed exactly when the new id is free, every price reads as numeric, every quota fits the integer range, every bundled tool exists and no statement that runs raises |
| ProductActions.I18nInsertSucceeds | src/features/admin/products/actions.ts:36-46 | inserting a draft's localized rows succeeds exactly when the product exists, every price and current price reads as numeric and the statement does not raise |
| ProductActions.BundleInsertSucceeds | src/features/admin/products/actions.ts:51-58 | inserting a draft's bundle rows for an existing product succeeds exactly when every quota fits the integer range, every tool exists and the statement does not raise |
| ProductActions.CreateAllOrNothing | src/features/admin/products/actions.ts:20-66 | success writes the whole aggregate and reports no error (and no id); failure writes nothing and carries an error; invalid input answers "Invalid input data" |
| ProductActions.NewProductChildren | src/features/admin/products/actions.ts:34-59 | after create, the new product's localized and bundle rows are exactly those built from the input, and every other product's children are unchanged |
| ProductActions.NewProductConsistent | src/features/admin/products/actions.ts:21-60 | a create keeps foreign keys and unique ids intact and adds exactly the new product id |
| ProductActions.CreateKeepsConsistency | src/features/admin/products/actions.ts:14-67 | whatever the input and faults, create leaves a consistent catalog |
| ProductActions.UpdateProduct | src/features/admin/products/actions.ts:69-124 | the transaction ends in the state and response of UpdateOutcome |
| ProductActions.ReplaceAggregate | src/features/admin/products/actions.ts:78-115 | the five statements stop at the first failing one, whose error is UpdateError's, and on success leave exactly the replaced aggregate |
| ProductActions.UpdateErrorIff | src/features/admin/products/actions.ts:76-116 | the update statements all succeed exactly when the id is uuid text, the product exists (so its new localized rows have a parent), every price reads as numeric, every quota fits the integer range, every bundled tool exists and no statement raises |
| ProductActions.UpdateSucceedsIff | src/features/admin/products/actions.ts:69-124 | update succeeds exactly when the input passes the update schema, the id is uuid text, the product exists, every price reads as numeric, every quota fits, every bundled tool exists and no statement raises |
| ProductActions.UpdateAllOrNothing | src/features/admin/products/actions.ts:75-123 | success writes the replaced aggregate; failure writes nothing and carries an error; invalid input answers "Invalid input data" |
| ProductActions.UpdateTargetsIdArgument | src/features/admin/products/actions.ts:69-88 | the id inside the data never affects the outcome: the id argument selects the row |
| ProductActions.ReplacedProductChildren | src/features/admin/products/actions.ts:90-115 | after update, the product's localized and bundle rows are exactly those supplied (none when no tools are supplied), and other products' children are unchanged |
| ProductActions.ReplacedProductRow | src/features/admin/products/actions.ts:78-88 | only the target row is rewritten: type, category, billingCycle, productCode and isActive take the submitted values and updatedAt the current time; paddleProductId, paddlePriceId and iconImageUrl keep their old value when left out and take the submitted value or NULL otherwise; id, createdAt and deletedAt are kept; other rows stay as they were |
| ProductActions.ReplacedProductConsistent | src/features/admin/products/actions.ts:76-116 | a successful replacement keeps foreign keys and unique ids intact and changes no product id |
| ProductActions.UpdateKeepsConsistency | src/features/admin/products/actions.ts:69-124 | whatever the input and faults, update leaves a consistent catalog |
| ProductActions.DeleteProduct | src/features/admin/products/actions.ts:126-138 | the soft delete ends in the state and response of DeleteOutcome |
| ProductActions.SoftDeleteKeepsChildren | src/features/admin/products/actions.ts:126-138 | the soft delete sets isActive false and deletedAt on the row with the id, and leaves the children, tools and purchases untouched; it succeeds exactly when the id is uuid text and the statement does not raise, so it reports success even when no row matched |
| ProductActions.SoftDeleteMarksRow | src/features/admin/products/actions.ts:128-131 | the soft-delete UPDATE marks exactly the rows with the id, and with no such row leaves the table as it was |
| ProductActions.Hits | src/features/admin/products/actions.ts:150-160 | each found tool becomes its id, its code and its display name, in order |
| ProductActions.SearchTools | src/features/admin/products/actions.ts:143-171 | the result is the found tools with their display names; the query has no ORDER BY, so the model fixes table order (see Left out) |
| ProductActions.SearchWithoutQueryMatchesAll | src/features/admin/products/actions.ts:162-167 | skipping the filter for an empty query returns what the filter would have kept |
| ProductActions.SearchToolsSound | src/features/admin/products/actions.ts:162-168 | at most 20 tools; each one matches on its code or a localized name; when at most 20 match, all of them are returned |
| ProductQueries.LanguageForLocale | src/features/admin/products/queries.ts:27 | 'en' selects EN, 'jp' selects JP, anything else selects KR |
| ProductQueries.StatusFilter | src/features/admin/products/queries.ts:33-37 | 'active' keeps active products, 'inactive' keeps inactive ones, and any other status keeps all |
| ProductQueries.SearchHits | src/features/admin/products/queries.ts:43-53 | the hit list holds exactly the products with a localized name or description containing the term; it is empty exactly when no localized row matches |
| ProductQueries.Items | src/features/admin/products/queries.ts:115-123 | one list item per joined row, in order |
| ProductQueries.EmptySearchShortCircuits | src/features/admin/products/queries.ts:55-65 | a non-empty search that matches nothing returns no rows and total 0, echoing page and pageSize |
| ProductQueries.SortedJoinShown | src/features/admin/products/queries.ts:100-110 | every sorted joined row shows a filtered product, paired only with a localized row in the locale's language priced in USD; every filtered product appears |
| ProductQueries.OrderedListRowsShown | src/features/admin/products/queries.ts:90-110 | every row the list pages through is a filtered product joined as above; every filtered product has a row, and every filtered product paired with each localized row joining it is a row |
| ProductQueries.SortedJoinCount | src/features/admin/products/queries.ts:90-110 | how often a row occurs: a filtered product paired with a joining localized row once per occurrence of each; a filtered product with no joining localized row once, paired with NULL; nothing else |
| ProductQueries.ProductListCounts | src/features/admin/products/queries.ts:82-130 | the total counts the filtered products, independently of the join; a page holds exactly the window of the ordered rows that fits, at most pageSize; page and pageSize are echoed |
| ProductQueries.ProductListRow | src/features/admin/products/queries.ts:90-123 | item i of a page is the item of row offset+i of the ordered list, and so a filtered product with the name, price and currency of a matching localized row, or nulls |
| ProductQueries.ProductListOrder | src/features/admin/products/queries.ts:69-80 | rows are sorted by the requested key, with 'desc' descending and anything else ascending; an unrecognised column sorts by createdAt |
| ProductQueries.ListIgnoresDeletion | src/features/admin/products/queries.ts:30-66 | deletedAt plays no part in the filters, so a soft-deleted product is still listed under 'all' and 'inactive' |
| ProductQueries.InnerJoinTools | src/features/admin/products/queries.ts:165-166 | the inner join pairs each bundle row with the tool it names, drops rows whose tool is missing, and keeps all rows when every tool exists |
| ProductQueries.BundledTools | src/features/admin/products/queries.ts:173-176 | one detail entry per joined bundle row, with sortOrder defaulting to 0 |
| ProductQueries.ProductByIdFound | src/features/admin/products/queries.ts:136-148 | the lookup fails exactly when the id is not uuid text (every text under 32 characters among them); otherwise null exactly for an unknown id, else the product with the id and exactly its localized rows |
| ProductQueries.ProductByIdTools | src/features/admin/products/queries.ts:150-168 | each bundled tool reports a bundle row of the product, its tool's code and display name; in a consistent catalog there is one per bundle row |
| ProductQueries.ProductByIdToolOrder | src/features/admin/products/queries.ts:168-176 | tools come in ascending stored sortOrder with unset orders last, and an unset order is reported as 0 |
| ProductQueries.NullSortOrderReportedOutOfOrder | src/features/admin/products/queries.ts:168-176 | a bundle with orders 5 and unset reports 5 then 0: the reported numbers need not ascend |
| ToolSchema.FirstIssue | src/features/admin/tools/actions.ts:23 | the reported issue is the first one found in field order; there is none exactly when no field has one |
| ToolSchema.FirstIssueAt | src/features/admin/tools/actions.ts:23 | the issue of the first failing field is the one reported |
| ToolSchema.FirstIssueAppend | src/features/admin/tools/actions.ts:23 | a later field's issue is reported only when no earlier field has one |
| ToolSchema.FieldIssuesNone | src/features/admin/tools/schema.ts:25-34 | no field reports an issue exactly when every field check passes |
| ToolSchema.NoFieldIssueIff | src/features/admin/tools/schema.ts:25-39 | every field check passes exactly when the form follows the schema's rules, under create and under update |
| ToolSchema.EntriesOf | src/features/admin/tools/schema.ts:18-22 | one parsed localized entry per input entry, in order |
| ToolSchema.EntryIssueIff | src/features/admin/tools/schema.ts:18-22 | a localized entry passes exactly when its language is an enum value, its name is non-empty and its description is text or absent |
| ToolSchema.I18nIssueIff | src/features/admin/tools/schema.ts:33 | the localized list passes exactly when it is present (or absent under update) with at least one entry, each valid |
| ToolSchema.CategoryIssueIff | src/features/admin/tools/schema.ts:7-26 | the category passes exactly when it is one of the seven enum values or null (or absent under update) |
| ToolSchema.ValidateCreateIff | src/features/admin/tools/schema.ts:25-34 | create validation succeeds exactly on valid input; the result is well formed, isFree defaults to false and the other defaults apply |
| ToolSchema.ValidateUpdateIff | src/features/admin/tools/schema.ts:37-39 | update validation succeeds exactly when supplied fields obey the create rules and the id is a uuid; a field is in the patch exactly when it was supplied |
| ToolSchema.CreateInputPassesUpdate | src/features/admin/tools/schema.ts:37-39 | every valid create input, with a uuid id, is a valid update |
| ToolSchema.EmptyI18nReported | src/features/admin/tools/schema.ts:33 | an empty localized list is rejected with the "at least one language" message on create and update |
| ToolSchema.FractionalTierReportedAsNotInteger | src/features/admin/tools/schema.ts:28-30 | a fractional tier or usage limit is rejected with the not-an-integer message |
| ToolSchema.ValidateCreateRoundTrip | src/features/admin/tools/schema.ts:25-34 | the form of a well-formed draft validates back to the same draft |
| ToolActions.UrlOrNull | src/features/admin/tools/actions.ts:39 | `url \|\| null`: a supplied non-empty URL is stored, while "", null or absent store null |
| ToolActions.ToolI18nRows | src/features/admin/tools/actions.ts:50-57 | one tool_i18n row per entry, in order, each tagged with the tool id |
| ToolActions.CreateTool | src/features/admin/tools/actions.ts:16-69 | the transaction ends in the state and response of CreateToolOutcome |
| ToolActions.CreateToolSucceedsIff | src/features/admin/tools/actions.ts:16-69 | create succeeds exactly on valid input whose usage limit is below 2^31, with a free id and no failing statement; success returns the new id and writes the tool; failure writes nothing; invalid input reports the first issue |
| ToolActions.ValidatedIntegersFit | src/features/admin/tools/actions.ts:36-38 | a validated usage limit fits the integer range exactly when it is below 2^31, and a validated tier (0 to 5) always does |
| ToolActions.NewToolStored | src/features/admin/tools/actions.ts:31-58 | the stored tool has the new id, code and flag, a null icon for an empty URL, and exactly the supplied localized rows; the product tables are unchanged |
| ToolActions.NewToolConsistent | src/features/admin/tools/actions.ts:29-61 | a create keeps foreign keys and unique ids intact and adds exactly the new tool id |
| ToolActions.CreateToolKeepsConsistency | src/features/admin/tools/actions.ts:16-69 | whatever the input and faults, create leaves a consistent catalog |
| ToolActions.UpdateTool | src/features/admin/tools/actions.ts:74-125 | the transaction ends in the state and response of UpdateToolOutcome |
| ToolActions.UpdateToolErrorIff | src/features/admin/tools/actions.ts:87-116 | the statements succeed exactly when the row update does not raise, a supplied usage limit and tier fit the integer range, the id is uuid text and, if a non-empty localized list is supplied, the tool exists and the delete and insert do not raise |
| ToolActions.SetValues | src/features/admin/tools/actions.ts:95-97 | the integers the update binds all fit exactly when the supplied usage limit and tier each fit the integer range |
| ToolActions.UpdateToolSucceedsIff | src/features/admin/tools/actions.ts:74-125 | update succeeds exactly on valid input whose usage limit is below 2^31, a uuid id and statements that succeed; success writes the patch; failure writes nothing |
| ToolActions.UpdateMissingTool | src/features/admin/tools/actions.ts:87-120 | updating an unknown tool changes nothing, yet reports success exactly when no localized rows are supplied and the usage limit fits the integer range |
| ToolActions.PatchedToolRow | src/features/admin/tools/actions.ts:89-101 | for each of category, toolCode, internalUsageLimit, isFree, tier, iconImageUrl and isActive: left out keeps the old value, a supplied value is written, and null writes NULL for the nullable ones; an empty icon URL becomes NULL; updatedAt is always bumped and id and createdAt are kept; other tools are untouched |
| ToolActions.PatchedToolChildren | src/features/admin/tools/actions.ts:103-115 | a non-empty localized list replaces the tool's rows wholesale; otherwise the localized rows are kept |
| ToolActions.PatchedToolConsistent | src/features/admin/tools/actions.ts:87-116 | a successful patch keeps foreign keys and unique ids intact and changes no tool id |
| ToolActions.UpdateToolKeepsConsistency | src/features/admin/tools/actions.ts:74-125 | whatever the input and faults, update leaves a consistent catalog |
| ToolActions.DeleteTool | src/features/admin/tools/actions.ts:130-142 | the hard delete ends in the state and response of DeleteToolOutcome |
| ToolActions.DeleteToolRemovesTool | src/features/admin/tools/actions.ts:130-142 | a delete succeeds exactly when the id is uuid text and the statement does not raise; it then removes the tool and, through the cascades, exactly its localized, bundle and quota rows, keeping the catalog consistent; failure changes nothing |
| ToolActions.ToggleToolStatus | src/features/admin/tools/actions.ts:147-166 | the toggle ends in the state and response of ToggleOutcome |
| ToolActions.ToggleSetsFlag | src/features/admin/tools/actions.ts:152-158 | the toggle succeeds exactly when the id is uuid text, and otherwise changes nothing; only the named tool's isActive and updatedAt change; repeating the toggle yields the same tables apart from updatedAt |
| ToolActions.StatusUpdateTwice | src/features/admin/tools/actions.ts:152-158 | setting the same flag twice equals setting it once at the later time |
| ToolQueries.ToolLanguage | src/features/admin/tools/queries.ts:33 | 'en' selects EN and anything else KR; JP is never selected |
| ToolQueries.StatusFilter | src/features/admin/tools/queries.ts:38-43 | 'active' and 'inactive' filter on isActive; any other status keeps all |
| ToolQueries.SearchHits | src/features/admin/tools/queries.ts:49-59 | the hit list holds exactly the tools with a localized name or description containing the term |
| ToolQueries.SearchAdmits | src/features/admin/tools/queries.ts:46-68 | a tool passes the search exactly when its code contains the term or one of its localized rows does |
| ToolQueries.Items | src/features/admin/tools/queries.ts:107-118 | one list item per joined row, in order |
| ToolQueries.SortedJoinShown | src/features/admin/tools/queries.ts:119-128 | every sorted joined row shows a filtered tool with a localized row in the locale's language or none; every filtered tool appears, and so does every pair of a filtered tool and a localized row that joins it |
| ToolQueries.SortedJoinCount | src/features/admin/tools/queries.ts:96-128 | a filtered tool paired with a joining localized row occurs once per pair of their copies, a filtered tool without one occurs once with NULL, and no other row occurs |
| ToolQueries.ToolListCounts | src/features/admin/tools/queries.ts:92-137 | the total counts joined rows, so it is at least the number of filtered tools and equal to it when each tool has at most one row in the language; a page holds exactly the window of the ordered rows that fits, at most pageSize |
| ToolQueries.ToolListPageRow | src/features/admin/tools/queries.ts:107-130 | item i of a page is the item of row offset+i of the ordered list, and so a filtered tool joined with a localized row of the locale or with none |
| ToolQueries.ToolListOrder | src/features/admin/tools/queries.ts:71-90 | the ordered rows are a permutation of the joined rows, sorted by the requested key (unrecognised columns by createdAt); every filtered tool appears, paired with each localized row that joins it |
| ToolQueries.ToolByIdFound | src/features/admin/tools/queries.ts:143-166 | the lookup fails exactly when the id is not uuid text (every text under 32 characters among them); otherwise null exactly for an unknown id, else the tool and exactly its localized rows, ordered by language code |
| ToolQueries.WorkflowOptionsAreActive | src/features/admin/tools/queries.ts:171-183 | the options are exactly the active workflows |
| ToolQueries.WorkflowOptionsByName | src/features/admin/tools/queries.ts:180 | options are sorted by name ascending, unnamed ones last |
| MemberQueries.MapUserStatus | src/features/admin/members/queries.ts:7-20 | ACTIVE gives ACTIVE, SUSPENDED gives BANNED, and WITHDRAWN or null gives INACTIVE |
| MemberQueries.Provider | src/features/admin/members/queries.ts:75 | the first linked account's provider, or "email" when there is none or it is empty; never empty |
| MemberQueries.MemberSortKey | src/features/admin/members/queries.ts:46-62 | name and email sort by that column; every other value sorts by createdAt |
| MemberQueries.MemberItems | src/features/admin/members/queries.ts:71-80 | one item per user on the page, in order |
| MemberQueries.MemberListPaging | src/features/admin/members/queries.ts:29-88 | defaults page 1 and pageSize 10; the total is the number of all users whatever the page; a page holds exactly the window that fits, at most pageSize, and item i is the item of user offset+i of the ordered table |
| MemberQueries.MemberListOrder | src/features/admin/members/queries.ts:46-62 | the ordered users are a permutation of all users, sorted by the chosen key, with descending as the default |
| MemberQueries.MemberItemFallbacks | src/features/admin/members/queries.ts:71-80 | a missing email or image shows as ""; the provider is "email" or the provider of one of the user's accounts, and "email" when there is none |
| MemberQueries.LastLoginIsLatest | src/features/admin/members/queries.ts:78 | a shown last login is the latest of the user's session times; it is hidden only when a session without a time sorts first |
| MemberQueries.ProductNameChain | src/features/admin/members/queries.ts:149-152 | never empty; the first localized name, else the product code, else "Unknown Product", with empty texts falling through |
| MemberQueries.MemberDetailShape | src/features/admin/members/queries.ts:90-172 | the lookup fails exactly when the id is not uuid text; otherwise null exactly for an unknown user; a missing language code defaults to KR; the sessions shown are the items of the user's newest five, one for one |
| MemberQueries.MemberDetailSessions | src/features/admin/members/queries.ts:97-101 | exactly min(5, n) of the user's n sessions are shown, newest first; every session left out is no newer than the last one shown |
| MemberQueries.PurchasesShareTransaction | src/features/admin/members/queries.ts:155-164 | every purchase shows the same amount and currency; a shown amount is non-zero and comes from one of the user's transactions with a SUBSCRIPTION or PAID status |
| MemberQueries.RelatedTransactionIsPayment | src/features/admin/members/queries.ts:155-157 | the transaction shown with the purchases is one of the user's own, with a SUBSCRIPTION or PAID status |
| AdminQueries.LogFilter | src/features/admin/admins/queries.ts:21-26 | a non-empty adminId keeps only that admin's logs; otherwise every log is kept |
| AdminQueries.UniqueIdsJoinOnce | src/features/admin/admins/queries.ts:42 | with unique admin ids, each log joins at most one admin |
| AdminQueries.LogItemOf | src/features/admin/admins/queries.ts:52-62 | each field of a log item: id, action, target and adminId copied; ipAddress or ""; createdAt or now; the admin's name or "Unknown"; email or ""; the image only when non-empty |
| AdminQueries.AdminLogsCounts | src/features/admin/admins/queries.ts:14-71 | defaults page 1 and pageSize 10; the total counts the filtered logs; totalPages is ceil(total/pageSize); a page holds exactly the window of the ordered rows that fits; with unique admin ids the join adds no rows |
| AdminQueries.OrderedLogRow | src/features/admin/admins/queries.ts:41-44 | each joined row is a filtered log with its author, or with none when no admin has the id |
| AdminQueries.AdminLogsRows | src/features/admin/admins/queries.ts:44-62 | the joined logs are ordered newest first; item i of a page is the item of row offset+i; each item is a filtered log whose author name shows "Unknown" when the admin is missing |
| AdminQueries.AdminFilterIff | src/features/admin/admins/queries.ts:85-94 | an admin passes exactly when a given search occurs in its name or email ignoring case and a given status equals its status |
| AdminQueries.AdminListCounts | src/features/admin/admins/queries.ts:73-131 | defaults page 1 and pageSize 10; the total counts admins passing the same filter; totalPages is ceil(total/pageSize); a page holds exactly the window that fits, and item i is the projection of admin offset+i of the ordered matching admins |
| AdminQueries.AdminListOrder | src/features/admin/admins/queries.ts:98-109 | the ordered admins are a permutation of the admins passing the filter, sorted by the requested column, descending only for 'desc' |
| AdminQueries.AdminDetailLogs | src/features/admin/admins/queries.ts:133-164 | null exactly for an unknown admin; otherwise its entries are those of exactly min(20, n) of its n logs, newest first, every log left out being no newer than the last one shown |
| AdminAuth.MissingFieldsRefused | src/features/admin/auth/actions.ts:21-23 | a missing email or password is refused before any lookup, whatever the admin table |
| AdminAuth.CredentialFailuresLookAlike | src/features/admin/auth/actions.ts:25-37 | an unknown email, a missing stored hash and a wrong password all answer "Invalid credentials" |
| AdminAuth.LoginSucceedsIff | src/features/admin/auth/actions.ts:16-63 | a session is created exactly when both fields are filled, the first admin with the email has a matching hash and, with 2FA enabled, a token, a secret and a valid code are present |
| AdminAuth.TokenRequested | src/features/admin/auth/actions.ts:39-42 | valid credentials with 2FA enabled and no token ask for the token and create no session |
| AdminAuth.TokenIgnoredWithoutTwoFactor | src/features/admin/auth/actions.ts:39 | for an admin without 2FA the token plays no part and no token is requested |
| AdminAuth.WithTwoFactorRows | src/features/admin/auth/actions.ts:89-95 | enabling sets twoFactorEnabled and the secret on the rows with the id and changes nothing else |
| AdminAuth.WithoutTwoFactorRows | src/features/admin/auth/actions.ts:102-108 | disabling clears twoFactorEnabled and the secret on the rows with the id, changes nothing else, and is idempotent |
| AdminAuth.SwitchKeepsLookup | src/features/admin/auth/actions.ts:25 | enabling or disabling 2FA finds the same admin by email, updated when it is the one switched |
| AdminAuth.SwitchesDecideSignIn | src/features/admin/auth/actions.ts:39-57 | after enabling, a sign-in without a token is asked for one and a sign-in with a code is decided by the code; after disabling, the password alone decides |
| AdminAuth.AdminStore.EnableTwoFactor | src/features/admin/auth/actions.ts:78-99 | an invalid code answers "Invalid OTP code" and changes nothing; a valid one switches 2FA on with the secret |
| AdminAuth.AdminStore.DisableTwoFactor | src/features/admin/auth/actions.ts:101-112 | unconditionally switches 2FA off and clears the secret |
| RouteGuard.DecideCases | src/middleware.ts:21-44 | redirect to /auth/sign-in exactly for a protected path without session; redirect to /home exactly for a public path with a session; pass through otherwise |
| RouteGuard.PrefixMatchIsLoose | src/middleware.ts:24-26 | the match is by prefix, so "/homepage" is protected |
| RouteGuard.NoPathIsBoth | src/middleware.ts:6-19 | no path is both protected and public, so at most one redirect applies |
| RouteGuard.ProtectedPrefixShape | src/middleware.ts:6-18 | every protected prefix has at least three characters, starts with '/', and goes on with neither "au", "ap" nor '_' |
| RouteGuard.RedirectIsFinal | src/middleware.ts:34-41 | a redirect target is itself passed through, so redirects never loop |
| RouteGuard.AdmittedByShape | src/middleware.ts:47-49 | a path starting with '/' and going on with neither "ap" nor '_' is run through the guard exactly when it does not end in ".png" |
| RouteGuard.MatcherKeepsGuardedPages | src/middleware.ts:47-49 | the matcher admits every public page and every protected page except .png files, and an admitted path gets the guard's decision |
| RouteGuard.ExcludedPathsPassThrough | src/middleware.ts:47-49 | paths under /api, /_next/static or /_next/image, or ending in ".png", reach their page whatever the session; "/home/logo.png" is served without sign-in although the guard alone would redirect it |
| RouteGuard.RespondRedirectIsFinal | src/middleware.ts:34-49 | with the matcher in front, a redirect still lands on a page answered without a further redirect |
| LocaleChoice.ChooseLocale | src/i18n/request.ts:7-28 | the locale is always one of "en" and "ko", and the time zone is always UTC |
| LocaleChoice.ChooseLocaleCases | src/i18n/request.ts:10-24 | a cookie value in the list is used unchanged; any other value, a missing cookie or a failure gives "en" |
| LocaleChoice.ChooseLocaleIdempotent | src/i18n/request.ts:10-13 | choosing again from the chosen locale gives the same configuration |
| UrlParams.LookupFirstPair | src/features/admin/products/components/product-list-table.tsx:222 | `get` finds a value exactly when a pair has the key, and the value is the first such pair's |
| UrlParams.LookupWithout | src/features/admin/products/components/product-list-filters.tsx:40 | deleting a key does not change how another key reads |
| UrlParams.WithoutHasNoKey | src/features/admin/products/components/product-list-filters.tsx:43 | after `delete` the key reads as absent, and deleting again changes nothing |
| UrlParams.WithSetReads | src/features/admin/products/components/product-list-table.tsx:282 | after `set` the key reads as the new value and occurs exactly once |
| UrlParams.LookupAppend | src/features/admin/products/components/product-list-table.tsx:282 | appending a new key makes it read as its value |
| UrlParams.ReplaceFirstReads | src/features/admin/products/components/product-list-table.tsx:282 | replacing the first occurrence makes the key read as the new value, exactly once |
| UrlParams.WithSetKeepsOthers | src/features/admin/products/components/product-list-table.tsx:221 | `set` keeps the pairs of every other key as they were, in order |
| UrlParams.ReplaceFirstKeepsOthers | src/features/admin/products/components/product-list-table.tsx:221 | replacing a key's first pair keeps the pairs of every other key as they were |
| UrlParams.OtherKeysUnchanged | src/features/admin/products/components/product-list-table.tsx:221 | every other key reads the same after `set` or `delete` |
| UrlParams.SearchParams.Get | src/features/admin/products/components/product-list-table.tsx:222-223 | the scan returns the first pair's value for the key, or nothing |
| UrlParams.SearchParams.Set | src/features/admin/products/components/product-list-table.tsx:230-232 | the pairs become those of `set` on the old pairs |
| UrlParams.SearchParams.Delete | src/features/admin/products/components/product-list-table.tsx:236-237 | the pairs become the old ones without the key |
| ListNavigation.LeadingDigits | src/features/admin/products/components/product-list-table.tsx:247 | the longest run of digits at the start of the text |
| ListNavigation.NatTextDigits | src/features/admin/products/components/product-list-table.tsx:282 | `String(n)` of a natural number is a non-empty digit string whose value is n |
| ListNavigation.LeadingDigitsOfDigits | src/features/admin/products/components/product-list-table.tsx:247 | a digit string is read whole |
| ListNavigation.ParseIntText | src/features/admin/products/components/product-list-table.tsx:247 | `parseInt(String(n), 10)` gives back n for every integer |
| ListNavigation.HandleSortChange | src/features/admin/products/components/product-list-table.tsx:220-241 | the handler navigates exactly as SortNavigation says |
| ListNavigation.NewSortNavigates | src/features/admin/products/components/product-list-table.tsx:225-234 | an unchanged sort does not navigate; a new one sets sortBy, sortOrder (asc when missing) and page 1, keeps other keys, and the page then shows that sort |
| ListNavigation.ClearedSortNavigates | src/features/admin/products/components/product-list-table.tsx:235-240 | clearing navigates only when sortBy was set, deleting sortBy and sortOrder, setting page 1 and keeping the other keys |
| ListNavigation.SortModelDefaults | src/features/admin/products/components/product-list-table.tsx:243-245 | the shown sort is empty exactly without sortBy, and its direction defaults to desc |
| ListNavigation.PageNavigationLands | src/features/admin/products/components/product-list-table.tsx:276-284 | grid page p navigates only when URL page differs from p+1, and then to a URL whose page reads p+1 with other keys kept |
| ListNavigation.PaginatedTable.constructor | src/features/admin/products/components/product-list-table.tsx:247-252 | the grid starts at URL page minus one, not navigating |
| ListNavigation.PaginatedTable.SyncWithUrl | src/features/admin/products/components/product-list-table.tsx:254-266 | the effect clears the navigating flag and takes the URL page and size unless both already agree |
| ListNavigation.PaginatedTable.HandlePageChange | src/features/admin/products/components/product-list-table.tsx:268-285 | while navigating the event is ignored; otherwise it navigates as PageNavigation says and marks navigation in flight |
| ListNavigation.UpdateParams | src/features/admin/products/components/product-list-filters.tsx:34-50 | the handler navigates exactly as FilterNavigation says |
| ListNavigation.HandleSearchKeyDown | src/features/admin/products/components/product-list-filters.tsx:52-56 | only the Enter key applies the search |
| ListNavigation.HandleStatusChange | src/features/admin/products/components/product-list-filters.tsx:58-60 | a status change applies the same rule to the status key |
| ListNavigation.FilterNavigationReads | src/features/admin/products/components/product-list-filters.tsx:36-43 | a non-empty value other than "all" sets the key, while "" or "all" deletes it; page is always removed and other keys read the same |
| ListNavigation.NoPageIsFirstPage | src/features/admin/products/components/product-list-table.tsx:247 | a URL without page reads as page 1 |

## Left out

- Billing-provider sync: the Paddle ids are plain fields copied from the input.
- SQL text search: `ILIKE` is a case-insensitive substring test. Its `%` and `_` wildcards inside the search term are not modelled. Case folding is ASCII only.
- Collation: `COLLATE "C"` and text order are a code-point comparison on `seq<char>`.
- Cache and crypto: `revalidatePath`, bcrypt, TOTP and qrcode are not modelled. The two checks are oracle parameters. `generateTwoFactorSecret` and `adminLogout` are not modelled.
- Session storage: JWT signing, cookie storage and `decrypt` are not modelled. The route guard takes the decrypted admin id as a parameter. The created session is returned as `AdminAuth.LoggedIn`.
- Locale messages: loading of the locale message files is not modelled. A failure to read the cookie or the messages is the single case `LocaleChoice.ReadFailed`.
- Zod: under zod 3, `.partial()` wraps each field in an optional schema that returns undefined for a missing key without running its `.default()`. The update schema's "absent stays absent" is therefore the library's own behaviour, not a simplification. The wording of zod's own enum, null and URL messages is approximate.
- ToolSchema.IsUrl: approximates `z.string().url()` as a scheme, then ':' and a non-empty rest. The scheme is a letter followed by letters, digits, '+', '-' or '.'. No "//" is required, so `IsUrl("a:b")` holds. WHATWG URL parsing is not modelled.
- Numbers: tool numbers are `real`, to capture `.int()`. Product prices are the strings the form submits, which the schema does not check; the database reads them with the numeric input function.
- PgInput.PgNumericText: does not model `_` between digits or the `0x`, `0o` and `0b` forms, which recent PostgreSQL versions accept and the model refuses, nor an exponent too large for numeric, which PostgreSQL refuses and the model accepts.
- Order ties: `Common.SortBy` is stable and keeps table order among rows with equal sort keys. PostgreSQL leaves their order open, and each query of a paged list may settle it differently, so with LIMIT/OFFSET a row can show on two pages or on none. The model's pages never do this.
- Integer parameters: a usage limit of 10^21 or more reaches the database in exponent form, which integer refuses as invalid text; the model reports it as out of range. Either way the statement fails.
- Uuid parameters: ids the database generates, ids the tool validator has checked and ids an earlier statement of the same action has read are not re-checked when they are bound again. The `admins` and `admin_logs` tables are not declared in src/lib/db/schema.ts, so their id type is unknown, and `AdminQueries.GetAdminDetail` takes any text.
- Bundle sort order: `product_tools.sort_order` is not declared in src/lib/db/schema.ts, so its type is unknown and a sortOrder is not checked against a range.
- Refused lookups: `ProductQueries.FetchProductById`, `ToolQueries.FetchToolById` and `MemberQueries.FetchMemberDetail` return the refusal as a query error. What the detail pages then show is not modelled.
- ProductSchema.ParseToolEntry: the bundled tools' `sortOrder` and `quotaAllocation` are integers. `z.number()` in src/features/admin/products/schema.ts:14-15 also accepts fractions, which the integer columns would then refuse; that failure is not modelled.
- ProductQueries.ProductList: the list pages hand the query `parseInt(page || "1", 10)` (src/app/(dashboard)/products/list/page.tsx:26 and the other list pages). The model's `page` is an integer or absent, so a page text that does not parse, which yields NaN there, is not modelled. ToolQueries.ToolList, MemberQueries.MemberList, AdminQueries.AdminList and AdminQueries.AdminLogs take `page` the same way.
- Column nullability: these columns are nullable in src/lib/db/schema.ts but are modelled as non-null, since the actions always write them:
  - `tools`: `tool_code`, `is_free`, `is_active`, `created_at` and `updated_at`;
  - `tool_i18n`: `language_code` and `description`;
  - `products`: `is_active`;
  - `products_i18n`: `language_code`, `name`, `currency_code` and `price`.
  A row with NULL `is_active` written by something else would pass neither the 'active' nor the 'inactive' status filter; the model cannot hold such a row.
- Undeclared columns: `products` and `product_tools` carry the columns the actions and queries write. These are absent from the table declarations in src/lib/db/schema.ts. The `admins` and `admin_logs` tables are not declared there at all; their rows hold the fields the queries read.
- Row ids: the `product_tools` row id is not modelled. The detail query's `id` of a bundled tool is therefore absent.
- Other schema tables: tables and enums of src/lib/db/schema.ts outside the catalog, member and admin tables are not modelled.
- Clock: the current time is the parameter `now`. It stands for `new Date()` in the product actions and in the `createdAt || new Date()` fallback of the member list. It also stands for the database's `CURRENT_TIMESTAMP`, which the tool update and status toggle write to `updated_at` (src/features/admin/tools/actions.ts:90 and 156). Tool creation writes no timestamp and relies on the `created_at`/`updated_at` column defaults, which the model fills with `now` too.
- Rendering: the React screens, forms and dialogs are not modelled. Only the query-string rules of the product list table and filters are. The admin, member and log tables repeat those handlers with another route, which `ListNavigation` takes as a parameter.
- AdminQueries.AdminSortKey: what the admin list query does with a sortBy that names no column of `admins` is not modelled. The source passes `admins[sortBy]`, then undefined, to the ORDER BY (src/features/admin/admins/queries.ts:105-109), and the list page forwards any sortBy from the URL. The model gives every row the NULL key for such a name, so the rows keep table order.
- ListNavigation.ParseInt: white space skipped before the digits is limited to space, tab, newline and carriage return.
- Route matcher: `RouteGuard.MatcherAdmits` models the matcher pattern on the pathname only. Next.js's extra matching of `/_next/data` requests and of trailing slashes is not modelled.
- ProductActions.SearchTools: the search query has no ORDER BY, so the database may return the tools in any order. The model returns them in table order.
- Concurrency: concurrent requests and the interleaving of the two queries a list page issues are not modelled. Each query reads one snapshot.

=== FILE: admin_queries.dfy ===
/** The admin log list, the admin list and the admin detail reads: optional
    filters, newest-first ordering, `||` defaults and the page count. */
module AdminQueries {
  import opened Common
  import opened DbSchema

  // ---------------------------------------------------------------- the log list

  datatype AdminLogParams = AdminLogParams(page: Option<int>, pageSize: Option<int>, adminId: Option<Id>)

  /** A log entry joined with the admin who wrote it. */
  datatype AdminLogItem = AdminLogItem(
    id: Id,
    action: string,
    target: string,
    ipAddress: string,
    createdAt: Time,
    adminId: Id,
    adminName: string,
    adminEmail: string,
    adminImage: Option<string>)

  datatype AdminLogPage = AdminLogPage(data: seq<AdminLogItem>, total: nat, page: int, pageSize: int, totalPages: Option<nat>)

  /** `adminLogs.adminId = adminId`, added only when a non-empty id is given. */
  function LogFilter(adminId: Option<Id>): (f: AdminLogRow -> bool)
    ensures adminId.Some? && adminId.value != "" ==> forall l :: f(l) <==> l.adminId == adminId.value
    ensures adminId.None? || adminId.value == "" ==> forall l :: f(l)
  {
    (l: AdminLogRow) => adminId.None? || adminId.value == "" || l.adminId == adminId.value
  }

  function LogKey(l: AdminLogRow): SortKey {
    if l.createdAt.Some? then KInt(l.createdAt.value) else KNull
  }

  function LogRowKey(row: Joined<AdminLogRow, AdminRow>): SortKey {
    LogKey(row.left)
  }

  /** The join condition `adminLogs.adminId = admins.id`. */
  function WrittenBy(l: AdminLogRow): AdminRow -> bool {
    (a: AdminRow) => l.adminId == a.id
  }

  /** A log row shaped for display: the log's own columns, with a missing
      address read as "" and a missing time as `now`; the admin's name,
      email and image come from the joined admin, and a missing or empty
      name reads "Unknown", a missing or empty email "", and a missing or
      empty image is left out. */
  function LogItemOf(row: Joined<AdminLogRow, AdminRow>, now: Time): (item: AdminLogItem)
    ensures item.id == row.left.id && item.action == row.left.action && item.target == row.left.target
    ensures item.adminId == row.left.adminId
    ensures row.left.ipAddress.Some? && row.left.ipAddress.value != "" ==> item.ipAddress == row.left.ipAddress.value
    ensures row.left.ipAddress.None? || row.left.ipAddress.value == "" ==> item.ipAddress == ""
    ensures row.left.createdAt.Some? ==> item.createdAt == row.left.createdAt.value
    ensures row.left.createdAt.None? ==> item.createdAt == now
    ensures row.right.Some? && row.right.value.name != "" ==> item.adminName == row.right.value.name
    ensures row.right.None? || row.right.value.name == "" ==> item.adminName == "Unknown"
    ensures row.right.Some? && row.right.value.email != "" ==> item.adminEmail == row.right.value.email
    ensures row.right.None? || row.right.value.email == "" ==> item.adminEmail == ""
    ensures item.adminImage.Some? <==> row.right.Some? && row.right.value.profileImageUrl.Some? && row.right.value.profileImageUrl.value != ""
    ensures item.adminImage.Some? ==> item.adminImage == row.right.value.profileImageUrl
  {
    var l := row.left;
    AdminLogItem(
      l.id,
      l.action,
      l.target,
      OrText(l.ipAddress, ""),
      OrElse(l.createdAt, now),
      l.adminId,
      OrText(if row.right.Some? then Some(row.right.value.name) else None, "Unknown"),
      OrText(if row.right.Some? then Some(row.right.value.email) else None, ""),
      if row.right.Some? then Truthy(row.right.value.profileImageUrl) else None)
  }

  function OrderedLogRows(admins: seq<AdminRow>, logs: seq<AdminLogRow>, adminId: Option<Id>): seq<Joined<AdminLogRow, AdminRow>> {
    SortBy(LeftJoin(Where(logs, LogFilter(adminId)), admins, WrittenBy), LogRowKey, true)
  }

  /** getAllAdminLogs: the filtered logs with their admins, newest first, one
      page of them, the filtered count and the page count. */
  function AdminLogs(admins: seq<AdminRow>, logs: seq<AdminLogRow>, params: AdminLogParams, now: Time): QueryResult<AdminLogPage> {
    var page := OrElse(params.page, 1);
    var pageSize := OrElse(params.pageSize, 10);
    var rows := PageOf(OrderedLogRows(admins, logs, params.adminId), page, pageSize);
    if rows.QueryFailed? then QueryFailed(rows.error)
    else
      var total := |Where(logs, LogFilter(params.adminId))|;
      Rows(AdminLogPage(
        seq(|rows.value|, i requires 0 <= i < |rows.value| => LogItemOf(rows.value[i], now)),
        total, page, pageSize, TotalPages(total, pageSize)))
  }

  /** Admin ids are unique (the primary key of the admins table). */
  predicate UniqueAdminIds(admins: seq<AdminRow>) {
    forall i, j :: 0 <= i < j < |admins| ==> admins[i].id != admins[j].id
  }

  lemma UniqueIdsJoinOnce(admins: seq<AdminRow>, l: AdminLogRow)
    requires UniqueAdminIds(admins)
    ensures |Where(admins, WrittenBy(l))| <= 1
  {
    WhereAtMostOne(admins, WrittenBy(l));
  }

  /** The page defaults to 1 and its size to 10, and fails only for a
      negative window. The total counts the logs passing the same filter as
      the page, and the page count is the least number of pages holding them
      (undefined for a zero page size). With unique admin ids the joined list
      has exactly one row per counted log. */
  lemma AdminLogsCounts(admins: seq<AdminRow>, logs: seq<AdminLogRow>, params: AdminLogParams, now: Time)
    ensures var page := OrElse(params.page, 1);
      var pageSize := OrElse(params.pageSize, 10);
      var r := AdminLogs(admins, logs, params, now);
      var total := |Where(logs, LogFilter(params.adminId))|;
      && (r.Rows? <==> pageSize >= 0 && (page >= 1 || pageSize == 0))
      && (r.Rows? ==>
            && r.value.total == total
            && r.value.page == page && r.value.pageSize == pageSize
            && |r.value.data| <= pageSize
            && |r.value.data| == PageLength(|OrderedLogRows(admins, logs, params.adminId)|, page, pageSize)
            && (r.value.totalPages.Some? <==> pageSize > 0)
            && (r.value.totalPages.Some? ==> total <= r.value.totalPages.value * pageSize < total + pageSize))
    ensures UniqueAdminIds(admins) ==> |OrderedLogRows(admins, logs, params.adminId)| == |Where(logs, LogFilter(params.adminId))|
  {
    var filtered := Where(logs, LogFilter(params.adminId));
    var joined := LeftJoin(filtered, admins, WrittenBy);
    SortByLength(joined, LogRowKey, true);
    if UniqueAdminIds(admins) {
      forall i | 0 <= i < |filtered| ensures |Where(admins, WrittenBy(filtered[i]))| <= 1 {
        UniqueIdsJoinOnce(admins, filtered[i]);
      }
      LeftJoinLength(filtered, admins, WrittenBy);
    }
  }

  /** A row of the ordered log list is a log passing the filter, paired with
      the admin who wrote it or with nothing when no admin has its id. */
  lemma OrderedLogRow(admins: seq<AdminRow>, logs: seq<AdminLogRow>, adminId: Option<Id>, row: Joined<AdminLogRow, AdminRow>)
    requires row in OrderedLogRows(admins, logs, adminId)
    ensures row.left in logs && LogFilter(adminId)(row.left)
    ensures row.right.Some? ==> row.right.value in admins && row.right.value.id == row.left.adminId
    ensures row.right.None? ==> forall a :: a in admins ==> a.id != row.left.adminId
  {
    var filtered := Where(logs, LogFilter(adminId));
    var joined := LeftJoin(filtered, admins, WrittenBy);
    SortByMembers(joined, LogRowKey, true);
    LeftJoinRows(filtered, admins, WrittenBy);
    WhereMembers(logs, LogFilter(adminId));
    assert JoinedRow(admins, WrittenBy, row);
    if row.right.None? {
      forall a | a in admins ensures a.id != row.left.adminId {
        var j :| 0 <= j < |admins| && admins[j] == a;
        assert !WrittenBy(row.left)(admins[j]);
      }
    }
  }

  /** Log `i` of a page is the display form of row `offset + i` of the
      joined list ordered newest first. Each log on a page passes the admin
      filter and shows the admin who wrote it, or "Unknown" when that admin
      is gone. */
  lemma AdminLogsRows(admins: seq<AdminRow>, logs: seq<AdminLogRow>, params: AdminLogParams, now: Time)
    ensures SortedBy(OrderedLogRows(admins, logs, params.adminId), LogRowKey, true)
    ensures var r := AdminLogs(admins, logs, params, now);
      var ordered := OrderedLogRows(admins, logs, params.adminId);
      var offset := Offset(OrElse(params.page, 1), OrElse(params.pageSize, 10));
      r.Rows? ==> forall i :: 0 <= i < |r.value.data| ==>
        0 <= offset + i < |ordered| && r.value.data[i] == LogItemOf(ordered[offset + i], now)
    ensures var r := AdminLogs(admins, logs, params, now);
      r.Rows? ==> forall i :: 0 <= i < |r.value.data| ==>
        (exists l :: && l in logs && LogFilter(params.adminId)(l)
                     && r.value.data[i].id == l.id && r.value.data[i].adminId == l.adminId
                     && ((forall a :: a in admins ==> a.id != l.adminId) ==> r.value.data[i].adminName == "Unknown"))
  {
    var ordered := OrderedLogRows(admins, logs, params.adminId);
    SortByCorrect(LeftJoin(Where(logs, LogFilter(params.adminId)), admins, WrittenBy), LogRowKey, true);
    var r := AdminLogs(admins, logs, params, now);
    if r.Rows? {
      LogPageRows(admins, logs, params, now);
      var offset := Offset(OrElse(params.page, 1), OrElse(params.pageSize, 10));
      forall i | 0 <= i < |r.value.data|
        ensures exists l :: && l in logs && LogFilter(params.adminId)(l)
                            && r.value.data[i].id == l.id && r.value.data[i].adminId == l.adminId
                            && ((forall a :: a in admins ==> a.id != l.adminId) ==> r.value.data[i].adminName == "Unknown")
      {
        var row := ordered[offset + i];
        assert row in ordered;
        OrderedLogRow(admins, logs, params.adminId, row);
      }
    }
  }

  /** Log `i` of a page is the display form of row `offset + i` of the
      ordered list. */
  lemma LogPageRows(admins: seq<AdminRow>, logs: seq<AdminLogRow>, params: AdminLogParams, now: Time)
    requires AdminLogs(admins, logs, params, now).Rows?
    ensures var r := AdminLogs(admins, logs, params, now);
      var ordered := OrderedLogRows(admins, logs, params.adminId);
      var offset := Offset(OrElse(params.page, 1), OrElse(params.pageSize, 10));
      forall i :: 0 <= i < |r.value.data| ==> 0 <= offset + i < |ordered| && r.value.data[i] == LogItemOf(ordered[offset + i], now)
  {
    var window := PageOf(OrderedLogRows(admins, logs, params.adminId), OrElse(params.page, 1), OrElse(params.pageSize, 10));
    assert window.Rows?;
  }

  // ---------------------------------------------------------------- the admin list

  datatype AdminListParams = AdminListParams(
    page: Option<int>,
    pageSize: Option<int>,
    sortBy: Option<string>,
    sortOrder: Option<string>,
    search: Option<string>,
    status: Option<string>)

  datatype AdminListItem = AdminListItem(
    id: Id,
    name: string,
    email: string,
    role: string,
    status: string,
    image: Option<string>,
    lastLoginAt: Option<Time>,
    createdAt: Time)

  datatype AdminListPage = AdminListPage(data: seq<AdminListItem>, total: nat, page: int, pageSize: int, totalPages: Option<nat>)

  /** The where-clause shared by the page and the count: a non-empty search
      matches name or email case-insensitively, a non-empty status matches
      exactly. */
  function AdminFilter(search: Option<string>, status: Option<string>): AdminRow -> bool {
    (a: AdminRow) =>
      && (search.None? || search.value == "" ||
          ContainsIgnoringCase(a.name, LowerText(search.value)) || ContainsIgnoringCase(a.email, LowerText(search.value)))
      && (status.None? || status.value == "" || a.status == status.value)
  }

  /** The admin filter in terms of the raw search text: lower-casing it first
      changes nothing, since the match ignores case anyway. */
  lemma AdminFilterIff(search: Option<string>, status: Option<string>, a: AdminRow)
    ensures AdminFilter(search, status)(a) <==>
      && (search.None? || search.value == "" || ContainsIgnoringCase(a.name, search.value) || ContainsIgnoringCase(a.email, search.value))
      && (status.None? || status.value == "" || a.status == status.value)
  {
    if search.Some? {
      LoweredQueryMatchesSame(a.name, search.value);
      LoweredQueryMatchesSame(a.email, search.value);
    }
  }

  function KeyOfTime(t: Option<Time>): SortKey {
    if t.Some? then KInt(t.value) else KNull
  }

  function KeyOfText(t: Option<string>): SortKey {
    if t.Some? then KText(t.value) else KNull
  }

  /** The column `admins[sortBy]`. For a name that is not a column the
      query's behaviour is not modelled: every row gets the NULL key, so
      the rows keep table order. */
  function AdminSortKey(sortBy: string): AdminRow -> SortKey {
    (a: AdminRow) =>
      if sortBy == "id" then KText(a.id)
      else if sortBy == "name" then KText(a.name)
      else if sortBy == "email" then KText(a.email)
      else if sortBy == "role" then KText(a.role)
      else if sortBy == "status" then KText(a.status)
      else if sortBy == "profileImageUrl" then KeyOfText(a.profileImageUrl)
      else if sortBy == "lastLoginAt" then KeyOfTime(a.lastLoginAt)
      else if sortBy == "createdAt" then KeyOfTime(a.createdAt)
      else if sortBy == "updatedAt" then KeyOfTime(a.updatedAt)
      else if sortBy == "password" then KeyOfText(a.password)
      else if sortBy == "twoFactorEnabled" then KBool(a.twoFactorEnabled)
      else if sortBy == "twoFactorSecret" then KeyOfText(a.twoFactorSecret)
      else KNull
  }

  function AdminItemOf(a: AdminRow, now: Time): AdminListItem {
    AdminListItem(a.id, a.name, a.email, a.role, a.status, Truthy(a.profileImageUrl), a.lastLoginAt, OrElse(a.createdAt, now))
  }

  function OrderedAdmins(admins: seq<AdminRow>, params: AdminListParams): seq<AdminRow> {
    SortBy(Where(admins, AdminFilter(params.search, params.status)),
           AdminSortKey(OrElse(params.sortBy, "createdAt")), OrElse(params.sortOrder, "desc") == "desc")
  }

  /** getAdminList. */
  function AdminList(admins: seq<AdminRow>, params: AdminListParams, now: Time): QueryResult<AdminListPage> {
    var page := OrElse(params.page, 1);
    var pageSize := OrElse(params.pageSize, 10);
    var rows := PageOf(OrderedAdmins(admins, params), page, pageSize);
    if rows.QueryFailed? then QueryFailed(rows.error)
    else
      var total := |Where(admins, AdminFilter(params.search, params.status))|;
      Rows(AdminListPage(
        seq(|rows.value|, i requires 0 <= i < |rows.value| => AdminItemOf(rows.value[i], now)),
        total, page, pageSize, TotalPages(total, pageSize)))
  }

  /** The total counts the admins passing the same where-clause as the page;
      admin `i` of the page is the display form of admin `offset + i` of the
      ordered list, and so passes it; the page count is the least number of
      pages holding them. */
  lemma AdminListCounts(admins: seq<AdminRow>, params: AdminListParams, now: Time)
    ensures var page := OrElse(params.page, 1);
      var pageSize := OrElse(params.pageSize, 10);
      var r := AdminList(admins, params, now);
      var matching := Where(admins, AdminFilter(params.search, params.status));
      && (r.Rows? <==> pageSize >= 0 && (page >= 1 || pageSize == 0))
      && (r.Rows? ==>
            && r.value.total == |matching|
            && r.value.page == page && r.value.pageSize == pageSize
            && |r.value.data| <= pageSize
            && |r.value.data| == PageLength(|matching|, page, pageSize)
            && (r.value.totalPages.Some? <==> pageSize > 0)
            && (r.value.totalPages.Some? ==> |matching| <= r.value.totalPages.value * pageSize < |matching| + pageSize)
            && (forall i :: 0 <= i < |r.value.data| ==>
                 0 <= Offset(page, pageSize) + i < |matching|
                 && r.value.data[i] == AdminItemOf(OrderedAdmins(admins, params)[Offset(page, pageSize) + i], now))
            && forall i :: 0 <= i < |r.value.data| ==>
                 exists a :: a in admins && AdminFilter(params.search, params.status)(a) && r.value.data[i] == AdminItemOf(a, now))
  {
    var matching := Where(admins, AdminFilter(params.search, params.status));
    SortByLength(matching, AdminSortKey(OrElse(params.sortBy, "createdAt")), OrElse(params.sortOrder, "desc") == "desc");
    var r := AdminList(admins, params, now);
    if r.Rows? {
      AdminPageRows(admins, params, now);
      var ordered := OrderedAdmins(admins, params);
      var offset := Offset(OrElse(params.page, 1), OrElse(params.pageSize, 10));
      forall i | 0 <= i < |r.value.data|
        ensures exists a :: a in admins && AdminFilter(params.search, params.status)(a) && r.value.data[i] == AdminItemOf(a, now)
      {
        OrderedAdminPasses(admins, params, ordered[offset + i]);
      }
    }
  }

  lemma OrderedAdminPasses(admins: seq<AdminRow>, params: AdminListParams, a: AdminRow)
    requires a in OrderedAdmins(admins, params)
    ensures a in admins && AdminFilter(params.search, params.status)(a)
  {
    SortByMembers(Where(admins, AdminFilter(params.search, params.status)),
                  AdminSortKey(OrElse(params.sortBy, "createdAt")), OrElse(params.sortOrder, "desc") == "desc");
    WhereMembers(admins, AdminFilter(params.search, params.status));
  }

  /** Admin `i` of a page is the display form of admin `offset + i` of the
      ordered list. */
  lemma AdminPageRows(admins: seq<AdminRow>, params: AdminListParams, now: Time)
    requires AdminList(admins, params, now).Rows?
    ensures var r := AdminList(admins, params, now);
      var ordered := OrderedAdmins(admins, params);
      var offset := Offset(OrElse(params.page, 1), OrElse(params.pageSize, 10));
      forall i :: 0 <= i < |r.value.data| ==> 0 <= offset + i < |ordered| && r.value.data[i] == AdminItemOf(ordered[offset + i], now)
  {
    var window := PageOf(OrderedAdmins(admins, params), OrElse(params.page, 1), OrElse(params.pageSize, 10));
    assert window.Rows?;
  }

  /** The ordered list the admin pages are cut from holds exactly the admins
      passing the where-clause, each as often as in the table, ordered by the
      requested column (creation time by default), any order other than
      'desc' being ascending. */
  lemma AdminListOrder(admins: seq<AdminRow>, params: AdminListParams)
    ensures multiset(OrderedAdmins(admins, params)) == multiset(Where(admins, AdminFilter(params.search, params.status)))
    ensures SortedBy(OrderedAdmins(admins, params), AdminSortKey(OrElse(params.sortBy, "createdAt")), OrElse(params.sortOrder, "desc") == "desc")
  {
    SortByCorrect(Where(admins, AdminFilter(params.search, params.status)),
                  AdminSortKey(OrElse(params.sortBy, "createdAt")), OrElse(params.sortOrder, "desc") == "desc");
  }

  // ---------------------------------------------------------------- the detail

  datatype AdminLogEntry = AdminLogEntry(id: Id, action: string, target: string, ipAddress: string, createdAt: Time)

  datatype AdminDetail = AdminDetail(
    id: Id,
    name: string,
    email: string,
    role: string,
    status: string,
    profileImage: Option<string>,
    lastLoginAt: Option<Time>,
    createdAt: Time,
    updatedAt: Time,
    twoFactorEnabled: bool,
    logs: seq<AdminLogEntry>)

  function LogEntryOf(l: AdminLogRow, now: Time): AdminLogEntry {
    AdminLogEntry(l.id, l.action, l.target, OrText(l.ipAddress, ""), OrElse(l.createdAt, now))
  }

  /** `adminLogs.adminId = id`. */
  function LogOf(id: Id): AdminLogRow -> bool {
    (l: AdminLogRow) => l.adminId == id
  }

  /** The admin's twenty newest log rows: twenty of them, or all when there
      are fewer, newest first, every row left out being no newer than the
      last one kept. */
  function RecentLogs(logs: seq<AdminLogRow>, id: Id): (recent: seq<AdminLogRow>)
    ensures var own := Where(logs, LogOf(id));
      && |recent| == Min(20, |own|)
      && (forall i :: 0 <= i < |recent| ==> recent[i] in logs && recent[i].adminId == id)
      && (forall i, j :: 0 <= i < j < |recent| ==> Ordered(LogKey(recent[i]), LogKey(recent[j]), true))
      && multiset(recent) <= multiset(own)
      && (|recent| > 0 ==> forall x :: x in multiset(own) - multiset(recent) ==> Ordered(LogKey(recent[|recent| - 1]), LogKey(x), true))
  {
    TopRows(logs, LogOf(id), LogKey, true, 20);
    Take(SortBy(Where(logs, LogOf(id)), LogKey, true), 20)
  }

  /** getAdminDetail: `None` for an unknown admin id. */
  function GetAdminDetail(admins: seq<AdminRow>, logs: seq<AdminLogRow>, id: Id, now: Time): Option<AdminDetail> {
    var admin := First(admins, (a: AdminRow) => a.id == id);
    if admin.None? then None
    else
      var a := admin.value;
      var recent := RecentLogs(logs, id);
      Some(AdminDetail(
        a.id, a.name, a.email, a.role, a.status, Truthy(a.profileImageUrl), a.lastLoginAt,
        OrElse(a.createdAt, now), OrElse(a.updatedAt, now), a.twoFactorEnabled,
        seq(|recent|, i requires 0 <= i < |recent| => LogEntryOf(recent[i], now))))
  }

  /** The detail exists exactly for a known admin. It lists the admin's
      twenty newest log entries: twenty of them, or all when there are fewer,
      newest first, every entry left out being no newer than the last one
      listed. */
  lemma AdminDetailLogs(admins: seq<AdminRow>, logs: seq<AdminLogRow>, id: Id, now: Time)
    ensures var d := GetAdminDetail(admins, logs, id, now);
      && (d.Some? <==> exists a :: a in admins && a.id == id)
      && (d.Some? ==> d.value.id == id && |d.value.logs| == |RecentLogs(logs, id)|
                      && forall i :: 0 <= i < |d.value.logs| ==> d.value.logs[i] == LogEntryOf(RecentLogs(logs, id)[i], now))
    ensures var own := Where(logs, LogOf(id));
      var recent := RecentLogs(logs, id);
      && |recent| == Min(20, |own|)
      && (forall i :: 0 <= i < |recent| ==> recent[i] in logs && recent[i].adminId == id)
      && (forall i, j :: 0 <= i < j < |recent| ==> Ordered(LogKey(recent[i]), LogKey(recent[j]), true))
      && multiset(recent) <= multiset(own)
      && (|recent| > 0 ==> forall x :: x in multiset(own) - multiset(recent) ==> Ordered(LogKey(recent[|recent| - 1]), LogKey(x), true))
  {
  }
}

=== FILE: auth_actions.dfy ===
/** Admin sign-in and the two-factor switches. Password hashing and one-time
    codes are foreign calls, so they enter as boolean oracles: `PasswordCheck`
    answers bcrypt's compare(password, hash), `OtpCheck` the TOTP verify of a
    token against a secret. */
module AdminAuth {
  import opened Common
  import opened DbSchema

  type PasswordCheck = (string, string) -> bool
  type OtpCheck = (string, string) -> bool

  // ---------------------------------------------------------------- sign-in

  /** The submitted form: a field the form did not carry is `None`. */
  datatype LoginForm = LoginForm(email: Option<string>, password: Option<string>, twoFactorToken: Option<string>)

  /** The payload of the session cookie the action creates. */
  datatype Session = Session(adminId: Id, email: string, role: string)

  datatype LoginResult =
    | LoginError(message: string)
    | TwoFactorRequired
    | LoggedIn(session: Session)

  const MissingFieldsMessage: string := "Email and password are required"
  const InvalidCredentialsMessage: string := "Invalid credentials"
  const TwoFactorConfigMessage: string := "2FA configuration error"
  const InvalidTwoFactorMessage: string := "Invalid 2FA code"

  /** A form value or a column that JavaScript reads as true: present and
      non-empty. */
  predicate Filled(s: Option<string>) {
    s.Some? && s.value != ""
  }

  /** `SELECT ... WHERE email = $1`, first row. */
  function AdminByEmail(admins: seq<AdminRow>, email: string): Option<AdminRow> {
    First(admins, (a: AdminRow) => a.email == email)
  }

  /** adminLogin: the checks in their order; a session is the last step. */
  function AdminLogin(admins: seq<AdminRow>, form: LoginForm, passwordMatches: PasswordCheck, otpValid: OtpCheck): LoginResult {
    if !Filled(form.email) || !Filled(form.password) then LoginError(MissingFieldsMessage)
    else
      var admin := AdminByEmail(admins, form.email.value);
      if admin.None? || !Filled(admin.value.password) then LoginError(InvalidCredentialsMessage)
      else if !passwordMatches(form.password.value, admin.value.password.value) then LoginError(InvalidCredentialsMessage)
      else if admin.value.twoFactorEnabled && !Filled(form.twoFactorToken) then TwoFactorRequired
      else if admin.value.twoFactorEnabled && !Filled(admin.value.twoFactorSecret) then LoginError(TwoFactorConfigMessage)
      else if admin.value.twoFactorEnabled && !otpValid(form.twoFactorToken.value, admin.value.twoFactorSecret.value) then
        LoginError(InvalidTwoFactorMessage)
      else LoggedIn(Session(admin.value.id, admin.value.email, admin.value.role))
  }

  /** A missing email or password is refused before the admins table is read:
      the answer is the same whatever the table holds. */
  lemma MissingFieldsRefused(admins: seq<AdminRow>, form: LoginForm, passwordMatches: PasswordCheck, otpValid: OtpCheck)
    requires !Filled(form.email) || !Filled(form.password)
    ensures AdminLogin(admins, form, passwordMatches, otpValid) == LoginError(MissingFieldsMessage)
    ensures forall other :: AdminLogin(other, form, passwordMatches, otpValid) == AdminLogin(admins, form, passwordMatches, otpValid)
  {
  }

  /** An unknown email, an admin without a stored hash and a wrong password
      all get the same answer, so the answer does not tell which one it was. */
  lemma CredentialFailuresLookAlike(admins: seq<AdminRow>, form: LoginForm, passwordMatches: PasswordCheck, otpValid: OtpCheck)
    requires Filled(form.email) && Filled(form.password)
    requires || (forall a :: a in admins ==> a.email != form.email.value)
             || (exists i :: 0 <= i < |admins| && admins[i].email == form.email.value && !Filled(admins[i].password)
                  && forall j :: 0 <= j < i ==> admins[j].email != form.email.value)
             || (exists i :: 0 <= i < |admins| && admins[i].email == form.email.value && Filled(admins[i].password)
                  && !passwordMatches(form.password.value, admins[i].password.value)
                  && forall j :: 0 <= j < i ==> admins[j].email != form.email.value)
    ensures AdminLogin(admins, form, passwordMatches, otpValid) == LoginError(InvalidCredentialsMessage)
  {
    if i :| 0 <= i < |admins| && admins[i].email == form.email.value && forall j :: 0 <= j < i ==> admins[j].email != form.email.value {
      FirstAt(admins, (a: AdminRow) => a.email == form.email.value, i);
    }
  }

  /** A session is created exactly when every check passes: both fields are
      filled, the first admin with the email has a hash the password matches,
      and, when that admin has two-factor sign-in on, a token is given, a
      secret is stored and the token verifies against it. The session is that
      admin's. */
  lemma LoginSucceedsIff(admins: seq<AdminRow>, form: LoginForm, passwordMatches: PasswordCheck, otpValid: OtpCheck)
    ensures var r := AdminLogin(admins, form, passwordMatches, otpValid);
      r.LoggedIn? <==>
        && Filled(form.email) && Filled(form.password)
        && exists i :: && 0 <= i < |admins| && admins[i].email == form.email.value
                       && (forall j :: 0 <= j < i ==> admins[j].email != form.email.value)
                       && Filled(admins[i].password)
                       && passwordMatches(form.password.value, admins[i].password.value)
                       && (admins[i].twoFactorEnabled ==>
                             Filled(form.twoFactorToken) && Filled(admins[i].twoFactorSecret)
                             && otpValid(form.twoFactorToken.value, admins[i].twoFactorSecret.value))
                       && r == LoggedIn(Session(admins[i].id, admins[i].email, admins[i].role))
  {
    if Filled(form.email) && Filled(form.password) {
      var admin := AdminByEmail(admins, form.email.value);
      if admin.Some? {
        var k :| 0 <= k < |admins| && admins[k] == admin.value && forall j :: 0 <= j < k ==> admins[j].email != form.email.value;
        forall i | 0 <= i < |admins| && admins[i].email == form.email.value && (forall j :: 0 <= j < i ==> admins[j].email != form.email.value)
          ensures i == k
        {
          assert !(i < k) && !(k < i);
        }
      }
    }
  }

  /** An admin with two-factor sign-in on who passes the password check but
      sends no token is asked for one, and no session is created. */
  lemma TokenRequested(admins: seq<AdminRow>, form: LoginForm, passwordMatches: PasswordCheck, otpValid: OtpCheck)
    requires Filled(form.email) && Filled(form.password) && !Filled(form.twoFactorToken)
    requires AdminByEmail(admins, form.email.value).Some?
    requires var a := AdminByEmail(admins, form.email.value).value;
      a.twoFactorEnabled && Filled(a.password) && passwordMatches(form.password.value, a.password.value)
    ensures AdminLogin(admins, form, passwordMatches, otpValid) == TwoFactorRequired
  {
  }

  /** For an admin with two-factor sign-in off, the token plays no part: any
      token, or none, gives the same answer. */
  lemma TokenIgnoredWithoutTwoFactor(admins: seq<AdminRow>, form: LoginForm, token: Option<string>, passwordMatches: PasswordCheck, otpValid: OtpCheck)
    requires Filled(form.email)
    requires AdminByEmail(admins, form.email.value).Some?
    requires !AdminByEmail(admins, form.email.value).value.twoFactorEnabled
    ensures AdminLogin(admins, form.(twoFactorToken := token), passwordMatches, otpValid) == AdminLogin(admins, form, passwordMatches, otpValid)
    ensures AdminLogin(admins, form, passwordMatches, otpValid) != TwoFactorRequired
  {
  }

  // ---------------------------------------------------------------- the two-factor switches

  datatype TwoFactorResponse = TwoFactorDone | TwoFactorRejected(message: string)

  const InvalidOtpMessage: string := "Invalid OTP code"

  /** `UPDATE admins SET two_factor_enabled = true, two_factor_secret = secret
      WHERE id = adminId`. */
  function WithTwoFactor(admins: seq<AdminRow>, adminId: Id, secret: string): seq<AdminRow> {
    MapWhere(admins, (a: AdminRow) => a.id == adminId,
             (a: AdminRow) => a.(twoFactorEnabled := true, twoFactorSecret := Some(secret)))
  }

  /** `UPDATE admins SET two_factor_enabled = false, two_factor_secret = NULL
      WHERE id = adminId`. */
  function WithoutTwoFactor(admins: seq<AdminRow>, adminId: Id): seq<AdminRow> {
    MapWhere(admins, (a: AdminRow) => a.id == adminId,
             (a: AdminRow) => a.(twoFactorEnabled := false, twoFactorSecret := None))
  }

  /** Enabling changes the two 2FA columns of the admin's rows and nothing else. */
  lemma WithTwoFactorRows(admins: seq<AdminRow>, adminId: Id, secret: string)
    ensures var after := WithTwoFactor(admins, adminId, secret);
      && |after| == |admins|
      && forall i :: 0 <= i < |admins| ==>
           if admins[i].id == adminId then after[i] == admins[i].(twoFactorEnabled := true, twoFactorSecret := Some(secret))
           else after[i] == admins[i]
  {
  }

  /** Disabling clears the two 2FA columns of the admin's rows and nothing
      else; disabling twice is disabling once. */
  lemma WithoutTwoFactorRows(admins: seq<AdminRow>, adminId: Id)
    ensures var after := WithoutTwoFactor(admins, adminId);
      && |after| == |admins|
      && (forall i :: 0 <= i < |admins| ==>
            if admins[i].id == adminId then after[i] == admins[i].(twoFactorEnabled := false, twoFactorSecret := None)
            else after[i] == admins[i])
      && WithoutTwoFactor(after, adminId) == after
  {
    var after := WithoutTwoFactor(admins, adminId);
    var twice := WithoutTwoFactor(after, adminId);
    assert |twice| == |after|;
    forall i | 0 <= i < |after| ensures twice[i] == after[i] {
    }
  }

  /** Neither switch moves a row or changes an email, so the admin a sign-in
      finds by email is the same row, with the new 2FA columns. */
  lemma SwitchKeepsLookup(admins: seq<AdminRow>, adminId: Id, secret: string, email: string)
    ensures var a := AdminByEmail(admins, email);
      var on := AdminByEmail(WithTwoFactor(admins, adminId, secret), email);
      var off := AdminByEmail(WithoutTwoFactor(admins, adminId), email);
      && (a.None? <==> on.None?) && (a.None? <==> off.None?)
      && (a.Some? ==> on.value == (if a.value.id == adminId then a.value.(twoFactorEnabled := true, twoFactorSecret := Some(secret)) else a.value))
      && (a.Some? ==> off.value == (if a.value.id == adminId then a.value.(twoFactorEnabled := false, twoFactorSecret := None) else a.value))
  {
    var on := WithTwoFactor(admins, adminId, secret);
    var off := WithoutTwoFactor(admins, adminId);
    FirstOfMapped(admins, (a: AdminRow) => a.email == email, (a: AdminRow) => a.id == adminId,
                  (a: AdminRow) => a.(twoFactorEnabled := true, twoFactorSecret := Some(secret)));
    FirstOfMapped(admins, (a: AdminRow) => a.email == email, (a: AdminRow) => a.id == adminId,
                  (a: AdminRow) => a.(twoFactorEnabled := false, twoFactorSecret := None));
  }

  /** Finding the first row by a key the update does not touch finds the
      updated version of the same row. */
  lemma {:induction false} FirstOfMapped(s: seq<AdminRow>, key: AdminRow -> bool, p: AdminRow -> bool, f: AdminRow -> AdminRow)
    requires forall a :: key(f(a)) == key(a)
    ensures var before := First(s, key);
      var after := First(MapWhere(s, p, f), key);
      && (before.None? <==> after.None?)
      && (before.Some? ==> after.value == (if p(before.value) then f(before.value) else before.value))
  {
    if s != [] {
      FirstOfMapped(s[1..], key, p, f);
      assert MapWhere(s, p, f)[1..] == MapWhere(s[1..], p, f);
    }
  }

  /** After enabling with a secret, signing in with the right password and no
      token asks for the token; after disabling, the right password alone
      signs in, whatever token is sent. */
  lemma SwitchesDecideSignIn(admins: seq<AdminRow>, adminId: Id, secret: string, form: LoginForm, passwordMatches: PasswordCheck, otpValid: OtpCheck)
    requires Filled(form.email) && Filled(form.password)
    requires AdminByEmail(admins, form.email.value).Some?
    requires var a := AdminByEmail(admins, form.email.value).value;
      a.id == adminId && Filled(a.password) && passwordMatches(form.password.value, a.password.value)
    ensures !Filled(form.twoFactorToken) ==>
      AdminLogin(WithTwoFactor(admins, adminId, secret), form, passwordMatches, otpValid) == TwoFactorRequired
    ensures var a := AdminByEmail(admins, form.email.value).value;
      AdminLogin(WithoutTwoFactor(admins, adminId), form, passwordMatches, otpValid) == LoggedIn(Session(a.id, a.email, a.role))
  {
    SwitchKeepsLookup(admins, adminId, secret, form.email.value);
  }

  /** The admins table, updated in place by the two switches. */
  class AdminStore {
    var admins: seq<AdminRow>

    constructor (rows: seq<AdminRow>)
      ensures admins == rows
    {
      admins := rows;
    }

    /** enableTwoFactor: an invalid code is refused and changes nothing. */
    method EnableTwoFactor(adminId: Id, secret: string, token: string, otpValid: OtpCheck) returns (r: TwoFactorResponse)
      modifies this
      ensures r == (if otpValid(token, secret) then TwoFactorDone else TwoFactorRejected(InvalidOtpMessage))
      ensures admins == (if otpValid(token, secret) then WithTwoFactor(old(admins), adminId, secret) else old(admins))
    {
      if !otpValid(token, secret) {
        return TwoFactorRejected(InvalidOtpMessage);
      }
      admins := WithTwoFactor(admins, adminId, secret);
      r := TwoFactorDone;
    }

    /** disableTwoFactor: no check, always reported as done. */
    method DisableTwoFactor(adminId: Id) returns (r: TwoFactorResponse)
      modifies this
      ensures r == TwoFactorDone
      ensures admins == WithoutTwoFactor(old(admins), adminId)
    {
      admins := WithoutTwoFactor(admins, adminId);
      r := TwoFactorDone;
    }
  }
}

=== FILE: catalog_db.dfy ===
/** The catalog tables as the database holds them, one statement at a time.
    Every statement either applies completely or fails and changes nothing;
    the constraints it checks are the primary keys and the foreign keys of
    the catalog tables, and before those the input functions of the column
    types, which read every bound parameter when the statement is bound. */
module CatalogStore {
  import opened Common
  import opened DbSchema
  import opened PgInput

  /** Why a statement fails. */
  datatype DbError =
    | ForeignKeyViolation(table: string, constraint: string)
    | UniqueViolation(constraint: string)
    | Raised(message: string)
    | InvalidText(typeName: string, text: string)
    | OutOfRange(value: int)

  /** The `message` of the error object the database driver throws. */
  function ErrorMessage(e: DbError): string {
    match e
    case ForeignKeyViolation(t, k) =>
      "insert or update on table \"" + t + "\" violates foreign key constraint \"" + k + "\""
    case UniqueViolation(k) => "duplicate key value violates unique constraint \"" + k + "\""
    case Raised(m) => m
    case InvalidText(t, x) => "invalid input syntax for type " + t + ": \"" + x + "\""
    case OutOfRange(v) => "value \"" + IntText(v) + "\" is out of range for type integer"
  }

  /** A failure the model cannot see coming (a lost connection, a timeout):
      the statement numbered `step` of an action raises `message`. */
  datatype Fault = Fault(step: nat, message: string)

  function RaiseAt(fault: Option<Fault>, step: nat): (r: Option<string>)
    ensures r.Some? <==> fault.Some? && fault.value.step == step
  {
    if fault.Some? && fault.value.step == step then Some(fault.value.message) else None
  }

  // ---------------------------------------------------------------- bound parameters

  /** Both prices of a localized row read as numeric. */
  predicate PricesRead(r: ProductI18nRow) {
    (r.currentPrice.Some? ==> PgNumericText(r.currentPrice.value)) && PgNumericText(r.price)
  }

  /** The first price text that numeric refuses, row by row and, within a
      row, in column order: current_price before price. */
  function FirstBadPrice(rows: seq<ProductI18nRow>): (r: Option<string>)
    ensures r.None? <==> forall i :: 0 <= i < |rows| ==> PricesRead(rows[i])
    ensures r.Some? ==> !PgNumericText(r.value)
  {
    if rows == [] then None
    else if rows[0].currentPrice.Some? && !PgNumericText(rows[0].currentPrice.value) then rows[0].currentPrice
    else if !PgNumericText(rows[0].price) then Some(rows[0].price)
    else
      var rest := FirstBadPrice(rows[1..]);
      assert forall i :: 0 < i < |rows| ==> rows[i] == rows[1..][i - 1];
      rest
  }

  /** Every one of `values` fits in integer. */
  predicate AllFit(values: seq<int>) {
    forall i :: 0 <= i < |values| ==> FitsInt4(values[i])
  }

  lemma AllFitAppend(a: seq<int>, b: seq<int>)
    ensures AllFit(a + b) <==> AllFit(a) && AllFit(b)
  {
    if AllFit(a) && AllFit(b) {
      forall i | 0 <= i < |a + b| ensures FitsInt4((a + b)[i]) {
        if i >= |a| {
          assert (a + b)[i] == b[i - |a|];
        }
      }
    }
    if AllFit(a + b) {
      forall i | 0 <= i < |b| ensures FitsInt4(b[i]) {
        assert (a + b)[|a| + i] == b[i];
      }
      forall i | 0 <= i < |a| ensures FitsInt4(a[i]) {
        assert (a + b)[i] == a[i];
      }
    }
  }

  /** The first of `values` outside the range of integer. */
  function FirstOutOfRange(values: seq<int>): (r: Option<int>)
    ensures r.None? <==> AllFit(values)
    ensures r.Some? ==> !FitsInt4(r.value) && r.value in values
  {
    if values == [] then None
    else if !FitsInt4(values[0]) then Some(values[0])
    else
      var rest := FirstOutOfRange(values[1..]);
      assert forall i :: 0 < i < |values| ==> values[i] == values[1..][i - 1];
      rest
  }

  /** The integer a nullable column binds: nothing for NULL. */
  function Bound(o: Option<int>): (r: seq<int>)
    ensures AllFit(r) <==> (o.Some? ==> FitsInt4(o.value))
    ensures forall x :: x in r <==> o == Some(x)
  {
    if o.Some? then
      assert [o.value][0] == o.value;
      [o.value]
    else []
  }

  /** Every quota of the rows fits in integer. */
  predicate QuotasFit(rows: seq<ProductToolRow>) {
    forall i :: 0 <= i < |rows| ==> rows[i].quotaAllocation.Some? ==> FitsInt4(rows[i].quotaAllocation.value)
  }

  /** The quotas a bundle insert binds, row by row. */
  function BoundQuotas(rows: seq<ProductToolRow>): (r: seq<int>)
    ensures AllFit(r) <==> QuotasFit(rows)
    decreases |rows|
  {
    if rows == [] then []
    else
      var rest := BoundQuotas(rows[1..]);
      assert forall i :: 0 < i < |rows| ==> rows[i] == rows[1..][i - 1];
      AllFitAppend(Bound(rows[0].quotaAllocation), rest);
      Bound(rows[0].quotaAllocation) + rest
  }

  /** A statement keyed by `id` (WHERE id = ..., WHERE product_id = ...):
      besides a fault, the id itself is refused when it is not uuid text,
      after the integers `values` bound before it. */
  function KeyedError(id: Id, values: seq<int>, raise: Option<string>): (r: Option<DbError>)
    ensures r.None? <==> raise.None? && AllFit(values) && PgUuidText(id)
    ensures r.Some? && raise.None? && FirstOutOfRange(values).None? ==> r == Some(InvalidText("uuid", id))
  {
    if raise.Some? then Some(Raised(raise.value))
    else if FirstOutOfRange(values).Some? then Some(OutOfRange(FirstOutOfRange(values).value))
    else if !PgUuidText(id) then Some(InvalidText("uuid", id))
    else None
  }

  /** A statement keyed by `id` that binds no integer fails exactly on a
      fault or an id that is not uuid text. */
  lemma KeyedOnlyById(id: Id, raise: Option<string>)
    ensures KeyedError(id, [], raise).None? <==> raise.None? && PgUuidText(id)
  {
    assert AllFit([]);
  }

  // ---------------------------------------------------------------- statement errors

  function ProductInsertError(c: Catalog, row: ProductRow, raise: Option<string>): (r: Option<DbError>)
    ensures r.None? <==> raise.None? && row.id !in ProductIds(c.products)
  {
    if raise.Some? then Some(Raised(raise.value))
    else if row.id in ProductIds(c.products) then Some(UniqueViolation("products_pkey"))
    else None
  }

  function I18nRowIsOrphan(c: Catalog): ProductI18nRow -> bool {
    (r: ProductI18nRow) => r.productId !in ProductIds(c.products)
  }

  /** A price that is not numeric text fails the insert before any foreign
      key is looked at. */
  function ProductI18nInsertError(c: Catalog, rows: seq<ProductI18nRow>, raise: Option<string>): (r: Option<DbError>)
    ensures r.None? <==>
      && raise.None?
      && (forall i :: 0 <= i < |rows| ==> PricesRead(rows[i]))
      && (forall i :: 0 <= i < |rows| ==> rows[i].productId in ProductIds(c.products))
    ensures raise.None? && FirstBadPrice(rows).Some? ==> r == Some(InvalidText("numeric", FirstBadPrice(rows).value))
  {
    if raise.Some? then Some(Raised(raise.value))
    else if FirstBadPrice(rows).Some? then Some(InvalidText("numeric", FirstBadPrice(rows).value))
    else if First(rows, I18nRowIsOrphan(c)).Some? then
      Some(ForeignKeyViolation("products_i18n", "fk_product_i18n_product"))
    else None
  }

  function BundleRowIsOrphan(c: Catalog): ProductToolRow -> bool {
    (r: ProductToolRow) => r.productId !in ProductIds(c.products) || r.toolId !in ToolIds(c.tools)
  }

  /** A quota outside the range of integer fails the insert first; then
      PostgreSQL checks the rows in order and, for one row, its constraints
      by name: fk_product_tools_product before fk_product_tools_tool. */
  function BundleInsertError(c: Catalog, rows: seq<ProductToolRow>, raise: Option<string>): (r: Option<DbError>)
    ensures r.None? <==>
      && raise.None?
      && QuotasFit(rows)
      && (forall i :: 0 <= i < |rows| ==> rows[i].productId in ProductIds(c.products) && rows[i].toolId in ToolIds(c.tools))
    ensures raise.None? && FirstOutOfRange(BoundQuotas(rows)).Some? ==>
      r == Some(OutOfRange(FirstOutOfRange(BoundQuotas(rows)).value))
  {
    if raise.Some? then Some(Raised(raise.value))
    else if FirstOutOfRange(BoundQuotas(rows)).Some? then Some(OutOfRange(FirstOutOfRange(BoundQuotas(rows)).value))
    else
      var bad := First(rows, BundleRowIsOrphan(c));
      if bad.None? then None
      else if bad.value.productId !in ProductIds(c.products) then
        Some(ForeignKeyViolation("product_tools", "fk_product_tools_product"))
      else Some(ForeignKeyViolation("product_tools", "fk_product_tools_tool"))
  }

  /** The usage limit and then the tier must fit in integer before the
      primary key is looked at. */
  function ToolInsertError(c: Catalog, row: ToolRow, raise: Option<string>): (r: Option<DbError>)
    ensures r.None? <==>
      && raise.None?
      && (row.internalUsageLimit.Some? ==> FitsInt4(row.internalUsageLimit.value))
      && (row.tier.Some? ==> FitsInt4(row.tier.value))
      && row.id !in ToolIds(c.tools)
  {
    if raise.Some? then Some(Raised(raise.value))
    else
      var values := Bound(row.internalUsageLimit) + Bound(row.tier);
      AllFitAppend(Bound(row.internalUsageLimit), Bound(row.tier));
      if FirstOutOfRange(values).Some? then Some(OutOfRange(FirstOutOfRange(values).value))
      else if row.id in ToolIds(c.tools) then Some(UniqueViolation("tools_pkey"))
      else None
  }

  function ToolI18nRowIsOrphan(c: Catalog): ToolI18nRow -> bool {
    (r: ToolI18nRow) => r.toolId !in ToolIds(c.tools)
  }

  function ToolI18nInsertError(c: Catalog, rows: seq<ToolI18nRow>, raise: Option<string>): (r: Option<DbError>)
    ensures r.None? <==> raise.None? && forall i :: 0 <= i < |rows| ==> rows[i].toolId in ToolIds(c.tools)
  {
    if raise.Some? then Some(Raised(raise.value))
    else if First(rows, ToolI18nRowIsOrphan(c)).Some? then
      Some(ForeignKeyViolation("tool_i18n", "fk_tool_i18n_tool"))
    else None
  }

  function ProductIs(id: Id): ProductRow -> bool { (p: ProductRow) => p.id == id }
  function ToolIs(id: Id): ToolRow -> bool { (t: ToolRow) => t.id == id }

  // ---------------------------------------------------------------- the database

  class CatalogDb {
    var products: seq<ProductRow>
    var productI18n: seq<ProductI18nRow>
    var productTools: seq<ProductToolRow>
    var tools: seq<ToolRow>
    var toolI18n: seq<ToolI18nRow>
    var purchases: seq<UserPurchaseRow>
    var quotas: seq<PurchaseToolQuotaRow>

    function Snapshot(): Catalog
      reads this
    {
      Catalog(products, productI18n, productTools, tools, toolI18n, purchases, quotas)
    }

    constructor (c: Catalog)
      ensures Snapshot() == c
    {
      products, productI18n, productTools := c.products, c.productI18n, c.productTools;
      tools, toolI18n := c.tools, c.toolI18n;
      purchases, quotas := c.purchases, c.quotas;
    }

    /** ROLLBACK: the tables go back to a saved state. */
    method Restore(c: Catalog)
      modifies this
      ensures Snapshot() == c
    {
      products, productI18n, productTools := c.products, c.productI18n, c.productTools;
      tools, toolI18n := c.tools, c.toolI18n;
      purchases, quotas := c.purchases, c.quotas;
    }

    /** INSERT INTO products. */
    method InsertProduct(row: ProductRow, raise: Option<string>) returns (err: Option<DbError>)
      modifies this
      ensures err == ProductInsertError(old(Snapshot()), row, raise)
      ensures Snapshot() == if err.Some? then old(Snapshot()) else old(Snapshot()).(products := old(products) + [row])
    {
      err := ProductInsertError(Snapshot(), row, raise);
      if err.None? {
        products := products + [row];
      }
    }

    /** INSERT INTO products_i18n. */
    method InsertProductI18n(rows: seq<ProductI18nRow>, raise: Option<string>) returns (err: Option<DbError>)
      modifies this
      ensures err == ProductI18nInsertError(old(Snapshot()), rows, raise)
      ensures Snapshot() == if err.Some? then old(Snapshot()) else old(Snapshot()).(productI18n := old(productI18n) + rows)
    {
      err := ProductI18nInsertError(Snapshot(), rows, raise);
      if err.None? {
        productI18n := productI18n + rows;
      }
    }

    /** INSERT INTO product_tools. */
    method InsertProductTools(rows: seq<ProductToolRow>, raise: Option<string>) returns (err: Option<DbError>)
      modifies this
      ensures err == BundleInsertError(old(Snapshot()), rows, raise)
      ensures Snapshot() == if err.Some? then old(Snapshot()) else old(Snapshot()).(productTools := old(productTools) + rows)
    {
      err := BundleInsertError(Snapshot(), rows, raise);
      if err.None? {
        productTools := productTools + rows;
      }
    }

    /** UPDATE products SET ... WHERE id = `id`. */
    method UpdateProduct(id: Id, change: ProductRow -> ProductRow, raise: Option<string>) returns (err: Option<DbError>)
      modifies this
      ensures err == KeyedError(id, [], raise)
      ensures Snapshot() == if err.Some? then old(Snapshot())
        else old(Snapshot()).(products := MapWhere(old(products), ProductIs(id), change))
    {
      err := KeyedError(id, [], raise);
      if err.None? {
        products := MapWhere(products, ProductIs(id), change);
      }
    }

    /** DELETE FROM products_i18n WHERE product_id = `id`. */
    method DeleteProductI18nOf(id: Id, raise: Option<string>) returns (err: Option<DbError>)
      modifies this
      ensures err == KeyedError(id, [], raise)
      ensures Snapshot() == if err.Some? then old(Snapshot())
        else old(Snapshot()).(productI18n := Where(old(productI18n), ProductI18nNotOf(id)))
    {
      err := KeyedError(id, [], raise);
      if err.None? {
        productI18n := Where(productI18n, ProductI18nNotOf(id));
      }
    }

    /** DELETE FROM product_tools WHERE product_id = `id`. */
    method DeleteProductToolsOf(id: Id, raise: Option<string>) returns (err: Option<DbError>)
      modifies this
      ensures err == KeyedError(id, [], raise)
      ensures Snapshot() == if err.Some? then old(Snapshot())
        else old(Snapshot()).(productTools := Where(old(productTools), BundleNotOfProduct(id)))
    {
      err := KeyedError(id, [], raise);
      if err.None? {
        productTools := Where(productTools, BundleNotOfProduct(id));
      }
    }

    /** INSERT INTO tools. */
    method InsertTool(row: ToolRow, raise: Option<string>) returns (err: Option<DbError>)
      modifies this
      ensures err == ToolInsertError(old(Snapshot()), row, raise)
      ensures Snapshot() == if err.Some? then old(Snapshot()) else old(Snapshot()).(tools := old(tools) + [row])
    {
      err := ToolInsertError(Snapshot(), row, raise);
      if err.None? {
        tools := tools + [row];
      }
    }

    /** INSERT INTO tool_i18n. */
    method InsertToolI18n(rows: seq<ToolI18nRow>, raise: Option<string>) returns (err: Option<DbError>)
      modifies this
      ensures err == ToolI18nInsertError(old(Snapshot()), rows, raise)
      ensures Snapshot() == if err.Some? then old(Snapshot()) else old(Snapshot()).(toolI18n := old(toolI18n) + rows)
    {
      err := ToolI18nInsertError(Snapshot(), rows, raise);
      if err.None? {
        toolI18n := toolI18n + rows;
      }
    }

    /** UPDATE tools SET ... WHERE id = `id`; `values` are the integers the
        SET binds, in column order. */
    method UpdateTool(id: Id, values: seq<int>, change: ToolRow -> ToolRow, raise: Option<string>) returns (err: Option<DbError>)
      modifies this
      ensures err == KeyedError(id, values, raise)
      ensures Snapshot() == if err.Some? then old(Snapshot())
        else old(Snapshot()).(tools := MapWhere(old(tools), ToolIs(id), change))
    {
      err := KeyedError(id, values, raise);
      if err.None? {
        tools := MapWhere(tools, ToolIs(id), change);
      }
    }

    /** DELETE FROM tool_i18n WHERE tool_id = `id`. */
    method DeleteToolI18nOf(id: Id, raise: Option<string>) returns (err: Option<DbError>)
      modifies this
      ensures err == KeyedError(id, [], raise)
      ensures Snapshot() == if err.Some? then old(Snapshot())
        else old(Snapshot()).(toolI18n := Where(old(toolI18n), ToolI18nNotOf(id)))
    {
      err := KeyedError(id, [], raise);
      if err.None? {
        toolI18n := Where(toolI18n, ToolI18nNotOf(id));
      }
    }

    /** DELETE FROM tools WHERE id = `id`, with the ON DELETE CASCADE rules of
        the rows that refer to it. */
    method DeleteTool(id: Id, raise: Option<string>) returns (err: Option<DbError>)
      modifies this
      ensures err == KeyedError(id, [], raise)
      ensures Snapshot() == if err.Some? then old(Snapshot()) else DeleteToolCascade(old(Snapshot()), id)
    {
      err := KeyedError(id, [], raise);
      if err.None? {
        var after := DeleteToolCascade(Snapshot(), id);
        tools, toolI18n, productTools, quotas := after.tools, after.toolI18n, after.productTools, after.quotas;
      }
    }
  }

  // ---------------------------------------------------------------- what the statements keep

  lemma {:induction false} MapWhereKeepsProductIds(ps: seq<ProductRow>, id: Id, change: ProductRow -> ProductRow)
    requires forall p :: change(p).id == p.id
    ensures ProductIds(MapWhere(ps, ProductIs(id), change)) == ProductIds(ps)
    ensures forall i, j :: 0 <= i < j < |ps| && ps[i].id != ps[j].id ==>
      MapWhere(ps, ProductIs(id), change)[i].id != MapWhere(ps, ProductIs(id), change)[j].id
  {
    var r := MapWhere(ps, ProductIs(id), change);
    assert forall i :: 0 <= i < |ps| ==> r[i].id == ps[i].id;
    forall x | x in ProductIds(ps) ensures x in ProductIds(r) {
      var p :| p in ps && p.id == x;
      var i :| 0 <= i < |ps| && ps[i] == p;
      assert r[i] in r;
    }
    forall x | x in ProductIds(r) ensures x in ProductIds(ps) {
      var p :| p in r && p.id == x;
      var i :| 0 <= i < |r| && r[i] == p;
      assert ps[i] in ps;
    }
  }

  lemma {:induction false} MapWhereKeepsToolIds(ts: seq<ToolRow>, id: Id, change: ToolRow -> ToolRow)
    requires forall t :: change(t).id == t.id
    ensures ToolIds(MapWhere(ts, ToolIs(id), change)) == ToolIds(ts)
    ensures forall i, j :: 0 <= i < j < |ts| && ts[i].id != ts[j].id ==>
      MapWhere(ts, ToolIs(id), change)[i].id != MapWhere(ts, ToolIs(id), change)[j].id
  {
    var r := MapWhere(ts, ToolIs(id), change);
    assert forall i :: 0 <= i < |ts| ==> r[i].id == ts[i].id;
    forall x | x in ToolIds(ts) ensures x in ToolIds(r) {
      var t :| t in ts && t.id == x;
      var i :| 0 <= i < |ts| && ts[i] == t;
      assert r[i] in r;
    }
    forall x | x in ToolIds(r) ensures x in ToolIds(ts) {
      var t :| t in r && t.id == x;
      var i :| 0 <= i < |r| && r[i] == t;
      assert ts[i] in ts;
    }
  }

  /** An UPDATE that keeps every product id keeps the catalog consistent. */
  lemma RewrittenProductsConsistent(c: Catalog, id: Id, change: ProductRow -> ProductRow)
    requires Consistent(c)
    requires forall p :: change(p).id == p.id
    ensures Consistent(c.(products := MapWhere(c.products, ProductIs(id), change)))
  {
    MapWhereKeepsProductIds(c.products, id, change);
  }

  /** An UPDATE that keeps every tool id keeps the catalog consistent. */
  lemma RewrittenToolsConsistent(c: Catalog, id: Id, change: ToolRow -> ToolRow)
    requires Consistent(c)
    requires forall t :: change(t).id == t.id
    ensures Consistent(c.(tools := MapWhere(c.tools, ToolIs(id), change)))
  {
    MapWhereKeepsToolIds(c.tools, id, change);
  }
}

=== FILE: common.dfy ===
/** Shared building blocks of the back-office model: optional and tri-state
    values, JavaScript's `||` fallbacks, text matching as the database's
    ILIKE '%q%' does it, WHERE clauses and LEFT JOINs over row sequences, the
    LIMIT/OFFSET window of a paged query, and the ordering ORDER BY applies. */
module Common {

  datatype Option<T> = None | Some(value: T)

  /** A field of a submitted object as a schema validator sees it: left out
      (undefined), explicitly null, or given a value. */
  datatype Field<T> = Absent | Null | Present(value: T)

  /** A parameter's value, or its default when it was left out. */
  function OrElse<T>(o: Option<T>, fallback: T): (r: T)
    ensures o.Some? ==> r == o.value
    ensures o.None? ==> r == fallback
  {
    if o.Some? then o.value else fallback
  }

  /** `s || fallback` on a nullable text: null and the empty string are both
      falsy and give way to the fallback. */
  function OrText(s: Option<string>, fallback: string): (r: string)
    ensures s.Some? && s.value != "" ==> r == s.value
    ensures s.None? || s.value == "" ==> r == fallback
  {
    if s.Some? && s.value != "" then s.value else fallback
  }

  /** `s || undefined` on a nullable text: the empty string reads as missing. */
  function Truthy(s: Option<string>): (r: Option<string>)
    ensures r.Some? <==> s.Some? && s.value != ""
    ensures r.Some? ==> r == s
  {
    if s.Some? && s.value != "" then s else None
  }

  /** A SET entry for a nullable column: left out means "not written". */
  function Assign<T>(current: Option<T>, f: Field<T>): Option<T> {
    match f
    case Absent => current
    case Null => None
    case Present(v) => Some(v)
  }

  function Min(a: int, b: int): int { if a <= b then a else b }

  // ---------------------------------------------------------------- text

  /** Case folding of one character (ASCII letters only). */
  function Lower(c: char): char {
    if 'A' <= c <= 'Z' then (c as int + 32) as char else c
  }

  function LowerText(s: string): (r: string)
    ensures |r| == |s|
    ensures forall i :: 0 <= i < |s| ==> r[i] == Lower(s[i])
  {
    if s == [] then [] else [Lower(s[0])] + LowerText(s[1..])
  }

  /** Lower-casing twice is lower-casing once, so a search term that the
      caller already lower-cased matches exactly what the raw term matches. */
  lemma {:induction false} LowerTextIdempotent(s: string)
    ensures LowerText(LowerText(s)) == LowerText(s)
  {
    var once := LowerText(s);
    var twice := LowerText(once);
    assert |twice| == |once|;
    forall i | 0 <= i < |once| ensures twice[i] == once[i] {
      assert once[i] == Lower(s[i]);
    }
  }

  predicate IsPrefix(p: string, s: string) {
    |p| <= |s| && s[..|p|] == p
  }

  predicate OccursAt(sub: string, s: string, i: int) {
    0 <= i && i + |sub| <= |s| && s[i..i + |sub|] == sub
  }

  /** `sub` occurs somewhere inside `s`. */
  predicate Contains(s: string, sub: string) {
    exists i :: 0 <= i <= |s| && OccursAt(sub, s, i)
  }

  /** `s ILIKE '%q%'` on a non-null column: case-insensitive substring. */
  predicate ContainsIgnoringCase(s: string, q: string) {
    Contains(LowerText(s), LowerText(q))
  }

  /** A nullable column never matches an ILIKE pattern when it is NULL. */
  predicate NullableContainsIgnoringCase(s: Option<string>, q: string) {
    s.Some? && ContainsIgnoringCase(s.value, q)
  }

  lemma EmptyPatternMatchesEverything(s: string)
    ensures ContainsIgnoringCase(s, "")
  {
    assert OccursAt(LowerText(""), LowerText(s), 0);
  }

  /** A pre-lowered query matches exactly what the raw query matches. */
  lemma LoweredQueryMatchesSame(s: string, q: string)
    ensures ContainsIgnoringCase(s, LowerText(q)) == ContainsIgnoringCase(s, q)
  {
    LowerTextIdempotent(q);
  }

  predicate IsHexDigit(c: char) {
    '0' <= c <= '9' || 'a' <= c <= 'f' || 'A' <= c <= 'F'
  }

  predicate IsDigit(c: char) {
    '0' <= c <= '9'
  }

  predicate AllDigits(s: string) {
    forall i :: 0 <= i < |s| ==> IsDigit(s[i])
  }

  function DigitChar(d: nat): char
    requires d < 10
  {
    ('0' as int + d) as char
  }

  /** The decimal digits of a natural number, without leading zeros. */
  function NatText(n: nat): string
    decreases n
  {
    if n < 10 then [DigitChar(n)] else NatText(n / 10) + [DigitChar(n % 10)]
  }

  /** `String(n)` for an integer. */
  function IntText(n: int): string {
    if n < 0 then "-" + NatText(-n) else NatText(n)
  }

  /** The uuid format: 8-4-4-4-12 hexadecimal digits separated by hyphens. */
  predicate IsUuid(s: string) {
    && |s| == 36
    && (forall i :: 0 <= i < 36 && (i == 8 || i == 13 || i == 18 || i == 23) ==> s[i] == '-')
    && (forall i :: 0 <= i < 36 && !(i == 8 || i == 13 || i == 18 || i == 23) ==> IsHexDigit(s[i]))
  }

  // ---------------------------------------------------------------- filtering

  /** The rows of `s` that satisfy `p`, in table order (a WHERE clause). */
  function Where<T>(s: seq<T>, p: T -> bool): (r: seq<T>)
    ensures |r| <= |s|
    ensures forall i :: 0 <= i < |r| ==> r[i] in s && p(r[i])
    ensures forall i :: 0 <= i < |s| && p(s[i]) ==> s[i] in r
  {
    if s == [] then [] else (if p(s[0]) then [s[0]] else []) + Where(s[1..], p)
  }

  lemma {:induction false} WhereConcat<T>(a: seq<T>, b: seq<T>, p: T -> bool)
    ensures Where(a + b, p) == Where(a, p) + Where(b, p)
  {
    if a == [] {
      assert a + b == b;
    } else {
      assert (a + b)[1..] == a[1..] + b;
      WhereConcat(a[1..], b, p);
    }
  }

  lemma {:induction false} WhereAll<T>(s: seq<T>, p: T -> bool)
    requires forall i :: 0 <= i < |s| ==> p(s[i])
    ensures Where(s, p) == s
  {
    if s != [] {
      WhereAll(s[1..], p);
    }
  }

  lemma {:induction false} WhereNone<T>(s: seq<T>, p: T -> bool)
    requires forall i :: 0 <= i < |s| ==> !p(s[i])
    ensures Where(s, p) == []
  {
    if s != [] {
      WhereNone(s[1..], p);
    }
  }

  /** Appending rows of which none satisfies `p` does not change what `p`
      keeps; appending only rows that satisfy `p` to a table where none did
      makes the filter yield exactly the appended rows. */
  lemma WhereAppend<T>(s: seq<T>, added: seq<T>, p: T -> bool)
    ensures (forall i :: 0 <= i < |added| ==> !p(added[i])) ==> Where(s + added, p) == Where(s, p)
    ensures (forall i :: 0 <= i < |s| ==> !p(s[i])) && (forall i :: 0 <= i < |added| ==> p(added[i])) ==>
      Where(s + added, p) == added
  {
    WhereConcat(s, added, p);
    if forall i :: 0 <= i < |added| ==> !p(added[i]) {
      WhereNone(added, p);
    }
    if (forall i :: 0 <= i < |s| ==> !p(s[i])) && (forall i :: 0 <= i < |added| ==> p(added[i])) {
      WhereNone(s, p);
      WhereAll(added, p);
    }
  }

  /** Deleting the rows of `mine` and appending rows that all belong to
      `mine` leaves `mine` with exactly the appended rows and any filter that
      excludes `mine` with what it had before. */
  lemma WhereReplace<T>(s: seq<T>, added: seq<T>, notMine: T -> bool, mine: T -> bool, other: T -> bool)
    requires forall x :: mine(x) ==> !notMine(x)
    requires forall x :: other(x) ==> notMine(x) && !mine(x)
    requires forall i :: 0 <= i < |added| ==> mine(added[i])
    ensures Where(Where(s, notMine) + added, mine) == added
    ensures Where(Where(s, notMine) + added, other) == Where(s, other)
  {
    var kept := Where(s, notMine);
    WhereAppend(kept, added, mine);
    WhereAppend(kept, added, other);
    WhereNarrow(s, notMine, other);
  }

  /** `UPDATE ... SET f WHERE p`: every row satisfying `p` is rewritten by
      `f`, the others stay as they are, in place. */
  function MapWhere<T>(s: seq<T>, p: T -> bool, f: T -> T): (r: seq<T>)
    ensures |r| == |s|
    ensures forall i :: 0 <= i < |s| ==> r[i] == (if p(s[i]) then f(s[i]) else s[i])
  {
    if s == [] then [] else [if p(s[0]) then f(s[0]) else s[0]] + MapWhere(s[1..], p, f)
  }

  /** Validates every element with `f`; fails when any element fails (a
      schema for an array). */
  function ParseEach<X, Y>(xs: seq<X>, f: X -> Option<Y>): (r: Option<seq<Y>>)
    ensures r.Some? <==> forall i :: 0 <= i < |xs| ==> f(xs[i]).Some?
    ensures r.Some? ==> |r.value| == |xs| && forall i :: 0 <= i < |xs| ==> r.value[i] == f(xs[i]).value
  {
    if xs == [] then Some([])
    else
      var head := f(xs[0]);
      var tail := ParseEach(xs[1..], f);
      if head.Some? && tail.Some? then
        Some([head.value] + tail.value)
      else
        assert head.None? ==> !f(xs[0]).Some?;
        assert tail.None? ==> exists i :: 0 <= i < |xs[1..]| && !f(xs[1..][i]).Some?;
        None
  }

  /** Filtering by a weaker condition first does not change what a stronger
      filter keeps. */
  lemma {:induction false} WhereNarrow<T>(s: seq<T>, p: T -> bool, q: T -> bool)
    requires forall x :: q(x) ==> p(x)
    ensures Where(Where(s, p), q) == Where(s, q)
  {
    if s != [] {
      WhereNarrow(s[1..], p, q);
      var head := if p(s[0]) then [s[0]] else [];
      assert Where(s, p) == head + Where(s[1..], p);
      WhereConcat(head, Where(s[1..], p), q);
    }
  }

  /** Filtering by a condition that excludes the first filter's rows leaves nothing. */
  lemma {:induction false} WhereDisjoint<T>(s: seq<T>, p: T -> bool, q: T -> bool)
    requires forall x :: q(x) ==> !p(x)
    ensures Where(Where(s, p), q) == []
  {
    if s != [] {
      WhereDisjoint(s[1..], p, q);
      var head := if p(s[0]) then [s[0]] else [];
      assert Where(s, p) == head + Where(s[1..], p);
      WhereConcat(head, Where(s[1..], p), q);
    }
  }

  /** When no two rows satisfy `p`, neither does the WHERE clause keep two. */
  lemma {:induction false} WhereAtMostOne<T>(s: seq<T>, p: T -> bool)
    requires forall i, j :: 0 <= i < j < |s| && p(s[i]) ==> !p(s[j])
    ensures |Where(s, p)| <= 1
  {
    if s != [] {
      var rest := s[1..];
      assert forall i :: 0 <= i < |rest| ==> rest[i] == s[i + 1];
      if p(s[0]) {
        forall k | 0 <= k < |rest| ensures !p(rest[k]) {
          assert rest[k] == s[k + 1];
        }
        WhereNone(rest, p);
      } else {
        WhereAtMostOne(rest, p);
      }
    }
  }

  /** The first row satisfying `p` (what `find` or `LIMIT 1` yields). */
  function First<T>(s: seq<T>, p: T -> bool): (r: Option<T>)
    ensures r.Some? <==> exists i :: 0 <= i < |s| && p(s[i])
    ensures r.Some? ==> r.value in s && p(r.value)
    ensures r.Some? ==> exists i :: 0 <= i < |s| && s[i] == r.value && forall j :: 0 <= j < i ==> !p(s[j])
  {
    if s == [] then None
    else if p(s[0]) then Some(s[0])
    else
      var rest := First(s[1..], p);
      if rest.Some? then
        ghost var i :| 0 <= i < |s[1..]| && s[1..][i] == rest.value && forall j :: 0 <= j < i ==> !p(s[1..][j]);
        assert s[i + 1] == rest.value;
        rest
      else
        assert forall i :: 1 <= i < |s| ==> s[i] == s[1..][i - 1];
        rest
  }

  /** `LIMIT n` without an offset. */
  function Take<T>(s: seq<T>, n: nat): (r: seq<T>)
    ensures |r| == Min(n, |s|)
    ensures forall i :: 0 <= i < |r| ==> r[i] == s[i]
  {
    if |s| <= n then s else s[..n]
  }

  function Head<T>(s: seq<T>): (r: Option<T>)
    ensures r.Some? <==> |s| > 0
    ensures r.Some? ==> r.value == s[0]
  {
    if s == [] then None else Some(s[0])
  }

  // ---------------------------------------------------------------- left join

  /** A row of `left LEFT JOIN right ON on`: a left row and the right row
      paired with it, if any. */
  datatype Joined<L, R> = Joined(left: L, right: Option<R>)

  function PairWith<L, R>(l: L, rs: seq<R>): (r: seq<Joined<L, R>>)
    ensures |r| == |rs|
    ensures forall i :: 0 <= i < |rs| ==> r[i] == Joined(l, Some(rs[i]))
  {
    seq(|rs|, i requires 0 <= i < |rs| => Joined(l, Some(rs[i])))
  }

  /** A left row with several joining right rows appears once per row; one
      with none appears once, paired with nothing. */
  function LeftJoin<L, R>(ls: seq<L>, rs: seq<R>, on: L -> R -> bool): seq<Joined<L, R>> {
    if ls == [] then []
    else
      var matches := Where(rs, on(ls[0]));
      (if matches == [] then [Joined(ls[0], None)] else PairWith(ls[0], matches))
      + LeftJoin(ls[1..], rs, on)
  }

  /** A joined row pairs its left row with a right row satisfying the join
      condition, or with nothing when no right row does. */
  predicate JoinedRow<L, R(==)>(rs: seq<R>, on: L -> R -> bool, row: Joined<L, R>) {
    && (row.right.Some? ==> row.right.value in rs && on(row.left)(row.right.value))
    && (row.right.None? ==> forall j :: 0 <= j < |rs| ==> !on(row.left)(rs[j]))
  }

  /** Every joined row is a left row with a joining right row or with none
      when no right row joins; no left row is lost. */
  lemma {:induction false} LeftJoinRows<L, R>(ls: seq<L>, rs: seq<R>, on: L -> R -> bool)
    ensures forall row :: row in LeftJoin(ls, rs, on) ==> JoinedRow(rs, on, row) && row.left in ls
    ensures forall l :: l in ls ==> exists row :: row in LeftJoin(ls, rs, on) && row.left == l
  {
    if ls != [] {
      var l := ls[0];
      var matches := Where(rs, on(l));
      var head := if matches == [] then [Joined(l, None)] else PairWith(l, matches);
      var tail := LeftJoin(ls[1..], rs, on);
      LeftJoinRows(ls[1..], rs, on);
      var r := head + tail;
      assert r == LeftJoin(ls, rs, on);
      assert ls == [l] + ls[1..];
      forall k | 0 <= k < |r| ensures JoinedRow(rs, on, r[k]) && r[k].left in ls {
        if k >= |head| {
          assert r[k] == tail[k - |head|];
          assert tail[k - |head|] in tail;
        } else if matches == [] {
          assert r[k] == Joined(l, None);
        } else {
          assert r[k] == Joined(l, Some(matches[k]));
        }
      }
      forall q | q in ls ensures exists row :: row in r && row.left == q {
        if q != l {
          assert q in ls[1..];
          var row :| row in tail && row.left == q;
        } else {
          assert r[0] in r;
        }
      }
    }
  }

  /** The join has a row for every left row, and exactly one per left row
      when no left row joins more than one right row. */
  lemma {:induction false} LeftJoinLength<L, R>(ls: seq<L>, rs: seq<R>, on: L -> R -> bool)
    ensures |LeftJoin(ls, rs, on)| >= |ls|
    ensures (forall i :: 0 <= i < |ls| ==> |Where(rs, on(ls[i]))| <= 1) ==> |LeftJoin(ls, rs, on)| == |ls|
  {
    if ls != [] {
      LeftJoinLength(ls[1..], rs, on);
      assert forall i :: 1 <= i < |ls| ==> ls[1..][i - 1] == ls[i];
    }
  }

  /** How often `x` occurs in a non-empty list: at its head and in its tail. */
  lemma HeadTailCount<T>(s: seq<T>, x: T)
    requires s != []
    ensures multiset(s)[x] == (if s[0] == x then 1 else 0) + multiset(s[1..])[x]
  {
    assert s == [s[0]] + s[1..];
    assert multiset(s) == multiset{s[0]} + multiset(s[1..]);
  }

  /** A row passes the filter as many times as it occurs, or not at all. */
  lemma {:induction false} WhereCount<T>(s: seq<T>, p: T -> bool, x: T)
    ensures multiset(Where(s, p))[x] == if p(x) then multiset(s)[x] else 0
  {
    if s != [] {
      var head := if p(s[0]) then [s[0]] else [];
      var tail := Where(s[1..], p);
      WhereCount(s[1..], p, x);
      HeadTailCount(s, x);
      assert Where(s, p) == head + tail;
      assert multiset(head + tail) == multiset(head) + multiset(tail);
    }
  }

  lemma PairWithCons<L, R>(l: L, rs: seq<R>)
    requires rs != []
    ensures PairWith(l, rs) == [Joined(l, Some(rs[0]))] + PairWith(l, rs[1..])
  {
    var r := [Joined(l, Some(rs[0]))] + PairWith(l, rs[1..]);
    forall i | 0 <= i < |rs| ensures PairWith(l, rs)[i] == r[i] {
      if i > 0 {
        assert r[i] == PairWith(l, rs[1..])[i - 1];
      }
    }
  }

  /** The rows paired with `l` occur as often as the right rows they hold. */
  lemma {:induction false} PairWithCount<L, R>(l: L, rs: seq<R>, x: Joined<L, R>)
    ensures multiset(PairWith(l, rs))[x] == if x.left == l && x.right.Some? then multiset(rs)[x.right.value] else 0
  {
    if rs != [] {
      var head := [Joined(l, Some(rs[0]))];
      var tail := PairWith(l, rs[1..]);
      PairWithCount(l, rs[1..], x);
      PairWithCons(l, rs);
      assert multiset(head + tail) == multiset(head) + multiset(tail);
      if x.right.Some? {
        HeadTailCount(rs, x.right.value);
      }
    }
  }

  /** The rows the join yields for one left row `l0`. */
  function JoinedRowsOf<L, R>(l0: L, rs: seq<R>, on: L -> R -> bool): seq<Joined<L, R>> {
    var matches := Where(rs, on(l0));
    if matches == [] then [Joined(l0, None)] else PairWith(l0, matches)
  }

  lemma JoinedRowsOfCount<L, R>(l0: L, rs: seq<R>, on: L -> R -> bool, l: L, r: R)
    ensures multiset(JoinedRowsOf(l0, rs, on))[Joined(l, Some(r))] == if l0 == l && on(l)(r) then multiset(rs)[r] else 0
  {
    var matches := Where(rs, on(l0));
    WhereCount(rs, on(l0), r);
    PairWithCount(l0, matches, Joined(l, Some(r)));
  }

  lemma LeftJoinCons<L, R>(ls: seq<L>, rs: seq<R>, on: L -> R -> bool)
    requires ls != []
    ensures LeftJoin(ls, rs, on) == JoinedRowsOf(ls[0], rs, on) + LeftJoin(ls[1..], rs, on)
  {
  }

  /** How many rows pairing one left row with one right row a join yields
      when the left row occurs `a` times and the right row `b` times. */
  function Pairings(a: nat, b: nat): nat {
    a * b
  }

  /** How often the join pairs a left row with a right row: once per
      occurrence of each when the right row joins the left one. */
  lemma {:induction false} LeftJoinPairCount<L, R>(ls: seq<L>, rs: seq<R>, on: L -> R -> bool, l: L, r: R)
    ensures multiset(LeftJoin(ls, rs, on))[Joined(l, Some(r))] == if on(l)(r) then Pairings(multiset(ls)[l], multiset(rs)[r]) else 0
  {
    if ls != [] {
      var head := JoinedRowsOf(ls[0], rs, on);
      var tail := LeftJoin(ls[1..], rs, on);
      LeftJoinPairCount(ls[1..], rs, on, l, r);
      JoinedRowsOfCount(ls[0], rs, on, l, r);
      HeadTailCount(ls, l);
      LeftJoinCons(ls, rs, on);
      var x := Joined(l, Some(r));
      assert multiset(LeftJoin(ls, rs, on))[x] == multiset(head)[x] + multiset(tail)[x];
      if on(l)(r) && ls[0] == l {
        MulSucc(multiset(ls[1..])[l], multiset(rs)[r]);
      }
    }
  }

  /** How often the join yields a left row paired with nothing: once per
      occurrence when no right row joins it. */
  lemma {:induction false} LeftJoinUnpairedCount<L, R>(ls: seq<L>, rs: seq<R>, on: L -> R -> bool, l: L)
    ensures multiset(LeftJoin(ls, rs, on))[Joined(l, None)] == if Where(rs, on(l)) == [] then multiset(ls)[l] else 0
  {
    if ls != [] {
      var head := JoinedRowsOf(ls[0], rs, on);
      var tail := LeftJoin(ls[1..], rs, on);
      LeftJoinUnpairedCount(ls[1..], rs, on, l);
      PairWithCount(ls[0], Where(rs, on(ls[0])), Joined(l, None));
      HeadTailCount(ls, l);
      LeftJoinCons(ls, rs, on);
      var x := Joined(l, None);
      assert multiset(LeftJoin(ls, rs, on))[x] == multiset(head)[x] + multiset(tail)[x];
    }
  }

  // ---------------------------------------------------------------- paging

  /** Why the database refuses a query: a LIMIT/OFFSET pair it rejects
      (PostgreSQL checks the OFFSET first), or a bound parameter that the
      input function of its column type refuses. */
  datatype QueryError = NegativeOffset | NegativeLimit | InvalidInput(typeName: string, text: string)

  datatype QueryResult<T> = Rows(value: T) | QueryFailed(error: QueryError)

  /** The row offset of 1-based page `page`: `(page - 1) * pageSize`. */
  function Offset(page: int, pageSize: int): int {
    (page - 1) * pageSize
  }

  /** `LIMIT limit OFFSET offset` over an already ordered row list. */
  function LimitOffset<T>(rows: seq<T>, limit: int, offset: int): (r: QueryResult<seq<T>>)
    ensures r.Rows? <==> limit >= 0 && offset >= 0
    ensures r.QueryFailed? ==> r.error == (if offset < 0 then NegativeOffset else NegativeLimit)
    ensures r.Rows? ==> |r.value| <= limit
    ensures r.Rows? ==> |r.value| == (if offset >= |rows| then 0 else Min(limit, |rows| - offset))
    ensures r.Rows? ==> forall i :: 0 <= i < |r.value| ==> r.value[i] == rows[offset + i]
  {
    if offset < 0 then QueryFailed(NegativeOffset)
    else if limit < 0 then QueryFailed(NegativeLimit)
    else if offset >= |rows| then Rows([])
    else Rows(rows[offset..offset + Min(limit, |rows| - offset)])
  }

  /** How many rows page `page` of a list of `n` rows holds: none past the
      end, otherwise `pageSize` or the rows that are left. */
  function PageLength(n: nat, page: int, pageSize: int): int {
    var offset := Offset(page, pageSize);
    if offset >= n then 0 else Min(pageSize, n - offset)
  }

  /** A page of a list: rows `offset .. offset + pageSize` of the ordered list. */
  function PageOf<T>(rows: seq<T>, page: int, pageSize: int): (r: QueryResult<seq<T>>)
    ensures r.Rows? <==> pageSize >= 0 && (page >= 1 || pageSize == 0)
    ensures r.Rows? ==> |r.value| <= pageSize
    ensures r.Rows? ==> |r.value| == PageLength(|rows|, page, pageSize)
    ensures r.Rows? ==> forall i :: 0 <= i < |r.value| ==>
      0 <= Offset(page, pageSize) + i < |rows| && r.value[i] == rows[Offset(page, pageSize) + i]
  {
    var offset := Offset(page, pageSize);
    OffsetSign(page, pageSize);
    LimitOffset(rows, pageSize, offset)
  }

  lemma OffsetSign(page: int, pageSize: int)
    ensures pageSize >= 0 ==> (Offset(page, pageSize) < 0 <==> page < 1 && pageSize > 0)
  {
    if page < 1 && pageSize > 0 {
      MulPositive(1 - page, pageSize);
      assert Offset(page, pageSize) == -((1 - page) * pageSize);
    } else if pageSize >= 0 && page >= 1 {
      MulNonnegative(page - 1, pageSize);
    } else if pageSize == 0 {
      assert Offset(page, pageSize) == 0;
    }
  }

  lemma {:induction false} MulNonnegative(a: nat, b: nat)
    ensures a * b >= 0
  {
    if a > 0 {
      MulNonnegative(a - 1, b);
      assert a * b == (a - 1) * b + b;
    }
  }

  lemma MulSucc(a: int, b: int)
    ensures (a + 1) * b == a * b + b
  {
  }

  lemma MulPositive(a: int, b: int)
    requires a > 0 && b > 0
    ensures a * b > 0
  {
    MulNonnegative(a - 1, b);
    assert a * b == (a - 1) * b + b;
  }

  /** `Math.ceil(total / pageSize)`. `None` is the non-finite number JavaScript
      produces for a zero page size (Infinity, or NaN when total is 0 too). */
  function TotalPages(total: nat, pageSize: int): (r: Option<nat>)
    requires pageSize >= 0
    ensures r.Some? <==> pageSize > 0
    ensures r.Some? ==> total <= r.value * pageSize < total + pageSize
  {
    if pageSize == 0 then None
    else
      var n := total + pageSize - 1;
      var q := n / pageSize;
      assert q * pageSize + n % pageSize == n;
      assert 0 <= n % pageSize < pageSize;
      Some(q)
  }

  /** The two bounds of TotalPages pin it down: it is the least number of
      pages that holds every row. */
  lemma TotalPagesIsLeast(total: nat, pageSize: int, k: nat)
    requires pageSize > 0
    requires total <= k * pageSize
    ensures TotalPages(total, pageSize).value <= k
  {
    var t := TotalPages(total, pageSize).value;
    assert t * pageSize < (k + 1) * pageSize;
    LessByFactor(t, k + 1, pageSize);
  }

  lemma LessByFactor(a: int, b: int, c: int)
    requires c > 0 && a * c < b * c
    ensures a < b
  {
  }

  // ---------------------------------------------------------------- ordering

  /** The value of a sort column. `KNull` sorts after every value, as in
      PostgreSQL (NULLS LAST ascending, NULLS FIRST descending). Text is
      ordered by character code, which is what COLLATE "C" does. */
  datatype SortKey = KBool(b: bool) | KInt(i: int) | KText(t: string) | KNull

  function KindRank(k: SortKey): nat {
    match k
    case KBool(_) => 0
    case KInt(_) => 1
    case KText(_) => 2
    case KNull => 3
  }

  predicate TextLe(a: string, b: string)
    decreases |a|
  {
    if a == [] then true
    else if b == [] then false
    else if a[0] != b[0] then a[0] < b[0]
    else TextLe(a[1..], b[1..])
  }

  lemma {:induction false} TextLeTotal(a: string, b: string)
    ensures TextLe(a, b) || TextLe(b, a)
    decreases |a|
  {
    if a != [] && b != [] && a[0] == b[0] {
      TextLeTotal(a[1..], b[1..]);
    }
  }

  lemma {:induction false} TextLeTrans(a: string, b: string, c: string)
    requires TextLe(a, b) && TextLe(b, c)
    ensures TextLe(a, c)
    decreases |a|
  {
    if a != [] && b != [] && c != [] && a[0] == b[0] && b[0] == c[0] {
      TextLeTrans(a[1..], b[1..], c[1..]);
    }
  }

  predicate KeyLe(a: SortKey, b: SortKey) {
    if KindRank(a) != KindRank(b) then KindRank(a) < KindRank(b)
    else match a
      case KBool(x) => !x || b.b
      case KInt(x) => x <= b.i
      case KText(x) => TextLe(x, b.t)
      case KNull => true
  }

  /** `a` may come before `b` in the requested direction. */
  predicate Ordered(a: SortKey, b: SortKey, descending: bool) {
    if descending then KeyLe(b, a) else KeyLe(a, b)
  }

  lemma OrderedTotal(a: SortKey, b: SortKey, descending: bool)
    ensures Ordered(a, b, descending) || Ordered(b, a, descending)
  {
    if KindRank(a) == KindRank(b) && a.KText? {
      TextLeTotal(a.t, b.t);
    }
  }

  lemma OrderedTrans(a: SortKey, b: SortKey, c: SortKey, descending: bool)
    requires Ordered(a, b, descending) && Ordered(b, c, descending)
    ensures Ordered(a, c, descending)
  {
    if KindRank(a) == KindRank(b) == KindRank(c) && a.KText? {
      if descending { TextLeTrans(c.t, b.t, a.t); } else { TextLeTrans(a.t, b.t, c.t); }
    }
  }

  predicate SortedBy<T>(s: seq<T>, key: T -> SortKey, descending: bool) {
    forall i, j :: 0 <= i < j < |s| ==> Ordered(key(s[i]), key(s[j]), descending)
  }

  function Insert<T>(x: T, s: seq<T>, key: T -> SortKey, descending: bool): seq<T> {
    if s == [] then [x]
    else if Ordered(key(x), key(s[0]), descending) then [x] + s
    else [s[0]] + Insert(x, s[1..], key, descending)
  }

  /** `ORDER BY key` (stable: rows with equal keys keep table order, one of
      the orders the database may return). */
  function SortBy<T>(s: seq<T>, key: T -> SortKey, descending: bool): seq<T> {
    if s == [] then [] else Insert(s[0], SortBy(s[1..], key, descending), key, descending)
  }

  lemma {:induction false} InsertPermutes<T>(x: T, s: seq<T>, key: T -> SortKey, descending: bool)
    ensures multiset(Insert(x, s, key, descending)) == multiset(s) + multiset{x}
  {
    if s != [] && !Ordered(key(x), key(s[0]), descending) {
      InsertPermutes(x, s[1..], key, descending);
      assert s == [s[0]] + s[1..];
    }
  }

  lemma {:induction false} InsertSorted<T>(x: T, s: seq<T>, key: T -> SortKey, descending: bool)
    requires SortedBy(s, key, descending)
    ensures SortedBy(Insert(x, s, key, descending), key, descending)
  {
    if s == [] {
    } else if Ordered(key(x), key(s[0]), descending) {
      var r := [x] + s;
      forall i, j | 0 <= i < j < |r| ensures Ordered(key(r[i]), key(r[j]), descending) {
        if i == 0 && j > 1 {
          OrderedTrans(key(x), key(s[0]), key(s[j - 1]), descending);
        }
      }
    } else {
      OrderedTotal(key(x), key(s[0]), descending);
      var tail := Insert(x, s[1..], key, descending);
      InsertSorted(x, s[1..], key, descending);
      InsertPermutes(x, s[1..], key, descending);
      var r := [s[0]] + tail;
      forall i, j | 0 <= i < j < |r| ensures Ordered(key(r[i]), key(r[j]), descending) {
        if i == 0 {
          var y := r[j];
          assert y in multiset(tail);
          assert y == x || y in multiset(s[1..]);
          if y != x {
            var k :| 0 <= k < |s[1..]| && s[1..][k] == y;
            assert s[k + 1] == y;
          }
        }
      }
    }
  }

  /** ORDER BY returns a permutation of its input, ordered by the key. */
  lemma {:induction false} SortByCorrect<T>(s: seq<T>, key: T -> SortKey, descending: bool)
    ensures multiset(SortBy(s, key, descending)) == multiset(s)
    ensures SortedBy(SortBy(s, key, descending), key, descending)
  {
    if s != [] {
      SortByCorrect(s[1..], key, descending);
      InsertPermutes(s[0], SortBy(s[1..], key, descending), key, descending);
      InsertSorted(s[0], SortBy(s[1..], key, descending), key, descending);
      assert s == [s[0]] + s[1..];
    }
  }

  lemma SortByLength<T>(s: seq<T>, key: T -> SortKey, descending: bool)
    ensures |SortBy(s, key, descending)| == |s|
  {
    SortByCorrect(s, key, descending);
    assert |multiset(SortBy(s, key, descending))| == |multiset(s)|;
  }

  lemma SortByMembers<T>(s: seq<T>, key: T -> SortKey, descending: bool)
    ensures forall x :: x in SortBy(s, key, descending) ==> x in s
    ensures forall x :: x in s ==> x in SortBy(s, key, descending)
  {
    SortByCorrect(s, key, descending);
    forall x | x in SortBy(s, key, descending) ensures x in s {
      assert x in multiset(SortBy(s, key, descending));
    }
    forall x | x in s ensures x in SortBy(s, key, descending) {
      assert x in multiset(s);
    }
  }

  /** The first row of an ORDER BY comes, in the key's order, before or level
      with every row of the input. */
  lemma SortByHead<T>(s: seq<T>, key: T -> SortKey, descending: bool)
    requires s != []
    ensures |SortBy(s, key, descending)| == |s|
    ensures forall x :: x in s ==> Ordered(key(SortBy(s, key, descending)[0]), key(x), descending)
  {
    var sorted := SortBy(s, key, descending);
    SortByLength(s, key, descending);
    SortByCorrect(s, key, descending);
    SortByMembers(s, key, descending);
    forall x | x in s ensures Ordered(key(sorted[0]), key(x), descending) {
      var j :| 0 <= j < |sorted| && sorted[j] == x;
      if j == 0 {
        OrderedTotal(key(x), key(x), descending);
      }
    }
  }

  /** The first element that satisfies the predicate is the one `First` finds. */
  lemma {:induction false} FirstAt<T>(s: seq<T>, p: T -> bool, i: nat)
    requires i < |s| && p(s[i])
    requires forall j :: 0 <= j < i ==> !p(s[j])
    ensures First(s, p) == Some(s[i])
  {
    if i > 0 {
      FirstAt(s[1..], p, i - 1);
    }
  }

  /** Keeping the rows a predicate accepts keeps exactly those rows. */
  lemma WhereMembers<T>(s: seq<T>, p: T -> bool)
    ensures forall x :: x in Where(s, p) <==> x in s && p(x)
  {
    forall x | x in s && p(x) ensures x in Where(s, p) {
      var i :| 0 <= i < |s| && s[i] == x;
    }
    forall x | x in Where(s, p) ensures x in s && p(x) {
      var i :| 0 <= i < |Where(s, p)| && Where(s, p)[i] == x;
    }
  }

  /** The first `n` rows of an ordered list are rows of it, and every row
      left out is ordered at or after the last row kept. */
  lemma TakeKeepsFirst<T>(sorted: seq<T>, key: T -> SortKey, descending: bool, n: nat)
    requires SortedBy(sorted, key, descending)
    ensures var r := Take(sorted, n);
      && multiset(r) <= multiset(sorted)
      && (|r| > 0 ==> forall x :: x in multiset(sorted) - multiset(r) ==> Ordered(key(r[|r| - 1]), key(x), descending))
  {
    var r := Take(sorted, n);
    var rest := sorted[|r|..];
    assert sorted == r + rest;
    assert multiset(sorted) == multiset(r) + multiset(rest);
    if |r| > 0 {
      forall x | x in multiset(sorted) - multiset(r) ensures Ordered(key(r[|r| - 1]), key(x), descending) {
        assert x in multiset(rest);
        var j :| 0 <= j < |rest| && rest[j] == x;
        assert sorted[|r| + j] == x && sorted[|r| - 1] == r[|r| - 1];
      }
    }
  }

  /** The first `n` rows of a filtered list in sort order (`WHERE ... ORDER BY
      ... LIMIT n`): exactly `n` rows of the list that pass the filter, or all
      of them when fewer pass, in order, and every passing row left out is
      ordered at or after the last row kept. */
  lemma TopRows<T>(s: seq<T>, p: T -> bool, key: T -> SortKey, descending: bool, n: nat)
    ensures var r := Take(SortBy(Where(s, p), key, descending), n);
      && |r| == Min(n, |Where(s, p)|)
      && (forall i :: 0 <= i < |r| ==> r[i] in s && p(r[i]))
      && (forall i, j :: 0 <= i < j < |r| ==> Ordered(key(r[i]), key(r[j]), descending))
      && multiset(r) <= multiset(Where(s, p))
      && (|r| > 0 ==> forall x :: x in multiset(Where(s, p)) - multiset(r) ==> Ordered(key(r[|r| - 1]), key(x), descending))
  {
    var kept := Where(s, p);
    var sorted := SortBy(kept, key, descending);
    var r := Take(sorted, n);
    SortByCorrect(kept, key, descending);
    SortByLength(kept, key, descending);
    SortByMembers(kept, key, descending);
    WhereMembers(s, p);
    forall i | 0 <= i < |r| ensures r[i] in s && p(r[i]) {
      assert r[i] == sorted[i];
      assert sorted[i] in kept;
    }
    forall i, j | 0 <= i < j < |r| ensures Ordered(key(r[i]), key(r[j]), descending) {
      assert r[i] == sorted[i] && r[j] == sorted[j];
    }
    TakeKeepsFirst(sorted, key, descending, n);
  }

}

=== FILE: db_schema.dfy ===
/** The relational schema the back office works on: enum domains, the rows of
    the catalog, member and admin tables as the queries and actions use them,
    and the ON DELETE rules of the catalog's foreign keys. */
module DbSchema {
  import opened Common

  type Id = string

  /** A timestamp column, as a number the caller supplies (the model has no clock). */
  type Time = int

  // ---------------------------------------------------------------- enums

  /** language_code_enum, in declaration order (PostgreSQL orders enum values by it). */
  datatype LanguageCode = KR | EN | JP

  function LanguageText(l: LanguageCode): string {
    match l
    case KR => "KR"
    case EN => "EN"
    case JP => "JP"
  }

  function LanguageRank(l: LanguageCode): nat {
    match l
    case KR => 0
    case EN => 1
    case JP => 2
  }

  function ParseLanguage(s: string): (r: Option<LanguageCode>)
    ensures r.Some? <==> s == "KR" || s == "EN" || s == "JP"
    ensures r.Some? ==> LanguageText(r.value) == s
  {
    if s == "KR" then Some(KR) else if s == "EN" then Some(EN) else if s == "JP" then Some(JP) else None
  }

  /** currency_code_enum. */
  datatype CurrencyCode = USD | KRW | JPY

  function CurrencyText(c: CurrencyCode): string {
    match c
    case USD => "USD"
    case KRW => "KRW"
    case JPY => "JPY"
  }

  function ParseCurrency(s: string): (r: Option<CurrencyCode>)
    ensures r.Some? <==> s == "USD" || s == "KRW" || s == "JPY"
    ensures r.Some? ==> CurrencyText(r.value) == s
  {
    if s == "USD" then Some(USD) else if s == "KRW" then Some(KRW) else if s == "JPY" then Some(JPY) else None
  }

  /** Every enum value is recognised again from its own text. */
  lemma EnumTextRoundTrip(l: LanguageCode, c: CurrencyCode)
    ensures ParseLanguage(LanguageText(l)) == Some(l)
    ensures ParseCurrency(CurrencyText(c)) == Some(c)
  {
  }

  /** The language ranks follow the enum's declaration order KR < EN < JP. */
  lemma LanguageRankIsDeclarationOrder(a: LanguageCode, b: LanguageCode)
    ensures LanguageRank(a) == LanguageRank(b) <==> a == b
    ensures (a == KR && b != KR) ==> LanguageRank(a) < LanguageRank(b)
    ensures (a == EN && b == JP) ==> LanguageRank(a) < LanguageRank(b)
  {
  }

  /** user_status_enum. */
  datatype UserStatus = UserActive | UserSuspended | UserWithdrawn

  /** product_type_enum. */
  datatype ProductType = Subscription | Purchase

  /** The billing cycle the product actions write (the products table in the
      schema file predates this column). */
  datatype BillingCycle = Monthly | Yearly | Once

  /** tool_category_enum, in declaration order. */
  datatype ToolCategory = Search | Generation | Operation | Documents | Utility | KnowledgeBase | Amusement

  function CategoryText(c: ToolCategory): string {
    match c
    case Search => "SEARCH"
    case Generation => "GENERATION"
    case Operation => "OPERATION"
    case Documents => "DOCUMENTS"
    case Utility => "UTILITY"
    case KnowledgeBase => "KNOWLEDGE_BASE"
    case Amusement => "AMUSEMENT"
  }

  function ParseCategory(s: string): (r: Option<ToolCategory>)
    ensures r.Some? ==> CategoryText(r.value) == s
    ensures r.None? ==> forall c: ToolCategory :: CategoryText(c) != s
  {
    if s == "SEARCH" then Some(Search)
    else if s == "GENERATION" then Some(Generation)
    else if s == "OPERATION" then Some(Operation)
    else if s == "DOCUMENTS" then Some(Documents)
    else if s == "UTILITY" then Some(Utility)
    else if s == "KNOWLEDGE_BASE" then Some(KnowledgeBase)
    else if s == "AMUSEMENT" then Some(Amusement)
    else None
  }

  // ---------------------------------------------------------------- catalog rows

  datatype ProductRow = ProductRow(
    id: Id,
    productType: ProductType,
    category: Option<string>,
    billingCycle: BillingCycle,
    productCode: string,
    paddleProductId: Option<string>,
    paddlePriceId: Option<string>,
    iconImageUrl: Option<string>,
    isActive: bool,
    createdAt: Time,
    updatedAt: Option<Time>,
    deletedAt: Option<Time>)

  /** products_i18n: one localized name/description/price of a product. */
  datatype ProductI18nRow = ProductI18nRow(
    productId: Id,
    languageCode: LanguageCode,
    name: string,
    description: Option<string>,
    currencyCode: CurrencyCode,
    price: string,
    currentPrice: Option<string>)

  /** product_tools: a tool bundled into a product. */
  datatype ProductToolRow = ProductToolRow(
    productId: Id,
    toolId: Id,
    quotaAllocation: Option<int>,
    sortOrder: Option<int>)

  datatype ToolRow = ToolRow(
    id: Id,
    category: Option<ToolCategory>,
    toolCode: string,
    internalUsageLimit: Option<int>,
    isFree: bool,
    tier: Option<int>,
    iconImageUrl: Option<string>,
    isActive: bool,
    createdAt: Time,
    updatedAt: Time)

  /** tool_i18n: the nullable name is what the display-name fallback looks at. */
  datatype ToolI18nRow = ToolI18nRow(
    toolId: Id,
    languageCode: LanguageCode,
    name: Option<string>,
    description: string)

  datatype UserPurchaseRow = UserPurchaseRow(
    id: Id,
    userId: Option<Id>,
    productId: Option<Id>,
    status: Option<string>,
    currentPeriodStart: Option<Time>,
    currentPeriodEnd: Option<Time>,
    createdAt: Option<Time>)

  datatype PurchaseToolQuotaRow = PurchaseToolQuotaRow(id: Id, licenseId: Id, toolId: Id)

  datatype WorkflowRow = WorkflowRow(id: Id, workflowId: Option<string>, name: Option<string>, isActive: bool)

  // ---------------------------------------------------------------- member and admin rows

  datatype UserRow = UserRow(
    id: Id,
    name: string,
    email: Option<string>,
    profileImageUrl: Option<string>,
    languageCode: Option<LanguageCode>,
    status: Option<UserStatus>,
    onboardingStatus: Option<string>,
    createdAt: Option<Time>)

  datatype AccountRow = AccountRow(id: Id, userId: Id, accountId: string, providerId: string, createdAt: Option<Time>)

  datatype SessionRow = SessionRow(id: Id, userId: Id, ipAddress: Option<string>, userAgent: Option<string>, createdAt: Option<Time>)

  datatype PaymentTransactionRow = PaymentTransactionRow(
    id: Id,
    userId: Option<Id>,
    amount: Option<int>,
    currencyCode: Option<CurrencyCode>,
    status: Option<string>,
    createdAt: Option<Time>)

  /** The admins table is not declared in the schema file; its columns are the
      ones the admin queries and the login action read and write. */
  datatype AdminRow = AdminRow(
    id: Id,
    name: string,
    email: string,
    role: string,
    status: string,
    profileImageUrl: Option<string>,
    lastLoginAt: Option<Time>,
    createdAt: Option<Time>,
    updatedAt: Option<Time>,
    password: Option<string>,
    twoFactorEnabled: bool,
    twoFactorSecret: Option<string>)

  datatype AdminLogRow = AdminLogRow(id: Id, adminId: Id, action: string, target: string, ipAddress: Option<string>, createdAt: Option<Time>)

  // ---------------------------------------------------------------- the catalog tables

  /** A snapshot of the catalog tables. */
  datatype Catalog = Catalog(
    products: seq<ProductRow>,
    productI18n: seq<ProductI18nRow>,
    productTools: seq<ProductToolRow>,
    tools: seq<ToolRow>,
    toolI18n: seq<ToolI18nRow>,
    purchases: seq<UserPurchaseRow>,
    quotas: seq<PurchaseToolQuotaRow>)

  function ProductIds(products: seq<ProductRow>): set<Id> {
    set p | p in products :: p.id
  }

  function ToolIds(tools: seq<ToolRow>): set<Id> {
    set t | t in tools :: t.id
  }

  function PurchaseIds(purchases: seq<UserPurchaseRow>): set<Id> {
    set p | p in purchases :: p.id
  }

  /** Primary keys are unique. */
  predicate UniqueKeys(c: Catalog) {
    && (forall i, j :: 0 <= i < j < |c.products| ==> c.products[i].id != c.products[j].id)
    && (forall i, j :: 0 <= i < j < |c.tools| ==> c.tools[i].id != c.tools[j].id)
  }

  /** Every foreign key of the catalog tables points at an existing row. */
  predicate ReferentiallyIntact(c: Catalog) {
    && (forall r :: r in c.productI18n ==> r.productId in ProductIds(c.products))
    && (forall r :: r in c.productTools ==> r.productId in ProductIds(c.products) && r.toolId in ToolIds(c.tools))
    && (forall r :: r in c.toolI18n ==> r.toolId in ToolIds(c.tools))
    && (forall r :: r in c.purchases && r.productId.Some? ==> r.productId.value in ProductIds(c.products))
    && (forall r :: r in c.quotas ==> r.licenseId in PurchaseIds(c.purchases) && r.toolId in ToolIds(c.tools))
  }

  predicate Consistent(c: Catalog) {
    UniqueKeys(c) && ReferentiallyIntact(c)
  }

  // ---------------------------------------------------------------- ON DELETE rules

  function ToolIsNot(id: Id): ToolRow -> bool { (t: ToolRow) => t.id != id }
  function ToolI18nNotOf(id: Id): ToolI18nRow -> bool { (r: ToolI18nRow) => r.toolId != id }
  function BundleNotOfTool(id: Id): ProductToolRow -> bool { (r: ProductToolRow) => r.toolId != id }
  function QuotaNotOfTool(id: Id): PurchaseToolQuotaRow -> bool { (r: PurchaseToolQuotaRow) => r.toolId != id }
  function ProductIsNot(id: Id): ProductRow -> bool { (p: ProductRow) => p.id != id }
  function ProductI18nNotOf(id: Id): ProductI18nRow -> bool { (r: ProductI18nRow) => r.productId != id }
  function BundleNotOfProduct(id: Id): ProductToolRow -> bool { (r: ProductToolRow) => r.productId != id }

  /** fk_licenses_product is ON DELETE SET NULL. */
  function DetachPurchases(purchases: seq<UserPurchaseRow>, productId: Id): (r: seq<UserPurchaseRow>)
    ensures |r| == |purchases|
    ensures forall i :: 0 <= i < |r| ==> r[i].id == purchases[i].id
    ensures forall i :: 0 <= i < |r| ==>
      r[i] == (if purchases[i].productId == Some(productId) then purchases[i].(productId := None) else purchases[i])
  {
    if purchases == [] then []
    else
      var p := purchases[0];
      [if p.productId == Some(productId) then p.(productId := None) else p] + DetachPurchases(purchases[1..], productId)
  }

  /** Physically deleting a tool: fk_tool_i18n_tool, fk_product_tools_tool and
      fk_quotas_tool are all ON DELETE CASCADE. */
  function DeleteToolCascade(c: Catalog, id: Id): Catalog {
    c.(tools := Where(c.tools, ToolIsNot(id)),
       toolI18n := Where(c.toolI18n, ToolI18nNotOf(id)),
       productTools := Where(c.productTools, BundleNotOfTool(id)),
       quotas := Where(c.quotas, QuotaNotOfTool(id)))
  }

  /** Physically deleting a product: fk_product_i18n_product and
      fk_product_tools_product cascade, fk_licenses_product sets the purchase's
      product to NULL (purchases survive). */
  function DeleteProductCascade(c: Catalog, id: Id): Catalog {
    c.(products := Where(c.products, ProductIsNot(id)),
       productI18n := Where(c.productI18n, ProductI18nNotOf(id)),
       productTools := Where(c.productTools, BundleNotOfProduct(id)),
       purchases := DetachPurchases(c.purchases, id))
  }

  lemma WhereKeepsIds(tools: seq<ToolRow>, id: Id)
    ensures ToolIds(Where(tools, ToolIsNot(id))) == ToolIds(tools) - {id}
  {
    var w := Where(tools, ToolIsNot(id));
    forall x | x in ToolIds(tools) - {id} ensures x in ToolIds(w) {
      var t :| t in tools && t.id == x;
      var i :| 0 <= i < |tools| && tools[i] == t;
      assert ToolIsNot(id)(tools[i]);
    }
    forall x | x in ToolIds(w) ensures x in ToolIds(tools) - {id} {
      var t :| t in w && t.id == x;
      var i :| 0 <= i < |w| && w[i] == t;
      assert ToolIsNot(id)(w[i]);
    }
  }

  lemma WhereKeepsProductIds(products: seq<ProductRow>, id: Id)
    ensures ProductIds(Where(products, ProductIsNot(id))) == ProductIds(products) - {id}
  {
    var w := Where(products, ProductIsNot(id));
    forall x | x in ProductIds(products) - {id} ensures x in ProductIds(w) {
      var p :| p in products && p.id == x;
      var i :| 0 <= i < |products| && products[i] == p;
      assert ProductIsNot(id)(products[i]);
    }
    forall x | x in ProductIds(w) ensures x in ProductIds(products) - {id} {
      var p :| p in w && p.id == x;
      var i :| 0 <= i < |w| && w[i] == p;
      assert ProductIsNot(id)(w[i]);
    }
  }

  lemma {:induction false} WhereKeepsUnique<T>(s: seq<T>, p: T -> bool, key: T -> Id)
    requires forall i, j :: 0 <= i < j < |s| ==> key(s[i]) != key(s[j])
    ensures forall i, j :: 0 <= i < j < |Where(s, p)| ==> key(Where(s, p)[i]) != key(Where(s, p)[j])
  {
    if s != [] {
      WhereKeepsUnique(s[1..], p, key);
      var rest := Where(s[1..], p);
      forall j | 0 <= j < |rest| ensures key(rest[j]) != key(s[0]) {
        var k :| 0 <= k < |s[1..]| && s[1..][k] == rest[j];
        assert s[k + 1] == rest[j];
      }
    }
  }

  function ToolKey(t: ToolRow): Id { t.id }
  function ProductKey(p: ProductRow): Id { p.id }

  /** Deleting a tool leaves no row that refers to it and keeps every row of
      the child tables that refers to another tool; the product side of the
      catalog is untouched. */
  lemma DeleteToolCascadeRemovesReferences(c: Catalog, id: Id)
    ensures var r := DeleteToolCascade(c, id);
      && (forall x :: x in r.toolI18n <==> x in c.toolI18n && x.toolId != id)
      && (forall x :: x in r.productTools <==> x in c.productTools && x.toolId != id)
      && (forall x :: x in r.quotas <==> x in c.quotas && x.toolId != id)
      && r.products == c.products && r.productI18n == c.productI18n && r.purchases == c.purchases
  {
    WhereMembers(c.toolI18n, ToolI18nNotOf(id));
    WhereMembers(c.productTools, BundleNotOfTool(id));
    WhereMembers(c.quotas, QuotaNotOfTool(id));
  }

  /** The cascades are exactly what the hard delete of a tool relies on: the
      catalog stays consistent and only that tool's key disappears. */
  lemma DeleteToolCascadeConsistent(c: Catalog, id: Id)
    requires Consistent(c)
    ensures Consistent(DeleteToolCascade(c, id))
    ensures ToolIds(DeleteToolCascade(c, id).tools) == ToolIds(c.tools) - {id}
  {
    var r := DeleteToolCascade(c, id);
    WhereKeepsIds(c.tools, id);
    assert forall i, j :: 0 <= i < j < |c.tools| ==> ToolKey(c.tools[i]) != ToolKey(c.tools[j]);
    WhereKeepsUnique(c.tools, ToolIsNot(id), ToolKey);
    DeleteToolCascadeRemovesReferences(c, id);
  }

  /** Physically deleting a product removes its localized variants and bundle
      rows and keeps everything else; purchases survive with their product
      reference set to NULL. */
  lemma DeleteProductCascadeRemovesReferences(c: Catalog, id: Id)
    ensures var r := DeleteProductCascade(c, id);
      && (forall x :: x in r.productI18n <==> x in c.productI18n && x.productId != id)
      && (forall x :: x in r.productTools <==> x in c.productTools && x.productId != id)
      && PurchaseIds(r.purchases) == PurchaseIds(c.purchases)
      && (forall x :: x in r.purchases ==> x.productId != Some(id))
      && r.tools == c.tools && r.toolI18n == c.toolI18n && r.quotas == c.quotas
  {
    var r := DeleteProductCascade(c, id);
    WhereMembers(c.productI18n, ProductI18nNotOf(id));
    WhereMembers(c.productTools, BundleNotOfProduct(id));
    forall x | x in PurchaseIds(c.purchases) ensures x in PurchaseIds(r.purchases) {
      var p :| p in c.purchases && p.id == x;
      var i :| 0 <= i < |c.purchases| && c.purchases[i] == p;
      assert r.purchases[i].id == x;
    }
    forall x | x in PurchaseIds(r.purchases) ensures x in PurchaseIds(c.purchases) {
      var p :| p in r.purchases && p.id == x;
      var i :| 0 <= i < |r.purchases| && r.purchases[i] == p;
      assert c.purchases[i].id == x;
    }
  }

  lemma DeleteProductCascadeConsistent(c: Catalog, id: Id)
    requires Consistent(c)
    ensures Consistent(DeleteProductCascade(c, id))
    ensures ProductIds(DeleteProductCascade(c, id).products) == ProductIds(c.products) - {id}
  {
    var r := DeleteProductCascade(c, id);
    WhereKeepsProductIds(c.products, id);
    assert forall i, j :: 0 <= i < j < |c.products| ==> ProductKey(c.products[i]) != ProductKey(c.products[j]);
    WhereKeepsUnique(c.products, ProductIsNot(id), ProductKey);
    DeleteProductCascadeRemovesReferences(c, id);
    forall x | x in r.purchases && x.productId.Some? ensures x.productId.value in ProductIds(r.products) {
      var i :| 0 <= i < |r.purchases| && r.purchases[i] == x;
      assert c.purchases[i] in c.purchases;
    }
  }
}

=== FILE: list_navigation.dfy ===
/** How the list screens keep their sort, page and filters in the URL: the
    grid's sort and pagination handlers, the effect that re-syncs the grid
    after a navigation, and the filter bar's parameter update. The product,
    admin and member lists and the admin log share the handlers and differ
    only in the route they navigate to. */
module ListNavigation {
  import opened Common
  import opened UrlParams

  const ProductListRoute: string := "/products/list"
  const AdminListRoute: string := "/admins/list"
  const MemberListRoute: string := "/members/list"
  const AdminLogRoute: string := "/admins/log"

  /** `router.push(route + "?" + query)`. */
  datatype Navigation = Navigation(route: string, query: seq<Entry>)

  // ---------------------------------------------------------------- numbers in the URL

  function DigitValue(c: char): nat
    requires IsDigit(c)
  {
    c as int - '0' as int
  }

  /** The value of a run of decimal digits. */
  function DigitsValue(ds: string): nat
    requires AllDigits(ds)
  {
    if ds == [] then 0 else DigitsValue(ds[..|ds| - 1]) * 10 + DigitValue(ds[|ds| - 1])
  }

  /** The longest run of digits `s` starts with. */
  function LeadingDigits(s: string): (r: string)
    ensures AllDigits(r) && |r| <= |s| && r == s[..|r|]
  {
    if s == [] || !IsDigit(s[0]) then [] else [s[0]] + LeadingDigits(s[1..])
  }

  predicate IsSpace(c: char) {
    c == ' ' || c == '\t' || c == '\n' || c == '\r'
  }

  function TrimStart(s: string): string {
    if s != [] && IsSpace(s[0]) then TrimStart(s[1..]) else s
  }

  /** `parseInt(s, 10)`: leading blanks, an optional sign, then as many
      digits as there are; `None` is NaN (no digit at all). */
  function ParseInt(s: string): Option<int> {
    var t := TrimStart(s);
    var negative := t != [] && t[0] == '-';
    var rest := if t != [] && (t[0] == '-' || t[0] == '+') then t[1..] else t;
    var ds := LeadingDigits(rest);
    var value: int := if ds == [] then 0 else DigitsValue(ds);
    if ds == [] then None else Some(if negative then -value else value)
  }

  lemma {:induction false} NatTextDigits(n: nat)
    ensures NatText(n) != [] && AllDigits(NatText(n))
    ensures DigitsValue(NatText(n)) == n
    decreases n
  {
    if n >= 10 {
      NatTextDigits(n / 10);
      var s := NatText(n);
      assert s[..|s| - 1] == NatText(n / 10);
    }
  }

  lemma {:induction false} LeadingDigitsOfDigits(s: string)
    requires AllDigits(s)
    ensures LeadingDigits(s) == s
  {
    if s != [] {
      LeadingDigitsOfDigits(s[1..]);
    }
  }

  /** Writing a number into the URL and parsing it back gives the number. */
  lemma ParseIntText(n: int)
    ensures ParseInt(IntText(n)) == Some(n)
  {
    var m: nat := if n < 0 then -n else n;
    var digits := NatText(m);
    NatTextDigits(m);
    LeadingDigitsOfDigits(digits);
    var t := IntText(n);
    if n < 0 {
      assert t == "-" + digits;
      assert TrimStart(t) == t;
      assert t[1..] == digits;
    } else {
      assert t == digits;
      assert IsDigit(t[0]);
      assert TrimStart(t) == t;
    }
  }

  /** `parseInt(searchParams.get("page") || "1", 10)`. */
  function UrlPage(query: seq<Entry>): Option<int> {
    ParseInt(OrText(Lookup(query, "page"), "1"))
  }

  /** `x - 1` where NaN stays NaN. */
  function Pred(x: Option<int>): Option<int> {
    if x.Some? then Some(x.value - 1) else None
  }

  /** `a === b` on numbers: NaN equals nothing, not even NaN. */
  predicate SameNumber(a: Option<int>, b: Option<int>) {
    a.Some? && b.Some? && a.value == b.value
  }

  // ---------------------------------------------------------------- sorting

  /** One entry of the grid's sort model; `sort` is "asc", "desc" or null. */
  datatype SortItem = SortItem(field: string, sort: Option<string>)

  /** handleSortChange, as the navigation it causes, if any. */
  function SortNavigation(route: string, query: seq<Entry>, model: seq<SortItem>): Option<Navigation> {
    var currentSortBy := Lookup(query, "sortBy");
    var currentSortOrder := Lookup(query, "sortOrder");
    if |model| > 0 then
      var sortBy := model[0].field;
      var sortOrder := OrText(model[0].sort, "asc");
      if Some(sortBy) != currentSortBy || Some(sortOrder) != currentSortOrder then
        Some(Navigation(route, WithSet(WithSet(WithSet(query, "sortBy", sortBy), "sortOrder", sortOrder), "page", "1")))
      else None
    else if currentSortBy.Some? && currentSortBy.value != "" then
      Some(Navigation(route, WithSet(Without(Without(query, "sortBy"), "sortOrder"), "page", "1")))
    else None
  }

  /** handleSortChange on a fresh copy of the current query string. */
  method HandleSortChange(route: string, query: seq<Entry>, model: seq<SortItem>) returns (nav: Option<Navigation>)
    ensures nav == SortNavigation(route, query, model)
  {
    var params := new SearchParams(query);
    var currentSortBy := params.Get("sortBy");
    var currentSortOrder := params.Get("sortOrder");
    nav := None;
    if |model| > 0 {
      var sortBy := model[0].field;
      var sortOrder := OrText(model[0].sort, "asc");
      if Some(sortBy) != currentSortBy || Some(sortOrder) != currentSortOrder {
        params.Set("sortBy", sortBy);
        params.Set("sortOrder", sortOrder);
        params.Set("page", "1");
        nav := Some(Navigation(route, params.entries));
      }
    } else if currentSortBy.Some? && currentSortBy.value != "" {
      params.Delete("sortBy");
      params.Delete("sortOrder");
      params.Set("page", "1");
      nav := Some(Navigation(route, params.entries));
    }
  }

  /** The sort model the grid shows for the page's sortBy and sortOrder. */
  function SortModel(sortBy: Option<string>, sortOrder: Option<string>): seq<SortItem> {
    if sortBy.Some? && sortBy.value != "" then [SortItem(sortBy.value, Some(OrText(sortOrder, "desc")))] else []
  }

  /** The page hands the table the URL's sortBy and sortOrder, with
      "createdAt" and "desc" for missing or empty ones. */
  function ShownSortModel(query: seq<Entry>): seq<SortItem> {
    SortModel(Some(OrText(Lookup(query, "sortBy"), "createdAt")), Some(OrText(Lookup(query, "sortOrder"), "desc")))
  }

  /** A requested sort that differs from the URL's navigates to the same
      query with the field, the direction ("asc" when the grid gives none)
      and page "1"; every other parameter keeps its value. The grid then
      shows the requested sort (for any field but the empty one, which the
      page replaces with "createdAt"). An unchanged sort does not navigate. */
  lemma NewSortNavigates(route: string, query: seq<Entry>, item: SortItem, other: string)
    requires other != "sortBy" && other != "sortOrder" && other != "page"
    ensures var nav := SortNavigation(route, query, [item]);
      var sortOrder := OrText(item.sort, "asc");
      && (nav.None? <==> Lookup(query, "sortBy") == Some(item.field) && Lookup(query, "sortOrder") == Some(sortOrder))
      && (nav.Some? ==>
            && nav.value.route == route
            && Lookup(nav.value.query, "sortBy") == Some(item.field)
            && Lookup(nav.value.query, "sortOrder") == Some(sortOrder)
            && Lookup(nav.value.query, "page") == Some("1")
            && Lookup(nav.value.query, other) == Lookup(query, other)
            && (item.field != "" ==> ShownSortModel(nav.value.query) == [SortItem(item.field, Some(sortOrder))]))
  {
    var sortOrder := OrText(item.sort, "asc");
    var q1 := WithSet(query, "sortBy", item.field);
    var q2 := WithSet(q1, "sortOrder", sortOrder);
    var q3 := WithSet(q2, "page", "1");
    WithSetReads(query, "sortBy", item.field);
    WithSetReads(q1, "sortOrder", sortOrder);
    WithSetReads(q2, "page", "1");
    OtherKeysUnchanged(q1, "sortOrder", sortOrder, "sortBy");
    OtherKeysUnchanged(q2, "page", "1", "sortBy");
    OtherKeysUnchanged(q2, "page", "1", "sortOrder");
    OtherKeysUnchanged(query, "sortBy", item.field, other);
    OtherKeysUnchanged(q1, "sortOrder", sortOrder, other);
    OtherKeysUnchanged(q2, "page", "1", other);
  }

  /** Clearing the sort navigates only when the URL has a sortBy; it drops
      sortBy and sortOrder, sets page "1" and keeps every other parameter. */
  lemma ClearedSortNavigates(route: string, query: seq<Entry>, other: string)
    requires other != "sortBy" && other != "sortOrder" && other != "page"
    ensures var nav := SortNavigation(route, query, []);
      && (nav.Some? <==> Lookup(query, "sortBy").Some? && Lookup(query, "sortBy").value != "")
      && (nav.Some? ==>
            && Lookup(nav.value.query, "sortBy") == None
            && Lookup(nav.value.query, "sortOrder") == None
            && Lookup(nav.value.query, "page") == Some("1")
            && Lookup(nav.value.query, other) == Lookup(query, other))
  {
    var q1 := Without(query, "sortBy");
    var q2 := Without(q1, "sortOrder");
    WithoutHasNoKey(query, "sortBy");
    WithoutHasNoKey(q1, "sortOrder");
    OtherKeysUnchanged(q1, "sortOrder", "", "sortBy");
    WithSetReads(q2, "page", "1");
    OtherKeysUnchanged(q2, "page", "1", "sortBy");
    OtherKeysUnchanged(q2, "page", "1", "sortOrder");
    OtherKeysUnchanged(query, "sortBy", "", other);
    OtherKeysUnchanged(q1, "sortOrder", "", other);
    OtherKeysUnchanged(q2, "page", "1", other);
  }

  /** Without a sortBy the grid shows no sort; with one, its direction
      defaults to descending. */
  lemma SortModelDefaults(sortBy: Option<string>, sortOrder: Option<string>)
    ensures (sortBy.None? || sortBy.value == "") <==> SortModel(sortBy, sortOrder) == []
    ensures sortBy.Some? && sortBy.value != "" && (sortOrder.None? || sortOrder.value == "") ==>
      SortModel(sortBy, sortOrder) == [SortItem(sortBy.value, Some("desc"))]
  {
  }

  // ---------------------------------------------------------------- pagination

  /** The navigation a grid page change asks for: the URL's page becomes
      the grid's page plus one, unless it already is. */
  function PageNavigation(route: string, query: seq<Entry>, gridPage: int): Option<Navigation> {
    if SameNumber(Some(gridPage + 1), UrlPage(query)) then None
    else Some(Navigation(route, WithSet(query, "page", IntText(gridPage + 1))))
  }

  /** Grid page p is URL page p + 1: a page change navigates exactly when
      the URL is on another page, lands on a URL whose page parses back to
      p + 1, and keeps every other parameter. */
  lemma PageNavigationLands(route: string, query: seq<Entry>, gridPage: int, other: string)
    requires other != "page"
    ensures var nav := PageNavigation(route, query, gridPage);
      && (nav.None? <==> UrlPage(query) == Some(gridPage + 1))
      && (nav.Some? ==>
            && nav.value.route == route
            && UrlPage(nav.value.query) == Some(gridPage + 1)
            && Pred(UrlPage(nav.value.query)) == Some(gridPage)
            && Lookup(nav.value.query, other) == Lookup(query, other))
  {
    var text := IntText(gridPage + 1);
    WithSetReads(query, "page", text);
    OtherKeysUnchanged(query, "page", text, other);
    ParseIntText(gridPage + 1);
    NatTextDigits(if gridPage + 1 < 0 then -(gridPage + 1) else gridPage + 1);
    assert text != "";
  }

  /** The grid's pagination state and the flag that holds off page changes
      while a navigation is under way. */
  class PaginatedTable {
    const route: string
    var isNavigating: bool
    /** The grid's 0-based page; NaN when the URL's page does not parse. */
    var page: Option<int>
    var pageSize: int

    constructor (route: string, query: seq<Entry>, pageSize: int)
      ensures this.route == route && !isNavigating
      ensures page == Pred(UrlPage(query)) && this.pageSize == pageSize
    {
      this.route := route;
      isNavigating := false;
      page := Pred(UrlPage(query));
      this.pageSize := pageSize;
    }

    /** The effect that runs after the URL changes: navigation is over, and
      the grid moves to the URL's page when it shows another. */
    method SyncWithUrl(query: seq<Entry>, pageSize: int)
      modifies this
      ensures !isNavigating
      ensures if SameNumber(old(page), Pred(UrlPage(query))) && old(this.pageSize) == pageSize
              then page == old(page) && this.pageSize == old(this.pageSize)
              else page == Pred(UrlPage(query)) && this.pageSize == pageSize
    {
      isNavigating := false;
      var target := Pred(UrlPage(query));
      if !SameNumber(page, target) || this.pageSize != pageSize {
        page := target;
        this.pageSize := pageSize;
      }
    }

    /** handlePaginationModelChange: ignored while a navigation is under way;
      otherwise a move to another page records the grid's model, raises the
      flag and navigates. */
    method HandlePageChange(query: seq<Entry>, gridPage: int, gridPageSize: int) returns (nav: Option<Navigation>)
      modifies this
      ensures old(isNavigating) ==> nav.None? && isNavigating && page == old(page) && pageSize == old(pageSize)
      ensures !old(isNavigating) ==> nav == PageNavigation(route, query, gridPage)
      ensures !old(isNavigating) && nav.Some? ==> isNavigating && page == Some(gridPage) && pageSize == gridPageSize
      ensures !old(isNavigating) && nav.None? ==> !isNavigating && page == old(page) && pageSize == old(pageSize)
    {
      nav := None;
      if isNavigating {
        return;
      }
      var newPage := gridPage + 1;
      var urlPage := UrlPage(query);
      if !SameNumber(Some(newPage), urlPage) {
        isNavigating := true;
        page, pageSize := Some(gridPage), gridPageSize;
        var params := new SearchParams(query);
        params.Set("page", IntText(newPage));
        nav := Some(Navigation(route, params.entries));
      }
    }
  }

  // ---------------------------------------------------------------- the filter bar

  /** updateParams: a value other than "" and "all" is set, any other value
      removes the key; the page is always dropped, back to the first. */
  function FilterNavigation(route: string, query: seq<Entry>, key: string, value: string): Navigation {
    var updated := if value != "" && value != "all" then WithSet(query, key, value) else Without(query, key);
    Navigation(route, Without(updated, "page"))
  }

  method UpdateParams(route: string, query: seq<Entry>, key: string, value: string) returns (nav: Navigation)
    ensures nav == FilterNavigation(route, query, key, value)
  {
    var params := new SearchParams(query);
    if value != "" && value != "all" {
      params.Set(key, value);
    } else {
      params.Delete(key);
    }
    params.Delete("page");
    nav := Navigation(route, params.entries);
  }

  /** The search box applies its text only on Enter. */
  method HandleSearchKeyDown(route: string, query: seq<Entry>, pressed: string, search: string) returns (nav: Option<Navigation>)
    ensures pressed == "Enter" ==> nav == Some(FilterNavigation(route, query, "search", search))
    ensures pressed != "Enter" ==> nav.None?
  {
    nav := None;
    if pressed == "Enter" {
      var n := UpdateParams(route, query, "search", search);
      nav := Some(n);
    }
  }

  method HandleStatusChange(route: string, query: seq<Entry>, value: string) returns (nav: Navigation)
    ensures nav == FilterNavigation(route, query, "status", value)
  {
    nav := UpdateParams(route, query, "status", value);
  }

  /** After a filter change the key reads as the value, or is gone for ""
      and "all"; the page is gone, so the list starts at page 1; every other
      parameter keeps its value. */
  lemma FilterNavigationReads(route: string, query: seq<Entry>, key: string, value: string, other: string)
    requires key != "page"
    requires other != key && other != "page"
    ensures var nav := FilterNavigation(route, query, key, value);
      && nav.route == route
      && Lookup(nav.query, key) == (if value != "" && value != "all" then Some(value) else None)
      && Lookup(nav.query, "page") == None
      && Lookup(nav.query, other) == Lookup(query, other)
  {
    var updated := if value != "" && value != "all" then WithSet(query, key, value) else Without(query, key);
    if value != "" && value != "all" {
      WithSetReads(query, key, value);
    } else {
      WithoutHasNoKey(query, key);
    }
    OtherKeysUnchanged(query, key, value, other);
    OtherKeysUnchanged(updated, "page", "", key);
    OtherKeysUnchanged(updated, "page", "", other);
    WithoutHasNoKey(updated, "page");
  }

  /** A URL without a page is on page 1. */
  lemma NoPageIsFirstPage(query: seq<Entry>)
    requires Lookup(query, "page") == None
    ensures UrlPage(query) == Some(1)
  {
    ParseIntText(1);
    assert IntText(1) == "1";
  }
}

=== FILE: locale_choice.dfy ===
/** The locale the request configuration picks for every page. */
module LocaleChoice {
  import opened Common

  const Locales: seq<string> := ["en", "ko"]
  const DefaultLocale: string := "en"
  const TimeZone: string := "UTC"

  /** Reading the locale cookie (and loading that locale's messages) either
      yields the cookie's value, if any, or throws. */
  datatype CookieRead = CookieValue(value: Option<string>) | ReadFailed

  datatype RequestConfig = RequestConfig(locale: string, timeZone: string)

  function ChooseLocale(read: CookieRead): (r: RequestConfig)
    ensures r.locale in Locales
    ensures r.timeZone == TimeZone
  {
    if read.ReadFailed? then RequestConfig(DefaultLocale, TimeZone)
    else if read.value.Some? && read.value.value in Locales then RequestConfig(read.value.value, TimeZone)
    else RequestConfig(DefaultLocale, TimeZone)
  }

  /** A supported cookie value is kept as it is; anything else, no cookie,
      and a failure all give the default locale. */
  lemma ChooseLocaleCases(read: CookieRead)
    ensures read.CookieValue? && read.value.Some? && read.value.value in Locales ==> ChooseLocale(read).locale == read.value.value
    ensures read.ReadFailed? || read.value.None? || read.value.value !in Locales ==> ChooseLocale(read).locale == DefaultLocale
    ensures ChooseLocale(read).locale == "en" || ChooseLocale(read).locale == "ko"
  {
  }

  /** Choosing again from the chosen locale changes nothing. */
  lemma ChooseLocaleIdempotent(read: CookieRead)
    ensures ChooseLocale(CookieValue(Some(ChooseLocale(read).locale))) == ChooseLocale(read)
  {
  }
}

=== FILE: member_queries.dfy ===
/** The member list and member detail reads: the user-status mapping, the
    row shaping with its `||` fallbacks, paging, and the purchases panel
    with its product-name chain and shared transaction. */
module MemberQueries {
  import opened Common
  import opened DbSchema
  import opened PgInput

  /** The user and session tables the member pages read, besides the catalog's
      products and purchases. */
  datatype MemberTables = MemberTables(
    users: seq<UserRow>,
    accounts: seq<AccountRow>,
    sessions: seq<SessionRow>,
    transactions: seq<PaymentTransactionRow>)

  // ---------------------------------------------------------------- status

  datatype MemberStatus = MemberActive | MemberInactive | MemberBanned

  /** The user_status_enum value as the admin screens show it. */
  function MapUserStatus(s: Option<UserStatus>): (r: MemberStatus)
    ensures r == MemberActive <==> s == Some(UserActive)
    ensures r == MemberBanned <==> s == Some(UserSuspended)
    ensures r == MemberInactive <==> s == None || s == Some(UserWithdrawn)
  {
    match s
    case Some(UserActive) => MemberActive
    case Some(UserSuspended) => MemberBanned
    case Some(UserWithdrawn) => MemberInactive
    case None => MemberInactive
  }

  // ---------------------------------------------------------------- a user's rows

  /** A user's linked accounts, in table order (no ORDER BY). */
  function AccountsOf(m: MemberTables, userId: Id): seq<AccountRow> {
    Where(m.accounts, (a: AccountRow) => a.userId == userId)
  }

  function SessionKey(s: SessionRow): SortKey {
    if s.createdAt.Some? then KInt(s.createdAt.value) else KNull
  }

  /** `sessions.userId = userId`. */
  function SessionsOfUser(userId: Id): SessionRow -> bool {
    (s: SessionRow) => s.userId == userId
  }

  /** A user's `limit` newest sessions: `limit` of the user's sessions, or
      all of them when there are fewer, newest first, every session of the
      user left out being no newer than the last one kept. */
  function LatestSessions(m: MemberTables, userId: Id, limit: nat): (latest: seq<SessionRow>)
    ensures var mine := Where(m.sessions, SessionsOfUser(userId));
      && |latest| == Min(limit, |mine|)
      && (forall i :: 0 <= i < |latest| ==> latest[i] in m.sessions && SessionsOfUser(userId)(latest[i]))
      && (forall i, j :: 0 <= i < j < |latest| ==> Ordered(SessionKey(latest[i]), SessionKey(latest[j]), true))
      && multiset(latest) <= multiset(mine)
      && (|latest| > 0 ==> forall x :: x in multiset(mine) - multiset(latest) ==>
            Ordered(SessionKey(latest[|latest| - 1]), SessionKey(x), true))
  {
    TopRows(m.sessions, SessionsOfUser(userId), SessionKey, true, limit);
    Take(SortBy(Where(m.sessions, SessionsOfUser(userId)), SessionKey, true), limit)
  }

  /** `accounts[0]?.providerId || "email"`. */
  function Provider(accounts: seq<AccountRow>): (r: string)
    ensures r != ""
    ensures r == "email" || (accounts != [] && r == accounts[0].providerId)
    ensures accounts == [] ==> r == "email"
  {
    OrText(if accounts == [] then None else Some(accounts[0].providerId), "email")
  }

  /** `sessions[0]?.createdAt || undefined` over the newest-first sessions. */
  function LastLogin(latest: seq<SessionRow>): Option<Time> {
    if latest == [] then None else latest[0].createdAt
  }

  // ---------------------------------------------------------------- the list

  datatype MemberListParams = MemberListParams(
    page: Option<int>,
    pageSize: Option<int>,
    sortBy: Option<string>,
    sortOrder: Option<string>)

  /** A member as the list and the detail header show it. */
  datatype MemberItem = MemberItem(
    id: Id,
    name: string,
    email: string,
    image: string,
    provider: string,
    status: MemberStatus,
    createdAt: Time,
    lastLoginAt: Option<Time>)

  datatype MemberListPage = MemberListPage(data: seq<MemberItem>, total: nat, page: int, pageSize: int)

  function CreatedAtKey(u: UserRow): SortKey {
    if u.createdAt.Some? then KInt(u.createdAt.value) else KNull
  }

  /** The sort column: name, email, or created_at for every other value. */
  function MemberSortKey(sortBy: string): (key: UserRow -> SortKey)
    ensures sortBy == "name" ==> forall u :: key(u) == KText(u.name)
    ensures sortBy == "email" ==> forall u :: key(u) == (if u.email.Some? then KText(u.email.value) else KNull)
    ensures sortBy != "name" && sortBy != "email" ==> forall u :: key(u) == CreatedAtKey(u)
  {
    if sortBy == "name" then (u: UserRow) => KText(u.name)
    else if sortBy == "email" then (u: UserRow) => if u.email.Some? then KText(u.email.value) else KNull
    else CreatedAtKey
  }

  /** A user shaped for display; `now` stands in for `new Date()`. */
  function MemberItemOf(m: MemberTables, u: UserRow, now: Time): MemberItem {
    MemberItem(
      u.id,
      u.name,
      OrText(u.email, ""),
      OrText(u.profileImageUrl, ""),
      Provider(AccountsOf(m, u.id)),
      MapUserStatus(u.status),
      OrElse(u.createdAt, now),
      LastLogin(LatestSessions(m, u.id, 1)))
  }

  function MemberItems(m: MemberTables, users: seq<UserRow>, now: Time): (r: seq<MemberItem>)
    ensures |r| == |users|
    ensures forall i :: 0 <= i < |users| ==> r[i] == MemberItemOf(m, users[i], now)
  {
    seq(|users|, i requires 0 <= i < |users| => MemberItemOf(m, users[i], now))
  }

  function OrderedUsers(m: MemberTables, params: MemberListParams): seq<UserRow> {
    SortBy(m.users, MemberSortKey(OrElse(params.sortBy, "createdAt")), OrElse(params.sortOrder, "desc") == "desc")
  }

  /** getMemberList: every user, ordered, one page of them shaped for display,
      and the count of all users. */
  function MemberList(m: MemberTables, params: MemberListParams, now: Time): QueryResult<MemberListPage> {
    var page := OrElse(params.page, 1);
    var pageSize := OrElse(params.pageSize, 10);
    var rows := PageOf(OrderedUsers(m, params), page, pageSize);
    if rows.QueryFailed? then QueryFailed(rows.error)
    else Rows(MemberListPage(MemberItems(m, rows.value, now), |m.users|, page, pageSize))
  }

  /** The page defaults to 1 and its size to 10; the query fails only for a
      negative window. The total is the number of users whatever the page,
      the page holds `pageSize` members, or the users left past the offset
      when fewer, and its i-th member is the user at position `offset + i` of
      the ordered table. */
  lemma MemberListPaging(m: MemberTables, params: MemberListParams, now: Time)
    ensures var page := OrElse(params.page, 1);
      var pageSize := OrElse(params.pageSize, 10);
      var r := MemberList(m, params, now);
      && (r.Rows? <==> pageSize >= 0 && (page >= 1 || pageSize == 0))
      && (r.Rows? ==>
            && r.value.total == |m.users|
            && r.value.page == page && r.value.pageSize == pageSize
            && |r.value.data| <= pageSize
            && |r.value.data| == PageLength(|m.users|, page, pageSize)
            && forall i :: 0 <= i < |r.value.data| ==>
                 0 <= Offset(page, pageSize) + i < |m.users| &&
                 r.value.data[i] == MemberItemOf(m, OrderedUsers(m, params)[Offset(page, pageSize) + i], now))
  {
    SortByLength(m.users, MemberSortKey(OrElse(params.sortBy, "createdAt")), OrElse(params.sortOrder, "desc") == "desc");
  }

  /** The ordered table is every user once, ordered by the requested column;
      only 'desc' is descending. */
  lemma MemberListOrder(m: MemberTables, params: MemberListParams)
    ensures multiset(OrderedUsers(m, params)) == multiset(m.users)
    ensures SortedBy(OrderedUsers(m, params), MemberSortKey(OrElse(params.sortBy, "createdAt")), OrElse(params.sortOrder, "desc") == "desc")
  {
    SortByCorrect(m.users, MemberSortKey(OrElse(params.sortBy, "createdAt")), OrElse(params.sortOrder, "desc") == "desc");
  }

  /** The shown fields never hold null: a missing or empty email or image is
      "", the provider is the first linked account's provider or "email",
      and a missing creation time is the current time. */
  lemma MemberItemFallbacks(m: MemberTables, u: UserRow, now: Time)
    ensures var item := MemberItemOf(m, u, now);
      && item.id == u.id && item.name == u.name
      && (u.email.Some? ==> item.email == u.email.value)
      && (u.email.None? ==> item.email == "")
      && (u.profileImageUrl.Some? ==> item.image == u.profileImageUrl.value)
      && (u.profileImageUrl.None? ==> item.image == "")
      && (item.provider == "email" || exists a :: a in m.accounts && a.userId == u.id && a.providerId == item.provider)
      && ((forall a :: a in m.accounts ==> a.userId != u.id) ==> item.provider == "email")
      && item.createdAt == (if u.createdAt.Some? then u.createdAt.value else now)
  {
    var accounts := AccountsOf(m, u.id);
    if accounts != [] {
      assert accounts[0] in m.accounts && accounts[0].userId == u.id;
    }
  }

  /** The last login is the newest session's time: when it is shown, every
      session of the user has a time no later than it. A session without a
      time sorts first among the newest, so then no last login is shown. */
  lemma LastLoginIsLatest(m: MemberTables, u: UserRow, now: Time)
    ensures var last := MemberItemOf(m, u, now).lastLoginAt;
      && (last.Some? ==> forall s :: s in m.sessions && s.userId == u.id ==> s.createdAt.Some? && s.createdAt.value <= last.value)
      && (last.Some? ==> exists s :: s in m.sessions && s.userId == u.id && s.createdAt == last)
      && (last.None? ==> forall s :: s in m.sessions && s.userId == u.id ==> s.createdAt.None? || exists t :: t in m.sessions && t.userId == u.id && t.createdAt.None?)
  {
    NewestSessionTime(m, u.id);
  }

  lemma NewestSessionTime(m: MemberTables, userId: Id)
    ensures var last := LastLogin(LatestSessions(m, userId, 1));
      && (last.Some? ==> forall s :: s in m.sessions && s.userId == userId ==> s.createdAt.Some? && s.createdAt.value <= last.value)
      && (last.Some? ==> exists s :: s in m.sessions && s.userId == userId && s.createdAt == last)
      && (last.None? ==> forall s :: s in m.sessions && s.userId == userId ==> s.createdAt.None? || exists t :: t in m.sessions && t.userId == userId && t.createdAt.None?)
  {
    var latest := LatestSessions(m, userId, 1);
    if latest != [] {
      var newest := latest[0];
      assert newest in m.sessions && SessionsOfUser(userId)(newest);
      forall s | s in m.sessions && s.userId == userId
        ensures newest.createdAt.Some? ==> s.createdAt.Some? && s.createdAt.value <= newest.createdAt.value
      {
        NewestSessionFirst(m, userId, s);
      }
    } else {
      WhereMembers(m.sessions, SessionsOfUser(userId));
      forall s | s in m.sessions && s.userId == userId ensures s in Where(m.sessions, SessionsOfUser(userId)) {
        assert SessionsOfUser(userId)(s);
      }
    }
  }

  /** No session of the user is newer than the first of their newest ones. */
  lemma NewestSessionFirst(m: MemberTables, userId: Id, s: SessionRow)
    requires s in m.sessions && s.userId == userId
    ensures var latest := LatestSessions(m, userId, 1);
      && latest != []
      && (latest[0].createdAt.Some? ==> s.createdAt.Some? && s.createdAt.value <= latest[0].createdAt.value)
  {
    var mine := Where(m.sessions, SessionsOfUser(userId));
    var latest := LatestSessions(m, userId, 1);
    WhereMembers(m.sessions, SessionsOfUser(userId));
    assert SessionsOfUser(userId)(s);
    assert s in mine;
    if s != latest[0] {
      assert latest == [latest[0]];
      assert s in multiset(mine) - multiset(latest);
    }
    NewerSessionKey(latest[0], s);
  }

  /** Newest first, with NULL greatest: a timed session is preceded only by
      timed sessions that are no older. */
  lemma NewerSessionKey(a: SessionRow, b: SessionRow)
    requires Ordered(SessionKey(a), SessionKey(b), true)
    ensures a.createdAt.Some? ==> b.createdAt.Some? && b.createdAt.value <= a.createdAt.value
  {
  }

  // ---------------------------------------------------------------- the detail

  datatype MemberAccount = MemberAccount(id: Id, providerId: string, accountId: string, createdAt: Option<Time>)

  datatype MemberSession = MemberSession(id: Id, ipAddress: Option<string>, userAgent: Option<string>, createdAt: Option<Time>)

  datatype MemberPurchase = MemberPurchase(
    id: Id,
    productName: string,
    status: string,
    amount: Option<int>,
    currency: Option<CurrencyCode>,
    currentPeriodStart: Option<Time>,
    currentPeriodEnd: Option<Time>)

  datatype MemberDetail = MemberDetail(
    member: MemberItem,
    languageCode: LanguageCode,
    onboardingStatus: Option<string>,
    accounts: seq<MemberAccount>,
    sessions: seq<MemberSession>,
    purchases: seq<MemberPurchase>)

  /** `product.productsI18NS[0]?.name || product.productCode || "Unknown Product"`,
      for the product a purchase points at, if it still exists. */
  function ProductName(c: Catalog, productId: Option<Id>): string {
    var product := First(c.products, (p: ProductRow) => Some(p.id) == productId);
    if product.None? then "Unknown Product"
    else
      var names := Where(c.productI18n, (n: ProductI18nRow) => n.productId == product.value.id);
      OrText(if names == [] then None else Some(names[0].name),
             OrText(Some(product.value.productCode), "Unknown Product"))
  }

  /** The product name is never empty. It is the first localized name of the
      purchased product when that is non-empty, else the product code when
      that is non-empty, else "Unknown Product" — also when the purchase's
      product is gone. */
  lemma ProductNameChain(c: Catalog, productId: Option<Id>)
    ensures ProductName(c, productId) != ""
    ensures (forall p :: p in c.products ==> Some(p.id) != productId) ==> ProductName(c, productId) == "Unknown Product"
    ensures forall i :: 0 <= i < |c.products| && Some(c.products[i].id) == productId && (forall j :: 0 <= j < i ==> Some(c.products[j].id) != productId) ==>
      var names := Where(c.productI18n, (n: ProductI18nRow) => n.productId == c.products[i].id);
      ProductName(c, productId) ==
        if names != [] && names[0].name != "" then names[0].name
        else if c.products[i].productCode != "" then c.products[i].productCode
        else "Unknown Product"
  {
    var product := First(c.products, (p: ProductRow) => Some(p.id) == productId);
    if product.None? {
      forall p | p in c.products ensures Some(p.id) != productId {
        var k :| 0 <= k < |c.products| && c.products[k] == p;
      }
    }
    forall i | 0 <= i < |c.products| && Some(c.products[i].id) == productId && (forall j :: 0 <= j < i ==> Some(c.products[j].id) != productId)
      ensures product == Some(c.products[i])
    {
      var k :| 0 <= k < |c.products| && c.products[k] == product.value && forall j :: 0 <= j < k ==> !(Some(c.products[j].id) == productId);
      assert !(k < i) && !(i < k);
    }
  }

  /** A payment status that marks a transaction as a subscription or a payment. */
  predicate IsPaymentStatus(t: PaymentTransactionRow) {
    t.status.Some? && (Contains(t.status.value, "SUBSCRIPTION") || Contains(t.status.value, "PAID"))
  }

  function TransactionKey(t: PaymentTransactionRow): SortKey {
    if t.createdAt.Some? then KInt(t.createdAt.value) else KNull
  }

  /** The user's five newest transactions. */
  function LatestTransactions(m: MemberTables, userId: Id): seq<PaymentTransactionRow> {
    Take(SortBy(Where(m.transactions, (t: PaymentTransactionRow) => t.userId == Some(userId)), TransactionKey, true), 5)
  }

  /** The transaction every purchase row shows: the first of the five newest
      whose status names a subscription or a payment. It does not depend on
      the purchase. */
  function RelatedTransaction(m: MemberTables, userId: Id): Option<PaymentTransactionRow> {
    First(LatestTransactions(m, userId), IsPaymentStatus)
  }

  function TransactionAmount(t: Option<PaymentTransactionRow>): Option<int> {
    if t.Some? && t.value.amount.Some? && t.value.amount.value != 0 then t.value.amount else None
  }

  function TransactionCurrency(t: Option<PaymentTransactionRow>): Option<CurrencyCode> {
    if t.Some? then t.value.currencyCode else None
  }

  function PurchaseKey(p: UserPurchaseRow): SortKey {
    if p.createdAt.Some? then KInt(p.createdAt.value) else KNull
  }

  function PurchasesOf(c: Catalog, userId: Id): seq<UserPurchaseRow> {
    SortBy(Where(c.purchases, (p: UserPurchaseRow) => p.userId == Some(userId)), PurchaseKey, true)
  }

  function PurchaseOf(c: Catalog, p: UserPurchaseRow, related: Option<PaymentTransactionRow>): MemberPurchase {
    MemberPurchase(
      p.id,
      ProductName(c, p.productId),
      OrText(p.status, "UNKNOWN"),
      TransactionAmount(related),
      TransactionCurrency(related),
      p.currentPeriodStart,
      p.currentPeriodEnd)
  }

  function AccountOf(a: AccountRow): MemberAccount {
    MemberAccount(a.id, a.providerId, a.accountId, a.createdAt)
  }

  function SessionOf(s: SessionRow): MemberSession {
    MemberSession(s.id, s.ipAddress, s.userAgent, s.createdAt)
  }

  /** getMemberDetail: `None` for an unknown user id. */
  function GetMemberDetail(m: MemberTables, c: Catalog, id: Id, now: Time): Option<MemberDetail> {
    var user := First(m.users, (u: UserRow) => u.id == id);
    if user.None? then None
    else
      var u := user.value;
      var accounts := AccountsOf(m, u.id);
      var sessions := LatestSessions(m, u.id, 5);
      var purchases := PurchasesOf(c, u.id);
      var related := RelatedTransaction(m, u.id);
      Some(MemberDetail(
        MemberItemOf(m, u, now),
        OrElse(u.languageCode, KR),
        u.onboardingStatus,
        seq(|accounts|, i requires 0 <= i < |accounts| => AccountOf(accounts[i])),
        seq(|sessions|, i requires 0 <= i < |sessions| => SessionOf(sessions[i])),
        ShownPurchases(c, purchases, related)))
  }

  /** Every purchase row shown with the one related transaction. */
  function ShownPurchases(c: Catalog, purchases: seq<UserPurchaseRow>, related: Option<PaymentTransactionRow>): (r: seq<MemberPurchase>)
    ensures |r| == |purchases|
    ensures forall i :: 0 <= i < |r| ==> r[i].amount == TransactionAmount(related) && r[i].currency == TransactionCurrency(related)
  {
    seq(|purchases|, i requires 0 <= i < |purchases| => PurchaseOf(c, purchases[i], related))
  }

  /** getMemberDetail as the database answers it: text that is not a uuid
      makes the call reject. */
  function FetchMemberDetail(m: MemberTables, c: Catalog, id: Id, now: Time): QueryResult<Option<MemberDetail>> {
    if PgUuidText(id) then Rows(GetMemberDetail(m, c, id, now)) else QueryFailed(InvalidInput("uuid", id))
  }

  /** The call rejects exactly when the id is not uuid text (a short id never
      is). Otherwise the detail exists exactly for a known user; it describes
      that user, with Korean as the language when none is set, every linked
      account, the user's newest sessions (at most five, see
      MemberDetailSessions) and every purchase of the user. */
  lemma MemberDetailShape(m: MemberTables, c: Catalog, id: Id, now: Time)
    ensures FetchMemberDetail(m, c, id, now).QueryFailed? <==> !PgUuidText(id)
    ensures |id| < 32 ==> FetchMemberDetail(m, c, id, now) == QueryFailed(InvalidInput("uuid", id))
    ensures FetchMemberDetail(m, c, id, now).Rows? ==> FetchMemberDetail(m, c, id, now).value == GetMemberDetail(m, c, id, now)
    ensures var d := GetMemberDetail(m, c, id, now);
      && (d.Some? <==> exists u :: u in m.users && u.id == id)
      && (d.Some? ==>
            && d.value.member.id == id
            && (exists u :: u in m.users && u.id == id && d.value.languageCode == (if u.languageCode.Some? then u.languageCode.value else KR))
            && |d.value.accounts| == |AccountsOf(m, id)|
            && |d.value.sessions| <= 5
            && |d.value.sessions| == |LatestSessions(m, id, 5)|
            && (forall i :: 0 <= i < |d.value.sessions| ==> d.value.sessions[i] == SessionOf(LatestSessions(m, id, 5)[i]))
            && |d.value.purchases| == |Where(c.purchases, (p: UserPurchaseRow) => p.userId == Some(id))|)
  {
    FetchNeedsUuid(m, c, id, now);
    var user := First(m.users, (u: UserRow) => u.id == id);
    if user.Some? {
      DetailSessions(m, c, id, now);
      SortByLength(Where(c.purchases, (p: UserPurchaseRow) => p.userId == Some(id)), PurchaseKey, true);
    }
  }

  lemma FetchNeedsUuid(m: MemberTables, c: Catalog, id: Id, now: Time)
    ensures FetchMemberDetail(m, c, id, now).QueryFailed? <==> !PgUuidText(id)
    ensures |id| < 32 ==> FetchMemberDetail(m, c, id, now) == QueryFailed(InvalidInput("uuid", id))
    ensures FetchMemberDetail(m, c, id, now).Rows? ==> FetchMemberDetail(m, c, id, now).value == GetMemberDetail(m, c, id, now)
  {
    if |id| < 32 {
      ShortTextIsNoUuid(id);
    }
  }

  /** The sessions shown are the user's five newest: five of the user's
      sessions, or all of them when there are fewer, newest first, and every
      session of the user left out is no newer than the last one shown. */
  lemma MemberDetailSessions(m: MemberTables, id: Id)
    ensures var mine := Where(m.sessions, SessionsOfUser(id));
      var latest := LatestSessions(m, id, 5);
      && |latest| == Min(5, |mine|)
      && (forall i :: 0 <= i < |latest| ==> latest[i] in m.sessions && latest[i].userId == id)
      && (forall i, j :: 0 <= i < j < |latest| ==> Ordered(SessionKey(latest[i]), SessionKey(latest[j]), true))
      && multiset(latest) <= multiset(mine)
      && (|latest| > 0 ==> forall x :: x in multiset(mine) - multiset(latest) ==>
            Ordered(SessionKey(latest[|latest| - 1]), SessionKey(x), true))
  {
    var latest := LatestSessions(m, id, 5);
    forall i | 0 <= i < |latest| ensures latest[i].userId == id {
      assert SessionsOfUser(id)(latest[i]);
    }
  }

  /** Every purchase row shows the same amount and currency: those of the
      first of the user's five newest transactions whose status names a
      subscription or a payment, an amount of 0 reading as none. */
  lemma PurchasesShareTransaction(m: MemberTables, c: Catalog, id: Id, now: Time)
    requires GetMemberDetail(m, c, id, now).Some?
    ensures var ps := GetMemberDetail(m, c, id, now).value.purchases;
      forall i, j :: 0 <= i < |ps| && 0 <= j < |ps| ==> ps[i].amount == ps[j].amount && ps[i].currency == ps[j].currency
    ensures forall p :: p in GetMemberDetail(m, c, id, now).value.purchases && p.amount.Some? ==>
      p.amount.value != 0 &&
      exists t :: t in m.transactions && t.userId == Some(id) && IsPaymentStatus(t) && t.amount == p.amount
  {
    DetailPurchases(m, c, id, now);
    ShownPurchasesShare(m, c, id, PurchasesOf(c, id));
  }

  lemma ShownPurchasesShare(m: MemberTables, c: Catalog, id: Id, purchases: seq<UserPurchaseRow>)
    ensures var ps := ShownPurchases(c, purchases, RelatedTransaction(m, id));
      forall i, j :: 0 <= i < |ps| && 0 <= j < |ps| ==> ps[i].amount == ps[j].amount && ps[i].currency == ps[j].currency
    ensures forall p :: p in ShownPurchases(c, purchases, RelatedTransaction(m, id)) && p.amount.Some? ==>
      p.amount.value != 0 &&
      exists t :: t in m.transactions && t.userId == Some(id) && IsPaymentStatus(t) && t.amount == p.amount
  {
    var ps := ShownPurchases(c, purchases, RelatedTransaction(m, id));
    var related := RelatedTransaction(m, id);
    RelatedTransactionIsPayment(m, id);
    forall p | p in ps && p.amount.Some?
      ensures p.amount.value != 0
      ensures exists t :: t in m.transactions && t.userId == Some(id) && IsPaymentStatus(t) && t.amount == p.amount
    {
      var k :| 0 <= k < |ps| && ps[k] == p;
      assert p.amount == TransactionAmount(related);
      assert related.value in m.transactions;
    }
  }

  lemma DetailPurchases(m: MemberTables, c: Catalog, id: Id, now: Time)
    requires GetMemberDetail(m, c, id, now).Some?
    ensures GetMemberDetail(m, c, id, now).value.purchases == ShownPurchases(c, PurchasesOf(c, id), RelatedTransaction(m, id))
  {
    var user := First(m.users, (u: UserRow) => u.id == id);
    assert user.value.id == id;
  }

  lemma DetailSessions(m: MemberTables, c: Catalog, id: Id, now: Time)
    requires GetMemberDetail(m, c, id, now).Some?
    ensures var shown := GetMemberDetail(m, c, id, now).value.sessions;
      && |shown| == |LatestSessions(m, id, 5)|
      && forall i :: 0 <= i < |shown| ==> shown[i] == SessionOf(LatestSessions(m, id, 5)[i])
  {
    var user := First(m.users, (u: UserRow) => u.id == id);
    assert user.value.id == id;
  }

  /** The transaction shown with the purchases is one of the user's own,
      with a subscription or payment status. */
  lemma RelatedTransactionIsPayment(m: MemberTables, id: Id)
    ensures var t := RelatedTransaction(m, id);
      t.Some? ==> t.value in m.transactions && t.value.userId == Some(id) && IsPaymentStatus(t.value)
  {
    var latest := LatestTransactions(m, id);
    TopRows(m.transactions, (t: PaymentTransactionRow) => t.userId == Some(id), TransactionKey, true, 5);
    var related := RelatedTransaction(m, id);
    if related.Some? {
      var k :| 0 <= k < |latest| && latest[k] == related.value;
    }
  }
}

=== FILE: pg_input.dfy ===
/** How PostgreSQL reads the text of a bound parameter into the column type
    it is compared with or stored in. A parameter the type's input function
    refuses makes the whole statement fail before it touches a row. */
module PgInput {
  import opened Common

  // ---------------------------------------------------------------- uuid

  /** The input of type uuid, read from position `p` of `s` up to `end`:
      sixteen bytes of two hexadecimal digits each, `i` of them already read.
      A single hyphen may follow every second byte except the last (after 4,
      8, ..., 28 digits), and is skipped whenever it is there. */
  predicate UuidBytes(s: string, p: nat, i: nat, end: nat)
    requires i <= 16 && end <= |s|
    decreases 16 - i
  {
    if i == 16 then p == end
    else
      && p + 2 <= end && IsHexDigit(s[p]) && IsHexDigit(s[p + 1])
      && if i % 2 == 1 && i < 15 && p + 2 < end && s[p + 2] == '-' then UuidBytes(s, p + 3, i + 1, end)
         else UuidBytes(s, p + 2, i + 1, end)
  }

  /** What `'...'::uuid` accepts: the 32 digits, with or without the hyphens
      of the usual form (or one after any group of four), optionally
      wrapped in braces. */
  predicate PgUuidText(s: string) {
    if s != [] && s[0] == '{' then |s| >= 2 && s[|s| - 1] == '}' && UuidBytes(s, 1, 0, |s| - 1)
    else UuidBytes(s, 0, 0, |s|)
  }

  lemma {:induction false} UuidBytesLength(s: string, p: nat, i: nat, end: nat)
    requires i <= 16 && end <= |s|
    requires UuidBytes(s, p, i, end)
    ensures p + 2 * (16 - i) <= end
    decreases 16 - i
  {
    if i < 16 {
      if i % 2 == 1 && i < 15 && p + 2 < end && s[p + 2] == '-' {
        UuidBytesLength(s, p + 3, i + 1, end);
      } else {
        UuidBytesLength(s, p + 2, i + 1, end);
      }
    }
  }

  /** Fewer than 32 characters never read as a uuid: the empty string, a
      number or a short code is refused. */
  lemma ShortTextIsNoUuid(s: string)
    requires |s| < 32
    ensures !PgUuidText(s)
  {
    if PgUuidText(s) {
      if s != [] && s[0] == '{' {
        UuidBytesLength(s, 1, 0, |s| - 1);
      } else {
        UuidBytesLength(s, 0, 0, |s|);
      }
    }
  }

  lemma HexAt(s: string, i: nat)
    requires IsUuid(s)
    requires i < 36 && i != 8 && i != 13 && i != 18 && i != 23
    ensures IsHexDigit(s[i]) && s[i] != '-'
  {
  }

  /** Four digits of a validated uuid at `p`, and the hyphen after them when
      there is one, read as bytes `i` and `i + 1`. */
  lemma UuidGroup(s: string, p: nat, i: nat)
    requires IsUuid(s) && i % 2 == 0 && i + 2 <= 16
    requires p == 0 || p == 4 || p == 9 || p == 14 || p == 19 || p == 24 || p == 28 || p == 32
    requires var next := if p + 4 == 8 || p + 4 == 13 || p + 4 == 18 || p + 4 == 23 then p + 5 else p + 4;
      UuidBytes(s, next, i + 2, 36)
    ensures UuidBytes(s, p, i, 36)
  {
    HexAt(s, p); HexAt(s, p + 1); HexAt(s, p + 2); HexAt(s, p + 3);
    if p + 4 < 36 && p + 4 != 8 && p + 4 != 13 && p + 4 != 18 && p + 4 != 23 {
      HexAt(s, p + 4);
    }
  }

  /** Every id the validator accepts as a uuid (8-4-4-4-12 hexadecimal
      digits) reads as one in the database. */
  lemma ValidatedUuidReads(s: string)
    requires IsUuid(s)
    ensures PgUuidText(s)
  {
    assert UuidBytes(s, 36, 16, 36);
    UuidGroup(s, 32, 14);
    UuidGroup(s, 28, 12);
    UuidGroup(s, 24, 10);
    UuidGroup(s, 19, 8);
    UuidGroup(s, 14, 6);
    UuidGroup(s, 9, 4);
    UuidGroup(s, 4, 2);
    UuidGroup(s, 0, 0);
    HexAt(s, 0);
  }

  // ---------------------------------------------------------------- integer

  /** The range of type integer (int4). */
  predicate FitsInt4(v: int) {
    -0x8000_0000 <= v < 0x8000_0000
  }

  // ---------------------------------------------------------------- numeric

  /** The blanks the numeric input skips around the value. */
  predicate IsBlank(c: char) {
    c == ' ' || c == '\t' || c == '\n' || c == '\r' || c as int == 11 || c as int == 12
  }

  function TrimBlanks(s: string): (r: string)
    ensures |r| <= |s|
    decreases |s|
  {
    if s != [] && IsBlank(s[0]) then TrimBlanks(s[1..])
    else if s != [] && IsBlank(s[|s| - 1]) then TrimBlanks(s[..|s| - 1])
    else s
  }

  /** The length of the run of digits `s` starts with. */
  function DigitRun(s: string): (n: nat)
    ensures n <= |s|
    ensures forall i :: 0 <= i < n ==> IsDigit(s[i])
    ensures n < |s| ==> !IsDigit(s[n])
  {
    if s != [] && IsDigit(s[0]) then 1 + DigitRun(s[1..]) else 0
  }

  /** `e` or `E`, an optional sign and at least one digit. */
  predicate ExponentText(t: string) {
    && |t| >= 2 && (t[0] == 'e' || t[0] == 'E')
    && var d := if t[1] == '+' || t[1] == '-' then t[2..] else t[1..];
       d != [] && AllDigits(d)
  }

  /** Digits, an optional point and more digits, at least one digit in all,
      then an optional exponent. */
  predicate DecimalText(u: string) {
    var a := DigitRun(u);
    var afterInt := u[a..];
    var hasPoint := afterInt != [] && afterInt[0] == '.';
    var frac := if hasPoint then afterInt[1..] else afterInt;
    var b := if hasPoint then DigitRun(frac) else 0;
    var tail := frac[b..];
    a + b >= 1 && (tail == [] || ExponentText(tail))
  }

  /** What `'...'::numeric` accepts: between optional blanks, `NaN` in any
      case, or an optional sign followed by `Infinity` or `inf` in any case
      or by a decimal number. */
  predicate PgNumericText(s: string) {
    var t := TrimBlanks(s);
    var u := if t != [] && (t[0] == '+' || t[0] == '-') then t[1..] else t;
    LowerText(t) == "nan" || LowerText(u) == "infinity" || LowerText(u) == "inf" || DecimalText(u)
  }

  /** The empty string, which a cleared price field submits, is not a
      number; a blank one neither. */
  lemma EmptyPriceRefused(s: string)
    requires forall i :: 0 <= i < |s| ==> IsBlank(s[i])
    ensures !PgNumericText(s)
  {
    TrimmedBlanksEmpty(s);
  }

  lemma {:induction false} TrimmedBlanksEmpty(s: string)
    requires forall i :: 0 <= i < |s| ==> IsBlank(s[i])
    ensures TrimBlanks(s) == []
    decreases |s|
  {
    if s != [] {
      TrimmedBlanksEmpty(s[1..]);
    }
  }

  /** Every run of digits is a number, such as the form's default price "0". */
  lemma DigitsAreNumeric(s: string)
    requires s != [] && AllDigits(s)
    ensures PgNumericText(s)
  {
    assert TrimBlanks(s) == s;
    DigitRunOfDigits(s);
    assert s[|s|..] == [];
  }

  lemma {:induction false} DigitRunOfDigits(s: string)
    requires AllDigits(s)
    ensures DigitRun(s) == |s|
  {
    if s != [] {
      DigitRunOfDigits(s[1..]);
    }
  }

  /** Text whose length rules out the words NaN, inf and Infinity reads as
      a number exactly when it is a decimal number. */
  lemma NumericByDecimal(s: string, u: string)
    requires var t := TrimBlanks(s);
      u == (if t != [] && (t[0] == '+' || t[0] == '-') then t[1..] else t)
    requires |TrimBlanks(s)| != 3 && |u| != 3 && |u| != 8
    ensures PgNumericText(s) <==> DecimalText(u)
  {
    var t := TrimBlanks(s);
    assert |LowerText(t)| == |t| && |LowerText(u)| == |u|;
  }

  /** A price with a fraction reads as a number. */
  lemma FractionPriceReads()
    ensures PgNumericText("12.50")
  {
    assert TrimBlanks("12.50") == "12.50";
    NumericByDecimal("12.50", "12.50");
    assert DigitRun("50") == 2;
    assert DigitRun("12.50") == 2;
    assert "12.50"[2..] == ".50" && ".50"[1..] == "50" && "50"[2..] == [];
  }

  lemma DecimalWithExponent()
    ensures DecimalText("0.5e3")
  {
    assert DigitRun("5e3") == 1;
    assert DigitRun("0.5e3") == 1;
    assert "0.5e3"[1..] == ".5e3" && ".5e3"[1..] == "5e3" && "5e3"[1..] == "e3";
    assert ExponentText("e3") by { assert "e3"[1..] == "3"; }
  }

  lemma TrimmedExponentPrice()
    ensures TrimBlanks(" -0.5e3 ") == "-0.5e3"
  {
    assert " -0.5e3 "[1..] == "-0.5e3 ";
    assert TrimBlanks(" -0.5e3 ") == TrimBlanks("-0.5e3 ");
    assert "-0.5e3 "[..6] == "-0.5e3";
    assert TrimBlanks("-0.5e3 ") == TrimBlanks("-0.5e3");
    assert TrimBlanks("-0.5e3") == "-0.5e3";
  }

  /** A signed price with an exponent, between blanks, reads as a number. */
  lemma ExponentPriceReads()
    ensures PgNumericText(" -0.5e3 ")
  {
    TrimmedExponentPrice();
    assert "-0.5e3"[1..] == "0.5e3";
    NumericByDecimal(" -0.5e3 ", "0.5e3");
    DecimalWithExponent();
  }

  /** A price with a thousands separator does not read as a number. */
  lemma SeparatorPriceRefused()
    ensures !PgNumericText("1,000")
  {
    assert TrimBlanks("1,000") == "1,000";
    NumericByDecimal("1,000", "1,000");
    assert DigitRun("1,000") == 1 by { assert "1,000"[1..] == ",000"; }
    assert "1,000"[1..] == ",000";
    assert !ExponentText(",000");
  }

  /** A price with a currency sign does not read as a number. */
  lemma CurrencyPriceRefused()
    ensures !PgNumericText("$5")
  {
    assert TrimBlanks("$5") == "$5";
    NumericByDecimal("$5", "$5");
    assert DigitRun("$5") == 0;
  }
}

=== FILE: product_actions.dfy ===
/** The write actions of the product catalog and the tool search used when a
    product's bundle is edited. A product is an aggregate: its base row, its
    localized variants (products_i18n) and its bundled tools (product_tools).
    Create and update run their statements in one transaction; a failing
    statement rolls the whole action back. */
module ProductActions {
  import opened Common
  import opened DbSchema
  import opened CatalogStore
  import opened PgInput
  import opened ProductSchema
  import opened ToolDisplay

  /** What every product action answers. Create returns no id. */
  datatype ActionResponse = ActionResponse(success: bool, error: Option<string>)

  /** The tables after an action, and its answer. */
  datatype Outcome = Outcome(after: Catalog, response: ActionResponse)

  const InvalidInputMessage := "Invalid input data"

  function Failure(message: string): ActionResponse {
    ActionResponse(false, Some(message))
  }

  /** `e.message || fallback`: an empty message is replaced by the fallback. */
  function MessageOr(e: DbError, fallback: string): (r: string)
    ensures ErrorMessage(e) != "" ==> r == ErrorMessage(e)
    ensures ErrorMessage(e) == "" ==> r == fallback
  {
    if ErrorMessage(e) == "" then fallback else ErrorMessage(e)
  }

  // ---------------------------------------------------------------- the rows the actions write

  function I18nRowOf(productId: Id, e: I18nEntry): ProductI18nRow {
    ProductI18nRow(productId, e.languageCode, e.name, e.description, e.currencyCode, e.price, e.currentPrice)
  }

  function I18nRows(productId: Id, es: seq<I18nEntry>): (r: seq<ProductI18nRow>)
    ensures |r| == |es|
    ensures forall i :: 0 <= i < |r| ==> r[i] == I18nRowOf(productId, es[i])
  {
    seq(|es|, i requires 0 <= i < |es| => I18nRowOf(productId, es[i]))
  }

  function BundleRowOf(productId: Id, t: ToolEntry): ProductToolRow {
    ProductToolRow(productId, t.toolId, t.quotaAllocation, Some(t.sortOrder))
  }

  function BundleRows(productId: Id, ts: seq<ToolEntry>): (r: seq<ProductToolRow>)
    ensures |r| == |ts|
    ensures forall i :: 0 <= i < |r| ==> r[i] == BundleRowOf(productId, ts[i])
  {
    seq(|ts|, i requires 0 <= i < |ts| => BundleRowOf(productId, ts[i]))
  }

  /** The inserted base row: columns left out or null are NULL; created_at is
      the current time. */
  function NewProductRow(d: ProductDraft, id: Id, now: Time): ProductRow {
    ProductRow(id, d.productType, d.category, d.billingCycle, d.productCode,
               OptionalText(d.paddleProductId), OptionalText(d.paddlePriceId), OptionalText(d.iconImageUrl),
               d.isActive, now, None, None)
  }

  /** The base columns an update writes, with updated_at set to now. */
  function BaseUpdate(d: ProductDraft, now: Time): ProductRow -> ProductRow {
    (p: ProductRow) => p.(productType := d.productType, category := d.category, billingCycle := d.billingCycle,
                          productCode := d.productCode,
                          paddleProductId := Assign(p.paddleProductId, d.paddleProductId),
                          paddlePriceId := Assign(p.paddlePriceId, d.paddlePriceId),
                          iconImageUrl := Assign(p.iconImageUrl, d.iconImageUrl),
                          isActive := d.isActive, updatedAt := Some(now))
  }

  /** The soft delete's SET: deleted_at and is_active only. */
  function SoftDeleteUpdate(now: Time): ProductRow -> ProductRow {
    (p: ProductRow) => p.(deletedAt := Some(now), isActive := false)
  }

  /** Every submitted price reads as numeric. */
  predicate DraftPricesRead(d: ProductDraft) {
    forall i :: 0 <= i < |d.i18n| ==>
      PgNumericText(d.i18n[i].price) && (d.i18n[i].currentPrice.Some? ==> PgNumericText(d.i18n[i].currentPrice.value))
  }

  /** Every submitted quota fits in integer. */
  predicate DraftQuotasFit(d: ProductDraft) {
    forall i :: 0 <= i < |d.tools| ==> d.tools[i].quotaAllocation.Some? ==> FitsInt4(d.tools[i].quotaAllocation.value)
  }

  /** Inserting the localized rows of product `id` succeeds exactly when the
      product exists, every price is numeric text and no fault hits. */
  lemma I18nInsertSucceeds(c: Catalog, id: Id, d: ProductDraft, raise: Option<string>)
    requires |d.i18n| >= 1
    ensures ProductI18nInsertError(c, I18nRows(id, d.i18n), raise).None? <==>
      raise.None? && id in ProductIds(c.products) && DraftPricesRead(d)
  {
    var rows := I18nRows(id, d.i18n);
    assert rows[0].productId == id;
    assert (forall i :: 0 <= i < |rows| ==> PricesRead(rows[i])) <==> DraftPricesRead(d) by {
      assert forall i :: 0 <= i < |rows| ==> rows[i].price == d.i18n[i].price && rows[i].currentPrice == d.i18n[i].currentPrice;
    }
  }

  /** Inserting the bundle rows of an existing product `id` succeeds exactly
      when every quota fits in integer, every tool exists and no fault hits. */
  lemma BundleInsertSucceeds(c: Catalog, id: Id, d: ProductDraft, raise: Option<string>)
    requires id in ProductIds(c.products)
    ensures BundleInsertError(c, BundleRows(id, d.tools), raise).None? <==>
      && raise.None? && DraftQuotasFit(d)
      && (forall i :: 0 <= i < |d.tools| ==> d.tools[i].toolId in ToolIds(c.tools))
  {
    var rows := BundleRows(id, d.tools);
    assert QuotasFit(rows) <==> DraftQuotasFit(d) by {
      assert forall i :: 0 <= i < |rows| ==> rows[i].quotaAllocation == d.tools[i].quotaAllocation;
    }
  }

  function I18nOf(id: Id): ProductI18nRow -> bool { (r: ProductI18nRow) => r.productId == id }
  function BundleOf(id: Id): ProductToolRow -> bool { (r: ProductToolRow) => r.productId == id }

  // ---------------------------------------------------------------- create

  /** The first statement of the create transaction that fails, if any.
      Statements: 0 base row, 1 localized rows (only when there are any),
      2 bundle rows (only when there are any). */
  function CreateError(c: Catalog, d: ProductDraft, newId: Id, now: Time, fault: Option<Fault>): Option<DbError> {
    var base := NewProductRow(d, newId, now);
    var e0 := ProductInsertError(c, base, RaiseAt(fault, 0));
    var c1 := c.(products := c.products + [base]);
    if e0.Some? then e0
    else if |d.i18n| > 0 && ProductI18nInsertError(c1, I18nRows(newId, d.i18n), RaiseAt(fault, 1)).Some? then
      ProductI18nInsertError(c1, I18nRows(newId, d.i18n), RaiseAt(fault, 1))
    else if |d.tools| > 0 then BundleInsertError(c1, BundleRows(newId, d.tools), RaiseAt(fault, 2))
    else None
  }

  /** The catalog with the whole aggregate added. */
  function WithNewProduct(c: Catalog, d: ProductDraft, newId: Id, now: Time): Catalog {
    c.(products := c.products + [NewProductRow(d, newId, now)],
       productI18n := c.productI18n + I18nRows(newId, d.i18n),
       productTools := c.productTools + BundleRows(newId, d.tools))
  }

  function CreateOutcome(c: Catalog, data: ProductInput, newId: Id, now: Time, fault: Option<Fault>): Outcome {
    var parsed := ParseCreate(data);
    if parsed.None? then Outcome(c, Failure(InvalidInputMessage))
    else
      var e := CreateError(c, parsed.value, newId, now, fault);
      if e.Some? then Outcome(c, Failure(MessageOr(e.value, "Failed to create product")))
      else Outcome(WithNewProduct(c, parsed.value, newId, now), ActionResponse(true, None))
  }

  /** The three inserts of the create transaction, stopping at the first
      that fails. */
  method InsertAggregate(db: CatalogDb, d: ProductDraft, newId: Id, now: Time, fault: Option<Fault>)
    returns (err: Option<DbError>)
    modifies db
    ensures err == CreateError(old(db.Snapshot()), d, newId, now, fault)
    ensures err.None? ==> db.Snapshot() == WithNewProduct(old(db.Snapshot()), d, newId, now)
  {
    ghost var saved := db.Snapshot();
    ghost var c1 := saved.(products := saved.products + [NewProductRow(d, newId, now)]);
    ghost var c2 := c1.(productI18n := c1.productI18n + I18nRows(newId, d.i18n));
    err := db.InsertProduct(NewProductRow(d, newId, now), RaiseAt(fault, 0));
    assert err.None? ==> db.Snapshot() == c1;
    if err.None? && |d.i18n| > 0 {
      err := db.InsertProductI18n(I18nRows(newId, d.i18n), RaiseAt(fault, 1));
    }
    assert err.None? ==> db.Snapshot() == c2;
    if err.None? && |d.tools| > 0 {
      err := db.InsertProductTools(BundleRows(newId, d.tools), RaiseAt(fault, 2));
    }
    assert |d.tools| == 0 ==> BundleRows(newId, d.tools) == [];
  }

  /** createProductAction. `newId` is the id the database generates for the
      new row; `now` is the current time. */
  method CreateProduct(db: CatalogDb, data: ProductInput, newId: Id, now: Time, fault: Option<Fault>)
    returns (response: ActionResponse)
    modifies db
    ensures Outcome(db.Snapshot(), response) == CreateOutcome(old(db.Snapshot()), data, newId, now, fault)
  {
    var parsed := ParseCreate(data);
    if parsed.None? {
      return Failure(InvalidInputMessage);
    }
    var d := parsed.value;
    var saved := db.Snapshot();
    var err := InsertAggregate(db, d, newId, now, fault);
    if err.Some? {
      db.Restore(saved);
      return Failure(MessageOr(err.value, "Failed to create product"));
    }
    return ActionResponse(true, None);
  }

  /** Create succeeds exactly when the input is valid, the new id is free,
      every price is numeric text (a cleared current price, sent as "", is
      not), every bundled tool exists, every quota fits in integer and no
      statement that runs is hit by a fault. */
  lemma CreateSucceedsIff(c: Catalog, data: ProductInput, newId: Id, now: Time, fault: Option<Fault>)
    ensures CreateOutcome(c, data, newId, now, fault).response.success <==>
      && ParseCreate(data).Some?
      && newId !in ProductIds(c.products)
      && DraftPricesRead(ParseCreate(data).value)
      && (forall i :: 0 <= i < |ParseCreate(data).value.tools| ==> ParseCreate(data).value.tools[i].toolId in ToolIds(c.tools))
      && DraftQuotasFit(ParseCreate(data).value)
      && RaiseAt(fault, 0).None? && RaiseAt(fault, 1).None?
      && (|ParseCreate(data).value.tools| > 0 ==> RaiseAt(fault, 2).None?)
  {
    if ParseCreate(data).Some? {
      CreateErrorIff(c, ParseCreate(data).value, newId, now, fault);
    }
  }

  /** The create statements all succeed exactly when the new id is free,
      every price is numeric text, every bundled tool exists, every quota
      fits in integer and no statement that runs is hit by a fault (a
      validated draft always has a localized entry). */
  lemma CreateErrorIff(c: Catalog, d: ProductDraft, newId: Id, now: Time, fault: Option<Fault>)
    requires |d.i18n| > 0
    ensures CreateError(c, d, newId, now, fault).None? <==>
      && newId !in ProductIds(c.products)
      && DraftPricesRead(d)
      && (forall i :: 0 <= i < |d.tools| ==> d.tools[i].toolId in ToolIds(c.tools))
      && DraftQuotasFit(d)
      && RaiseAt(fault, 0).None? && RaiseAt(fault, 1).None?
      && (|d.tools| > 0 ==> RaiseAt(fault, 2).None?)
  {
    var base := NewProductRow(d, newId, now);
    var c1 := c.(products := c.products + [base]);
    assert newId in ProductIds(c1.products) by { assert base in c1.products; }
    assert ProductIds(c1.products) == ProductIds(c.products) + {newId};
    I18nInsertSucceeds(c1, newId, d, RaiseAt(fault, 1));
    BundleInsertSucceeds(c1, newId, d, RaiseAt(fault, 2));
    assert ToolIds(c1.tools) == ToolIds(c.tools);
    assert |d.tools| == 0 ==> DraftQuotasFit(d);
  }

  /** All or nothing: a successful create adds exactly the new base row, one
      localized row per entry and one bundle row per tool entry, all tagged
      with the new id; a failed create leaves every table as it was. */
  lemma CreateAllOrNothing(c: Catalog, data: ProductInput, newId: Id, now: Time, fault: Option<Fault>)
    ensures var o := CreateOutcome(c, data, newId, now, fault);
      && (o.response.success ==> o.response.error.None? && o.after == WithNewProduct(c, ParseCreate(data).value, newId, now))
      && (!o.response.success ==> o.after == c && o.response.error.Some?)
      && (ParseCreate(data).None? ==> o.response == Failure(InvalidInputMessage))
  {
  }

  /** The added aggregate: the new product's localized rows are exactly the
      submitted entries and its bundle rows exactly the submitted tools, and
      every other product keeps its children. */
  lemma NewProductChildren(c: Catalog, d: ProductDraft, newId: Id, now: Time, other: Id)
    requires Consistent(c)
    requires newId !in ProductIds(c.products)
    requires other != newId
    ensures var a := WithNewProduct(c, d, newId, now);
      && Where(a.productI18n, I18nOf(newId)) == I18nRows(newId, d.i18n)
      && Where(a.productTools, BundleOf(newId)) == BundleRows(newId, d.tools)
      && Where(a.productI18n, I18nOf(other)) == Where(c.productI18n, I18nOf(other))
      && Where(a.productTools, BundleOf(other)) == Where(c.productTools, BundleOf(other))
  {
    NewI18nRows(c, d, newId, other);
    NewBundleRows(c, d, newId, other);
  }

  lemma NewI18nRows(c: Catalog, d: ProductDraft, newId: Id, other: Id)
    requires Consistent(c)
    requires newId !in ProductIds(c.products)
    requires other != newId
    ensures Where(c.productI18n + I18nRows(newId, d.i18n), I18nOf(newId)) == I18nRows(newId, d.i18n)
    ensures Where(c.productI18n + I18nRows(newId, d.i18n), I18nOf(other)) == Where(c.productI18n, I18nOf(other))
  {
    forall i | 0 <= i < |c.productI18n| ensures !I18nOf(newId)(c.productI18n[i]) {
      assert c.productI18n[i] in c.productI18n;
    }
    WhereAppend(c.productI18n, I18nRows(newId, d.i18n), I18nOf(newId));
    WhereAppend(c.productI18n, I18nRows(newId, d.i18n), I18nOf(other));
  }

  lemma NewBundleRows(c: Catalog, d: ProductDraft, newId: Id, other: Id)
    requires Consistent(c)
    requires newId !in ProductIds(c.products)
    requires other != newId
    ensures Where(c.productTools + BundleRows(newId, d.tools), BundleOf(newId)) == BundleRows(newId, d.tools)
    ensures Where(c.productTools + BundleRows(newId, d.tools), BundleOf(other)) == Where(c.productTools, BundleOf(other))
  {
    forall i | 0 <= i < |c.productTools| ensures !BundleOf(newId)(c.productTools[i]) {
      assert c.productTools[i] in c.productTools;
    }
    WhereAppend(c.productTools, BundleRows(newId, d.tools), BundleOf(newId));
    WhereAppend(c.productTools, BundleRows(newId, d.tools), BundleOf(other));
  }

  /** Adding an aggregate whose id is free and whose tools exist keeps the
      catalog consistent and adds exactly one product id. */
  lemma NewProductConsistent(c: Catalog, d: ProductDraft, newId: Id, now: Time)
    requires Consistent(c)
    requires newId !in ProductIds(c.products)
    requires forall i :: 0 <= i < |d.tools| ==> d.tools[i].toolId in ToolIds(c.tools)
    ensures Consistent(WithNewProduct(c, d, newId, now))
    ensures ProductIds(WithNewProduct(c, d, newId, now).products) == ProductIds(c.products) + {newId}
  {
    var a := WithNewProduct(c, d, newId, now);
    var base := NewProductRow(d, newId, now);
    assert ProductIds(a.products) == ProductIds(c.products) + {newId} by {
      assert base in a.products;
    }
    forall i, j | 0 <= i < j < |a.products| ensures a.products[i].id != a.products[j].id {
      if j == |a.products| - 1 {
        assert c.products[i] in c.products;
      }
    }
    forall r | r in a.productI18n ensures r.productId in ProductIds(a.products) {
      if r !in c.productI18n {
        var k :| 0 <= k < |I18nRows(newId, d.i18n)| && I18nRows(newId, d.i18n)[k] == r;
      }
    }
    forall r | r in a.productTools ensures r.productId in ProductIds(a.products) && r.toolId in ToolIds(a.tools) {
      if r !in c.productTools {
        var k :| 0 <= k < |BundleRows(newId, d.tools)| && BundleRows(newId, d.tools)[k] == r;
      }
    }
  }

  lemma CreateKeepsConsistency(c: Catalog, data: ProductInput, newId: Id, now: Time, fault: Option<Fault>)
    requires Consistent(c)
    ensures Consistent(CreateOutcome(c, data, newId, now, fault).after)
  {
    CreateSucceedsIff(c, data, newId, now, fault);
    CreateAllOrNothing(c, data, newId, now, fault);
    if CreateOutcome(c, data, newId, now, fault).response.success {
      NewProductConsistent(c, ParseCreate(data).value, newId, now);
    }
  }

  // ---------------------------------------------------------------- update

  /** The first statement of the update transaction that fails, if any.
      Statements: 0 base update, 1 delete localized rows, 2 insert localized
      rows, 3 delete bundle rows, 4 insert bundle rows (only when there are
      any). The validated draft always has a localized entry, so statement 2
      always runs. */
  function UpdateError(c: Catalog, id: Id, d: ProductDraft, now: Time, fault: Option<Fault>): Option<DbError> {
    var c2 := c.(products := MapWhere(c.products, ProductIs(id), BaseUpdate(d, now)),
                 productI18n := Where(c.productI18n, ProductI18nNotOf(id)));
    var c4 := c2.(productI18n := c2.productI18n + I18nRows(id, d.i18n),
                  productTools := Where(c.productTools, BundleNotOfProduct(id)));
    if KeyedError(id, [], RaiseAt(fault, 0)).Some? then KeyedError(id, [], RaiseAt(fault, 0))
    else if KeyedError(id, [], RaiseAt(fault, 1)).Some? then KeyedError(id, [], RaiseAt(fault, 1))
    else if ProductI18nInsertError(c2, I18nRows(id, d.i18n), RaiseAt(fault, 2)).Some? then
      ProductI18nInsertError(c2, I18nRows(id, d.i18n), RaiseAt(fault, 2))
    else if KeyedError(id, [], RaiseAt(fault, 3)).Some? then KeyedError(id, [], RaiseAt(fault, 3))
    else if |d.tools| > 0 then BundleInsertError(c4, BundleRows(id, d.tools), RaiseAt(fault, 4))
    else None
  }

  /** The catalog with the base row of `id` rewritten and both child sets of
      `id` replaced by the submitted ones. */
  function WithReplacedProduct(c: Catalog, id: Id, d: ProductDraft, now: Time): Catalog {
    c.(products := MapWhere(c.products, ProductIs(id), BaseUpdate(d, now)),
       productI18n := Where(c.productI18n, ProductI18nNotOf(id)) + I18nRows(id, d.i18n),
       productTools := Where(c.productTools, BundleNotOfProduct(id)) + BundleRows(id, d.tools))
  }

  function UpdateOutcome(c: Catalog, id: Id, data: ProductInput, now: Time, fault: Option<Fault>): Outcome {
    var parsed := ParseUpdate(data);
    if parsed.None? then Outcome(c, Failure(InvalidInputMessage))
    else
      var e := UpdateError(c, id, parsed.value, now, fault);
      if e.Some? then Outcome(c, Failure(MessageOr(e.value, "Failed to update product")))
      else Outcome(WithReplacedProduct(c, id, parsed.value, now), ActionResponse(true, None))
  }

  /** The five statements of the update transaction, stopping at the first
      that fails. */
  method ReplaceAggregate(db: CatalogDb, id: Id, d: ProductDraft, now: Time, fault: Option<Fault>)
    returns (err: Option<DbError>)
    modifies db
    ensures err == UpdateError(old(db.Snapshot()), id, d, now, fault)
    ensures err.None? ==> db.Snapshot() == WithReplacedProduct(old(db.Snapshot()), id, d, now)
  {
    ghost var saved := db.Snapshot();
    ghost var c2 := saved.(products := MapWhere(saved.products, ProductIs(id), BaseUpdate(d, now)),
                           productI18n := Where(saved.productI18n, ProductI18nNotOf(id)));
    ghost var c4 := c2.(productI18n := c2.productI18n + I18nRows(id, d.i18n),
                        productTools := Where(saved.productTools, BundleNotOfProduct(id)));
    err := db.UpdateProduct(id, BaseUpdate(d, now), RaiseAt(fault, 0));
    if err.None? {
      err := db.DeleteProductI18nOf(id, RaiseAt(fault, 1));
    }
    assert err.None? ==> db.Snapshot() == c2;
    if err.None? {
      err := db.InsertProductI18n(I18nRows(id, d.i18n), RaiseAt(fault, 2));
    }
    if err.None? {
      err := db.DeleteProductToolsOf(id, RaiseAt(fault, 3));
    }
    assert err.None? ==> db.Snapshot() == c4;
    if err.None? && |d.tools| > 0 {
      err := db.InsertProductTools(BundleRows(id, d.tools), RaiseAt(fault, 4));
    }
    assert |d.tools| == 0 ==> BundleRows(id, d.tools) == [];
  }

  /** updateProductAction: the row written is the one named by the `id`
      argument; the `id` inside the submitted data is validated but unused. */
  method UpdateProduct(db: CatalogDb, id: Id, data: ProductInput, now: Time, fault: Option<Fault>)
    returns (response: ActionResponse)
    modifies db
    ensures Outcome(db.Snapshot(), response) == UpdateOutcome(old(db.Snapshot()), id, data, now, fault)
  {
    var parsed := ParseUpdate(data);
    if parsed.None? {
      return Failure(InvalidInputMessage);
    }
    var d := parsed.value;
    var saved := db.Snapshot();
    var err := ReplaceAggregate(db, id, d, now, fault);
    if err.Some? {
      db.Restore(saved);
      return Failure(MessageOr(err.value, "Failed to update product"));
    }
    return ActionResponse(true, None);
  }

  /** The update transaction fails exactly when a statement is hit by a
      fault, the `id` argument is not uuid text, the product does not exist
      (its new localized rows have no parent), a price is not numeric text,
      a bundled tool does not exist or a quota does not fit in integer. */
  lemma UpdateErrorIff(c: Catalog, id: Id, d: ProductDraft, now: Time, fault: Option<Fault>)
    requires |d.i18n| >= 1
    ensures UpdateError(c, id, d, now, fault).None? <==>
      && PgUuidText(id)
      && id in ProductIds(c.products)
      && DraftPricesRead(d)
      && (forall i :: 0 <= i < |d.tools| ==> d.tools[i].toolId in ToolIds(c.tools))
      && DraftQuotasFit(d)
      && RaiseAt(fault, 0).None? && RaiseAt(fault, 1).None? && RaiseAt(fault, 2).None? && RaiseAt(fault, 3).None?
      && (|d.tools| > 0 ==> RaiseAt(fault, 4).None?)
  {
    MapWhereKeepsProductIds(c.products, id, BaseUpdate(d, now));
    var c2 := c.(products := MapWhere(c.products, ProductIs(id), BaseUpdate(d, now)),
                 productI18n := Where(c.productI18n, ProductI18nNotOf(id)));
    var c4 := c2.(productI18n := c2.productI18n + I18nRows(id, d.i18n),
                  productTools := Where(c.productTools, BundleNotOfProduct(id)));
    assert ProductIds(c4.products) == ProductIds(c2.products) == ProductIds(c.products);
    KeyedOnlyById(id, RaiseAt(fault, 0));
    KeyedOnlyById(id, RaiseAt(fault, 1));
    KeyedOnlyById(id, RaiseAt(fault, 3));
    I18nInsertSucceeds(c2, id, d, RaiseAt(fault, 2));
    if id in ProductIds(c.products) {
      BundleInsertSucceeds(c4, id, d, RaiseAt(fault, 4));
    }
    assert |d.tools| == 0 ==> DraftQuotasFit(d);
  }

  /** Update succeeds exactly when the input is valid, the `id` argument is
      uuid text naming an existing product, every price is numeric text,
      every bundled tool exists, every quota fits in integer and no statement
      that runs is hit by a fault. In particular updating a product that does
      not exist never succeeds. */
  lemma UpdateSucceedsIff(c: Catalog, id: Id, data: ProductInput, now: Time, fault: Option<Fault>)
    ensures UpdateOutcome(c, id, data, now, fault).response.success <==>
      && ParseUpdate(data).Some?
      && PgUuidText(id)
      && id in ProductIds(c.products)
      && DraftPricesRead(ParseUpdate(data).value)
      && (forall i :: 0 <= i < |ParseUpdate(data).value.tools| ==> ParseUpdate(data).value.tools[i].toolId in ToolIds(c.tools))
      && DraftQuotasFit(ParseUpdate(data).value)
      && RaiseAt(fault, 0).None? && RaiseAt(fault, 1).None? && RaiseAt(fault, 2).None? && RaiseAt(fault, 3).None?
      && (|ParseUpdate(data).value.tools| > 0 ==> RaiseAt(fault, 4).None?)
  {
    if ParseUpdate(data).Some? {
      UpdateErrorIff(c, id, ParseUpdate(data).value, now, fault);
    }
  }

  /** All or nothing: a successful update replaces the aggregate as a whole;
      a failed one leaves every table as it was. */
  lemma UpdateAllOrNothing(c: Catalog, id: Id, data: ProductInput, now: Time, fault: Option<Fault>)
    ensures var o := UpdateOutcome(c, id, data, now, fault);
      && (o.response.success ==> o.response.error.None? && o.after == WithReplacedProduct(c, id, ParseUpdate(data).value, now))
      && (!o.response.success ==> o.after == c && o.response.error.Some?)
      && (ParseUpdate(data).None? ==> o.response == Failure(InvalidInputMessage))
  {
  }

  /** The `id` carried inside the data plays no part beyond validation: two
      submissions that differ only there have the same outcome. */
  lemma UpdateTargetsIdArgument(c: Catalog, id: Id, data: ProductInput, dataId: string, now: Time, fault: Option<Fault>)
    requires IsUuid(dataId)
    requires data.id.Present? && IsUuid(data.id.value)
    ensures UpdateOutcome(c, id, data.(id := Present(dataId)), now, fault) == UpdateOutcome(c, id, data, now, fault)
  {
    var other := data.(id := Present(dataId));
    assert other.i18n == data.i18n && other.tools == data.tools;
    assert ParseCreate(other) == ParseCreate(data);
  }

  /** The replaced aggregate: the product's localized rows are exactly the
      submitted entries and its bundle rows exactly the submitted tools (none
      when the list is empty); other products keep their children. */
  lemma ReplacedProductChildren(c: Catalog, id: Id, d: ProductDraft, now: Time, other: Id)
    requires other != id
    ensures var a := WithReplacedProduct(c, id, d, now);
      && Where(a.productI18n, I18nOf(id)) == I18nRows(id, d.i18n)
      && Where(a.productTools, BundleOf(id)) == BundleRows(id, d.tools)
      && Where(a.productI18n, I18nOf(other)) == Where(c.productI18n, I18nOf(other))
      && Where(a.productTools, BundleOf(other)) == Where(c.productTools, BundleOf(other))
  {
    WhereReplace(c.productI18n, I18nRows(id, d.i18n), ProductI18nNotOf(id), I18nOf(id), I18nOf(other));
    WhereReplace(c.productTools, BundleRows(id, d.tools), BundleNotOfProduct(id), BundleOf(id), BundleOf(other));
  }

  /** Only the base row of `id` is rewritten: the submitted columns and
      updated_at change, created_at, deleted_at and the other rows do not. */
  lemma ReplacedProductRow(c: Catalog, id: Id, d: ProductDraft, now: Time)
    ensures var a := WithReplacedProduct(c, id, d, now);
      && |a.products| == |c.products|
      && (forall i :: 0 <= i < |c.products| && c.products[i].id != id ==> a.products[i] == c.products[i])
      && (forall i :: 0 <= i < |c.products| && c.products[i].id == id ==>
            && a.products[i].id == id
            && a.products[i].updatedAt == Some(now) && a.products[i].productCode == d.productCode
            && a.products[i].isActive == d.isActive && a.products[i].productType == d.productType
            && a.products[i].category == d.category && a.products[i].billingCycle == d.billingCycle
            && (d.paddleProductId.Absent? ==> a.products[i].paddleProductId == c.products[i].paddleProductId)
            && (d.paddleProductId.Null? ==> a.products[i].paddleProductId.None?)
            && (d.paddleProductId.Present? ==> a.products[i].paddleProductId == Some(d.paddleProductId.value))
            && (d.paddlePriceId.Absent? ==> a.products[i].paddlePriceId == c.products[i].paddlePriceId)
            && (d.paddlePriceId.Null? ==> a.products[i].paddlePriceId.None?)
            && (d.paddlePriceId.Present? ==> a.products[i].paddlePriceId == Some(d.paddlePriceId.value))
            && (d.iconImageUrl.Absent? ==> a.products[i].iconImageUrl == c.products[i].iconImageUrl)
            && (d.iconImageUrl.Null? ==> a.products[i].iconImageUrl.None?)
            && (d.iconImageUrl.Present? ==> a.products[i].iconImageUrl == Some(d.iconImageUrl.value))
            && a.products[i].createdAt == c.products[i].createdAt
            && a.products[i].deletedAt == c.products[i].deletedAt)
  {
  }

  /** Replacing the aggregate of an existing product with tools that exist
      keeps the catalog consistent and its set of product ids. */
  lemma ReplacedProductConsistent(c: Catalog, id: Id, d: ProductDraft, now: Time)
    requires Consistent(c)
    requires id in ProductIds(c.products)
    requires forall i :: 0 <= i < |d.tools| ==> d.tools[i].toolId in ToolIds(c.tools)
    ensures Consistent(WithReplacedProduct(c, id, d, now))
    ensures ProductIds(WithReplacedProduct(c, id, d, now).products) == ProductIds(c.products)
  {
    var a := WithReplacedProduct(c, id, d, now);
    MapWhereKeepsProductIds(c.products, id, BaseUpdate(d, now));
    WhereMembers(c.productI18n, ProductI18nNotOf(id));
    WhereMembers(c.productTools, BundleNotOfProduct(id));
    forall r | r in a.productI18n ensures r.productId in ProductIds(a.products) {
      if r !in c.productI18n {
        var k :| 0 <= k < |I18nRows(id, d.i18n)| && I18nRows(id, d.i18n)[k] == r;
      }
    }
    forall r | r in a.productTools ensures r.productId in ProductIds(a.products) && r.toolId in ToolIds(a.tools) {
      if r !in c.productTools {
        var k :| 0 <= k < |BundleRows(id, d.tools)| && BundleRows(id, d.tools)[k] == r;
      }
    }
  }

  lemma UpdateKeepsConsistency(c: Catalog, id: Id, data: ProductInput, now: Time, fault: Option<Fault>)
    requires Consistent(c)
    ensures Consistent(UpdateOutcome(c, id, data, now, fault).after)
  {
    UpdateSucceedsIff(c, id, data, now, fault);
    UpdateAllOrNothing(c, id, data, now, fault);
    if UpdateOutcome(c, id, data, now, fault).response.success {
      ReplacedProductConsistent(c, id, ParseUpdate(data).value, now);
    }
  }

  // ---------------------------------------------------------------- soft delete

  function DeleteOutcome(c: Catalog, id: Id, now: Time, fault: Option<Fault>): Outcome {
    var e := KeyedError(id, [], RaiseAt(fault, 0));
    if e.Some? then Outcome(c, Failure(MessageOr(e.value, "Failed to delete product")))
    else Outcome(c.(products := MapWhere(c.products, ProductIs(id), SoftDeleteUpdate(now))), ActionResponse(true, None))
  }

  /** deleteProductAction: a single UPDATE, no transaction and no row removed. */
  method DeleteProduct(db: CatalogDb, id: Id, now: Time, fault: Option<Fault>) returns (response: ActionResponse)
    modifies db
    ensures Outcome(db.Snapshot(), response) == DeleteOutcome(old(db.Snapshot()), id, now, fault)
  {
    var err := db.UpdateProduct(id, SoftDeleteUpdate(now), RaiseAt(fault, 0));
    if err.Some? {
      return Failure(MessageOr(err.value, "Failed to delete product"));
    }
    return ActionResponse(true, None);
  }

  /** The soft delete marks the row inactive and deleted and keeps every row
      of every table, the product's children included; it reports success
      whether or not a row matched, unless a fault hits or the id is not uuid
      text, and with no matching row nothing changes. */
  lemma SoftDeleteKeepsChildren(c: Catalog, id: Id, now: Time, fault: Option<Fault>)
    requires Consistent(c)
    ensures var o := DeleteOutcome(c, id, now, fault);
      && o.after.productI18n == c.productI18n && o.after.productTools == c.productTools
      && o.after.tools == c.tools && o.after.purchases == c.purchases
      && ProductIds(o.after.products) == ProductIds(c.products)
      && Consistent(o.after)
      && (o.response.success <==> (fault.None? || fault.value.step != 0) && PgUuidText(id))
      && (forall i :: 0 <= i < |c.products| && o.response.success ==>
            o.after.products[i] == if c.products[i].id == id then c.products[i].(deletedAt := Some(now), isActive := false) else c.products[i])
      && (id !in ProductIds(c.products) ==> o.after == c)
  {
    KeyedOnlyById(id, RaiseAt(fault, 0));
    MapWhereKeepsProductIds(c.products, id, SoftDeleteUpdate(now));
    RewrittenProductsConsistent(c, id, SoftDeleteUpdate(now));
    SoftDeleteMarksRow(c.products, id, now);
  }

  /** The soft-delete UPDATE rewrites only the rows with the id, and no row
      when none has it. */
  lemma SoftDeleteMarksRow(products: seq<ProductRow>, id: Id, now: Time)
    ensures var ps := MapWhere(products, ProductIs(id), SoftDeleteUpdate(now));
      && (forall i :: 0 <= i < |products| ==>
            ps[i] == if products[i].id == id then products[i].(deletedAt := Some(now), isActive := false) else products[i])
      && (id !in ProductIds(products) ==> ps == products)
  {
    var ps := MapWhere(products, ProductIs(id), SoftDeleteUpdate(now));
    if id !in ProductIds(products) {
      forall i | 0 <= i < |products| ensures ps[i] == products[i] {
        assert products[i] in products;
      }
    }
  }

  // ---------------------------------------------------------------- tool search

  /** One search result: the tool's id, its code and its display name. */
  datatype ToolHit = ToolHit(id: Id, toolCode: string, name: string)

  const SearchLimit := 20

  /** Some localized row of tool `id` has a name containing `q`. */
  predicate NameMatches(toolI18n: seq<ToolI18nRow>, id: Id, q: string) {
    exists r :: r in toolI18n && r.toolId == id && NullableContainsIgnoringCase(r.name, q)
  }

  /** `tool_code ILIKE '%q%' OR EXISTS (a localized name ILIKE '%q%')`. */
  function ToolMatches(toolI18n: seq<ToolI18nRow>, q: string): ToolRow -> bool {
    (t: ToolRow) => ContainsIgnoringCase(t.toolCode, q) || NameMatches(toolI18n, t.id, q)
  }

  function HitOf(toolI18n: seq<ToolI18nRow>, t: ToolRow): ToolHit {
    ToolHit(t.id, t.toolCode, DisplayName(toolI18n, t))
  }

  function Hits(toolI18n: seq<ToolI18nRow>, ts: seq<ToolRow>): (r: seq<ToolHit>)
    ensures |r| == |ts|
    ensures forall i :: 0 <= i < |ts| ==> r[i] == HitOf(toolI18n, ts[i])
  {
    seq(|ts|, i requires 0 <= i < |ts| => HitOf(toolI18n, ts[i]))
  }

  /** The tools the search returns, in table order: the first 20, all of
      them when the query is empty, otherwise those matching it. */
  function SearchedTools(c: Catalog, query: string): seq<ToolRow> {
    Take(if query == "" then c.tools else Where(c.tools, ToolMatches(c.toolI18n, query)), SearchLimit)
  }

  /** searchToolsAction: each found tool with its display name. The locale
      plays no part. */
  function SearchTools(c: Catalog, query: string): (r: seq<ToolHit>)
    ensures |r| == |SearchedTools(c, query)|
    ensures forall i :: 0 <= i < |r| ==> r[i] == HitOf(c.toolI18n, SearchedTools(c, query)[i])
  {
    Hits(c.toolI18n, SearchedTools(c, query))
  }

  /** The empty query skips the filter, which is what the filter would have
      kept anyway: every tool contains the empty text. */
  lemma SearchWithoutQueryMatchesAll(c: Catalog, query: string)
    ensures SearchedTools(c, query) == Take(Where(c.tools, ToolMatches(c.toolI18n, query)), SearchLimit)
  {
    if query == "" {
      forall i | 0 <= i < |c.tools| ensures ToolMatches(c.toolI18n, query)(c.tools[i]) {
        EmptyPatternMatchesEverything(c.tools[i].toolCode);
      }
      WhereAll(c.tools, ToolMatches(c.toolI18n, query));
    }
  }

  /** At most 20 tools are found, each a matching tool of the catalog; and
      when at most 20 tools match, every matching tool is found. */
  lemma SearchToolsSound(c: Catalog, query: string)
    ensures |SearchedTools(c, query)| <= SearchLimit
    ensures forall i :: 0 <= i < |SearchedTools(c, query)| ==>
      SearchedTools(c, query)[i] in c.tools && ToolMatches(c.toolI18n, query)(SearchedTools(c, query)[i])
    ensures |Where(c.tools, ToolMatches(c.toolI18n, query))| <= SearchLimit ==>
      forall t :: t in c.tools && ToolMatches(c.toolI18n, query)(t) ==> t in SearchedTools(c, query)
  {
    var m := Where(c.tools, ToolMatches(c.toolI18n, query));
    var found := SearchedTools(c, query);
    SearchWithoutQueryMatchesAll(c, query);
    WhereMembers(c.tools, ToolMatches(c.toolI18n, query));
    forall i | 0 <= i < |found| ensures found[i] in c.tools && ToolMatches(c.toolI18n, query)(found[i]) {
      assert found[i] == m[i];
      assert m[i] in m;
    }
    if |m| <= SearchLimit {
      assert found == m;
    }
  }
}

=== FILE: product_queries.dfy ===
/** The product list page and the product detail read: filter, join, order,
    page and shape over the catalog tables. */
module ProductQueries {
  import opened Common
  import opened DbSchema
  import opened CatalogStore
  import opened ToolDisplay
  import opened PgInput

  // ---------------------------------------------------------------- list parameters

  /** The list query's parameters; `None` is a parameter left out. */
  datatype ProductListParams = ProductListParams(
    search: Option<string>,
    status: Option<string>,
    page: Option<int>,
    pageSize: Option<int>,
    sortBy: Option<string>,
    sortOrder: Option<string>,
    locale: Option<string>)

  /** The language whose localized row a list row shows. */
  function LanguageForLocale(locale: string): (r: LanguageCode)
    ensures r == EN <==> locale == "en"
    ensures r == JP <==> locale == "jp"
    ensures r == KR <==> locale != "en" && locale != "jp"
  {
    if locale == "en" then EN else if locale == "jp" then JP else KR
  }

  /** 'active' and 'inactive' filter on the active flag; any other status
      keeps every product. */
  function StatusFilter(status: string): (f: ProductRow -> bool)
    ensures forall p :: f(p) <==> (status == "active" ==> p.isActive) && (status == "inactive" ==> !p.isActive)
  {
    (p: ProductRow) => if status == "active" then p.isActive else if status == "inactive" then !p.isActive else true
  }

  /** `name ILIKE '%q%' OR description ILIKE '%q%'` on a localized row. */
  function I18nMatchesSearch(q: string): ProductI18nRow -> bool {
    (r: ProductI18nRow) => ContainsIgnoringCase(r.name, q) || NullableContainsIgnoringCase(r.description, q)
  }

  /** The product ids of the localized rows a search matches, one per row. */
  function SearchHits(productI18n: seq<ProductI18nRow>, q: string): (r: seq<Id>)
    ensures forall x :: x in r <==> exists i :: 0 <= i < |productI18n| && productI18n[i].productId == x && I18nMatchesSearch(q)(productI18n[i])
    ensures r == [] <==> forall i :: 0 <= i < |productI18n| ==> !I18nMatchesSearch(q)(productI18n[i])
  {
    var matching := Where(productI18n, I18nMatchesSearch(q));
    if forall i :: 0 <= i < |productI18n| ==> !I18nMatchesSearch(q)(productI18n[i]) then
      WhereNone(productI18n, I18nMatchesSearch(q));
      []
    else
    var ids := seq(|matching|, i requires 0 <= i < |matching| => matching[i].productId);
    assert forall i :: 0 <= i < |productI18n| && I18nMatchesSearch(q)(productI18n[i]) ==> productI18n[i].productId in ids by {
      forall i | 0 <= i < |productI18n| && I18nMatchesSearch(q)(productI18n[i]) ensures productI18n[i].productId in ids {
        var k :| 0 <= k < |matching| && matching[k] == productI18n[i];
        assert ids[k] == productI18n[i].productId;
      }
    }
    ids
  }

  /** The WHERE clause of the count and of the page: the status filter, and
      `id IN (hits)` when a search is given. */
  function ListFilter(status: string, searching: bool, hits: seq<Id>): ProductRow -> bool {
    (p: ProductRow) => StatusFilter(status)(p) && (searching ==> p.id in hits)
  }

  // ---------------------------------------------------------------- the join

  /** A product and the localized row the left join pairs it with, if any. */
  type ListRow = Joined<ProductRow, ProductI18nRow>

  /** The join condition: the same product, the locale's language, USD. */
  function JoinsWith(language: LanguageCode): ProductRow -> ProductI18nRow -> bool {
    (p: ProductRow) => (r: ProductI18nRow) => r.productId == p.id && r.languageCode == language && r.currencyCode == USD
  }

  /** The ORDER BY expression: the localized name (COLLATE "C"), the active
      flag, or the creation time, which is also what any other value means. */
  function ListSortKey(sortBy: string): ListRow -> SortKey {
    (r: ListRow) =>
      if sortBy == "name" then (if r.right.Some? then KText(r.right.value.name) else KNull)
      else if sortBy == "isActive" then KBool(r.left.isActive)
      else KInt(r.left.createdAt)
  }

  // ---------------------------------------------------------------- the list

  /** One row of the list page. `name`, `price` and `currencyCode` are null
      when the product has no localized row in the locale's language priced
      in USD. */
  datatype ProductListItem = ProductListItem(
    id: Id,
    name: Option<string>,
    price: Option<string>,
    currencyCode: Option<CurrencyCode>,
    isActive: bool,
    createdAt: Time,
    billingCycle: BillingCycle)

  datatype ProductListPage = ProductListPage(data: seq<ProductListItem>, total: nat, page: int, pageSize: int)

  function ItemOf(r: ListRow): ProductListItem {
    ProductListItem(r.left.id,
                    if r.right.Some? then Some(r.right.value.name) else None,
                    if r.right.Some? then Some(r.right.value.price) else None,
                    if r.right.Some? then Some(r.right.value.currencyCode) else None,
                    r.left.isActive, r.left.createdAt, r.left.billingCycle)
  }

  function Items(rs: seq<ListRow>): (r: seq<ProductListItem>)
    ensures |r| == |rs|
    ensures forall i :: 0 <= i < |rs| ==> r[i] == ItemOf(rs[i])
  {
    seq(|rs|, i requires 0 <= i < |rs| => ItemOf(rs[i]))
  }

  /** The ordered rows of the list before paging. */
  function OrderedListRows(c: Catalog, params: ProductListParams, hits: seq<Id>): seq<ListRow> {
    var search := OrElse(params.search, "");
    var filtered := Where(c.products, ListFilter(OrElse(params.status, "all"), search != "", hits));
    var joined := LeftJoin(filtered, c.productI18n, JoinsWith(LanguageForLocale(OrElse(params.locale, "ko"))));
    SortBy(joined, ListSortKey(OrElse(params.sortBy, "createdAt")), OrElse(params.sortOrder, "desc") == "desc")
  }

  /** getProductList. A negative LIMIT or OFFSET makes the page query fail. */
  function ProductList(c: Catalog, params: ProductListParams): QueryResult<ProductListPage> {
    var search := OrElse(params.search, "");
    var page := OrElse(params.page, 1);
    var pageSize := OrElse(params.pageSize, 20);
    var hits := SearchHits(c.productI18n, search);
    if search != "" && hits == [] then Rows(ProductListPage([], 0, page, pageSize))
    else
      var total := |Where(c.products, ListFilter(OrElse(params.status, "all"), search != "", hits))|;
      var rows := PageOf(OrderedListRows(c, params, hits), page, pageSize);
      if rows.QueryFailed? then QueryFailed(rows.error)
      else Rows(ProductListPage(Items(rows.value), total, page, pageSize))
  }

  /** A search no localized name or description matches short-circuits: no
      rows, total 0, and the page parameters echoed, whatever they are. */
  lemma EmptySearchShortCircuits(c: Catalog, params: ProductListParams)
    requires params.search.Some? && params.search.value != ""
    requires forall i :: 0 <= i < |c.productI18n| ==> !I18nMatchesSearch(params.search.value)(c.productI18n[i])
    ensures ProductList(c, params) == Rows(ProductListPage([], 0, OrElse(params.page, 1), OrElse(params.pageSize, 20)))
  {
  }

  /** A row a list may show: a product passing the filter, paired with a
      localized row in the language priced in USD, or with nothing when the
      product has no such row. */
  predicate ShownRow(c: Catalog, filter: ProductRow -> bool, language: LanguageCode, row: ListRow) {
    row.left in c.products && filter(row.left) && JoinedRow(c.productI18n, JoinsWith(language), row)
  }

  /** Filtering, joining and ordering in any order keeps exactly the rows
      the list may show, and a row for every product passing the filter. */
  lemma SortedJoinShown(c: Catalog, filter: ProductRow -> bool, language: LanguageCode, key: ListRow -> SortKey, desc: bool)
    ensures var rows := SortBy(LeftJoin(Where(c.products, filter), c.productI18n, JoinsWith(language)), key, desc);
      && (forall row :: row in rows ==> ShownRow(c, filter, language, row))
      && (forall p :: p in c.products && filter(p) ==> exists row :: row in rows && row.left == p)
  {
    var filtered := Where(c.products, filter);
    var joined := LeftJoin(filtered, c.productI18n, JoinsWith(language));
    var rows := SortBy(joined, key, desc);
    SortByMembers(joined, key, desc);
    LeftJoinRows(filtered, c.productI18n, JoinsWith(language));
    WhereMembers(c.products, filter);
    forall p | p in c.products && filter(p) ensures exists row :: row in rows && row.left == p {
      assert p in filtered;
      var row :| row in joined && row.left == p;
      assert row in rows;
    }
  }

  /** Every ordered row is a row the list may show, every product passing
      the filter has at least one row, and every such product paired with a
      localized row joining it is a row. */
  lemma OrderedListRowsShown(c: Catalog, params: ProductListParams, hits: seq<Id>)
    ensures var filter := ListFilter(OrElse(params.status, "all"), OrElse(params.search, "") != "", hits);
      var language := LanguageForLocale(OrElse(params.locale, "ko"));
      var rows := OrderedListRows(c, params, hits);
      && (forall row :: row in rows ==> ShownRow(c, filter, language, row))
      && (forall p :: p in c.products && filter(p) ==> exists row :: row in rows && row.left == p)
      && (forall p, r :: p in c.products && filter(p) && r in c.productI18n && JoinsWith(language)(p)(r) ==>
            Joined(p, Some(r)) in rows)
  {
    var filter := ListFilter(OrElse(params.status, "all"), OrElse(params.search, "") != "", hits);
    var language := LanguageForLocale(OrElse(params.locale, "ko"));
    SortedJoinShown(c, filter, language, ListSortKey(OrElse(params.sortBy, "createdAt")),
                    OrElse(params.sortOrder, "desc") == "desc");
    forall p, r | p in c.products && filter(p) && r in c.productI18n && JoinsWith(language)(p)(r)
      ensures Joined(p, Some(r)) in OrderedListRows(c, params, hits)
    {
      SortedJoinCount(c, filter, language, ListSortKey(OrElse(params.sortBy, "createdAt")),
                      OrElse(params.sortOrder, "desc") == "desc", p, r);
      MulPositive(multiset(c.products)[p], multiset(c.productI18n)[r]);
      assert Pairings(multiset(c.products)[p], multiset(c.productI18n)[r]) > 0;
    }
  }

  /** How many times the list shows a row: a product passing the filter
      paired with a localized row joining it once per occurrence of each, and
      paired with nothing once per occurrence when no localized row joins it. */
  lemma SortedJoinCount(c: Catalog, filter: ProductRow -> bool, language: LanguageCode, key: ListRow -> SortKey, desc: bool,
                        p: ProductRow, r: ProductI18nRow)
    ensures var rows := multiset(SortBy(LeftJoin(Where(c.products, filter), c.productI18n, JoinsWith(language)), key, desc));
      && rows[Joined(p, Some(r))] == (if filter(p) && JoinsWith(language)(p)(r) then Pairings(multiset(c.products)[p], multiset(c.productI18n)[r]) else 0)
      && rows[Joined(p, None)] == (if filter(p) && Where(c.productI18n, JoinsWith(language)(p)) == [] then multiset(c.products)[p] else 0)
  {
    var filtered := Where(c.products, filter);
    var joined := LeftJoin(filtered, c.productI18n, JoinsWith(language));
    SortByCorrect(joined, key, desc);
    LeftJoinPairCount(filtered, c.productI18n, JoinsWith(language), p, r);
    LeftJoinUnpairedCount(filtered, c.productI18n, JoinsWith(language), p);
    WhereCount(c.products, filter, p);
  }

  /** Unless the search short-circuits, the query fails exactly when the
      window is negative, and otherwise the total counts the products passing
      the status and search filters, whatever the join yields and whether or
      not they are soft-deleted, and the page has at most `pageSize` rows.
      The page parameters are echoed. */
  lemma ProductListCounts(c: Catalog, params: ProductListParams)
    ensures var search := OrElse(params.search, "");
      var page := OrElse(params.page, 1);
      var pageSize := OrElse(params.pageSize, 20);
      var hits := SearchHits(c.productI18n, search);
      var r := ProductList(c, params);
      && (!(search != "" && hits == []) ==>
            && (r.Rows? <==> pageSize >= 0 && (page >= 1 || pageSize == 0))
            && (r.Rows? ==> r.value.total == |Where(c.products, ListFilter(OrElse(params.status, "all"), search != "", hits))|
                            && |r.value.data| <= pageSize
                            && |r.value.data| == PageLength(|OrderedListRows(c, params, hits)|, page, pageSize)))
      && (r.Rows? ==> r.value.page == page && r.value.pageSize == pageSize)
  {
  }

  /** Row `i` of a page is the item of row `offset + i` of the ordered list,
      and so shows a product passing the filters: its name, price and
      currency come from a localized row in the locale's language priced in
      USD, and are all null when the product has no such row. */
  lemma ProductListRow(c: Catalog, params: ProductListParams, i: int)
    requires ProductList(c, params).Rows?
    requires 0 <= i < |ProductList(c, params).value.data|
    ensures var hits := SearchHits(c.productI18n, OrElse(params.search, ""));
      var offset := Offset(OrElse(params.page, 1), OrElse(params.pageSize, 20));
      && 0 <= offset + i < |OrderedListRows(c, params, hits)|
      && ProductList(c, params).value.data[i] == ItemOf(OrderedListRows(c, params, hits)[offset + i])
    ensures exists row :: && ShownRow(c, ListFilter(OrElse(params.status, "all"), OrElse(params.search, "") != "",
                                                    SearchHits(c.productI18n, OrElse(params.search, ""))),
                                      LanguageForLocale(OrElse(params.locale, "ko")), row)
                          && ProductList(c, params).value.data[i] == ItemOf(row)
  {
    var hits := SearchHits(c.productI18n, OrElse(params.search, ""));
    var rows := OrderedListRows(c, params, hits);
    OrderedListRowsShown(c, params, hits);
    var window := PageOf(rows, OrElse(params.page, 1), OrElse(params.pageSize, 20));
    var row := window.value[i];
    assert row in rows;
  }

  /** The order of a list page: a page is a window of the rows ordered by the
      requested key, each product repeated once per joining localized row;
      unrecognised sort columns order by creation time and any order other
      than 'desc' is ascending. */
  lemma ProductListOrder(c: Catalog, params: ProductListParams, hits: seq<Id>)
    ensures var rows := OrderedListRows(c, params, hits);
      var sortBy := OrElse(params.sortBy, "createdAt");
      && SortedBy(rows, ListSortKey(sortBy), OrElse(params.sortOrder, "desc") == "desc")
      && (sortBy != "name" && sortBy != "isActive" ==> forall r :: ListSortKey(sortBy)(r) == KInt(r.left.createdAt))
  {
    var search := OrElse(params.search, "");
    var filtered := Where(c.products, ListFilter(OrElse(params.status, "all"), search != "", hits));
    var joined := LeftJoin(filtered, c.productI18n, JoinsWith(LanguageForLocale(OrElse(params.locale, "ko"))));
    SortByCorrect(joined, ListSortKey(OrElse(params.sortBy, "createdAt")), OrElse(params.sortOrder, "desc") == "desc");
  }

  /** The list does not look at deleted_at: a soft-deleted product is listed
      under every status but 'active', exactly when the search admits it. */
  lemma ListIgnoresDeletion(status: string, searching: bool, hits: seq<Id>, p: ProductRow, t: Time)
    ensures ListFilter(status, searching, hits)(p.(deletedAt := Some(t))) == ListFilter(status, searching, hits)(p)
    ensures status != "active" ==>
      (ListFilter(status, searching, hits)(p.(deletedAt := Some(t), isActive := false)) <==> (searching ==> p.id in hits))
    ensures status == "active" ==> !ListFilter(status, searching, hits)(p.(deletedAt := Some(t), isActive := false))
  {
    var q := p.(deletedAt := Some(t));
    assert StatusFilter(status)(q) == StatusFilter(status)(p);
    var r := p.(deletedAt := Some(t), isActive := false);
    assert StatusFilter(status)(r) <==> status != "active";
  }

  // ---------------------------------------------------------------- the detail

  /** A bundled tool as the detail read reports it. */
  datatype BundledTool = BundledTool(toolId: Id, toolCode: string, name: string, quotaAllocation: Option<int>, sortOrder: int)

  datatype ProductDetail = ProductDetail(product: ProductRow, i18n: seq<ProductI18nRow>, tools: seq<BundledTool>)

  /** A bundle row joined with its tool. */
  datatype JoinedTool = JoinedTool(row: ProductToolRow, tool: ToolRow)

  /** `product_tools INNER JOIN tools`: a bundle row whose tool is missing
      is dropped. */
  function InnerJoinTools(rows: seq<ProductToolRow>, tools: seq<ToolRow>): (r: seq<JoinedTool>)
    ensures |r| <= |rows|
    ensures forall k :: 0 <= k < |r| ==> r[k].row in rows && r[k].tool in tools && r[k].tool.id == r[k].row.toolId
    ensures (forall i :: 0 <= i < |rows| ==> rows[i].toolId in ToolIds(tools)) ==> |r| == |rows|
  {
    if rows == [] then []
    else
      var t := First(tools, ToolIs(rows[0].toolId));
      var tail := InnerJoinTools(rows[1..], tools);
      if t.Some? then [JoinedTool(rows[0], t.value)] + tail
      else
        assert forall i :: 0 <= i < |tools| ==> tools[i].id != rows[0].toolId;
        assert forall x :: x in tools ==> x.id != rows[0].toolId;
        tail
  }

  /** `ORDER BY sort_order ASC`: NULL sorts last. */
  function SortOrderKey(j: JoinedTool): SortKey {
    if j.row.sortOrder.Some? then KInt(j.row.sortOrder.value) else KNull
  }

  /** The reported tool, with `sortOrder ?? 0`. */
  function BundledToolOf(toolI18n: seq<ToolI18nRow>, j: JoinedTool): BundledTool {
    BundledTool(j.row.toolId, j.tool.toolCode, DisplayName(toolI18n, j.tool), j.row.quotaAllocation,
                if j.row.sortOrder.Some? then j.row.sortOrder.value else 0)
  }

  function BundledTools(toolI18n: seq<ToolI18nRow>, js: seq<JoinedTool>): (r: seq<BundledTool>)
    ensures |r| == |js|
    ensures forall i :: 0 <= i < |js| ==> r[i] == BundledToolOf(toolI18n, js[i])
  {
    seq(|js|, i requires 0 <= i < |js| => BundledToolOf(toolI18n, js[i]))
  }

  function BundleRowOf(id: Id): ProductToolRow -> bool { (r: ProductToolRow) => r.productId == id }

  /** The bundle of a product joined with its tools, in the read's order. */
  function OrderedBundle(c: Catalog, id: Id): seq<JoinedTool> {
    SortBy(InnerJoinTools(Where(c.productTools, BundleRowOf(id)), c.tools), SortOrderKey, false)
  }

  /** getProductById. */
  function ProductById(c: Catalog, id: Id): Option<ProductDetail> {
    var base := First(c.products, ProductIs(id));
    if base.None? then None
    else Some(ProductDetail(base.value,
                            Where(c.productI18n, (r: ProductI18nRow) => r.productId == id),
                            BundledTools(c.toolI18n, OrderedBundle(c, id))))
  }

  /** getProductById as the database answers it: the id is compared with a
      uuid column, so text that is not a uuid makes the call reject instead
      of answering that nothing was found. */
  function FetchProductById(c: Catalog, id: Id): QueryResult<Option<ProductDetail>> {
    if PgUuidText(id) then Rows(ProductById(c, id)) else QueryFailed(InvalidInput("uuid", id))
  }

  /** A reported tool shows the code and the display name of the tool it
      refers to. */
  predicate ReportsTool(c: Catalog, b: BundledTool) {
    exists t :: t in c.tools && t.id == b.toolId && b.toolCode == t.toolCode && b.name == DisplayName(c.toolI18n, t)
  }

  /** The call rejects exactly when the id is not uuid text (a short id such
      as "new" never is); otherwise the detail is absent exactly when there
      is no product with the id, and present it is that product with every
      one of its localized rows, in no particular language. */
  lemma ProductByIdFound(c: Catalog, id: Id)
    ensures FetchProductById(c, id).QueryFailed? <==> !PgUuidText(id)
    ensures |id| < 32 ==> FetchProductById(c, id) == QueryFailed(InvalidInput("uuid", id))
    ensures FetchProductById(c, id).Rows? ==> FetchProductById(c, id).value == ProductById(c, id)
    ensures ProductById(c, id).None? <==> id !in ProductIds(c.products)
    ensures ProductById(c, id).Some? ==>
      var d := ProductById(c, id).value;
      && d.product in c.products && d.product.id == id
      && (forall r :: r in d.i18n <==> r in c.productI18n && r.productId == id)
  {
    if id in ProductIds(c.products) {
      var p :| p in c.products && p.id == id;
      var i :| 0 <= i < |c.products| && c.products[i] == p;
      assert ProductIs(id)(c.products[i]);
    }
    if |id| < 32 {
      ShortTextIsNoUuid(id);
    }
    WhereMembers(c.productI18n, (r: ProductI18nRow) => r.productId == id);
  }

  /** Every bundled tool of the detail is reported under its tool's code and
      display name, and in a consistent catalog every bundle row of the
      product is reported. */
  lemma ProductByIdTools(c: Catalog, id: Id)
    requires ProductById(c, id).Some?
    ensures forall k :: 0 <= k < |ProductById(c, id).value.tools| ==> ReportsTool(c, ProductById(c, id).value.tools[k])
    ensures Consistent(c) ==> |ProductById(c, id).value.tools| == |Where(c.productTools, BundleRowOf(id))|
  {
    var own := Where(c.productTools, BundleRowOf(id));
    var joined := InnerJoinTools(own, c.tools);
    SortByMembers(joined, SortOrderKey, false);
    SortByLength(joined, SortOrderKey, false);
    var sorted := OrderedBundle(c, id);
    var d := ProductById(c, id).value;
    forall k | 0 <= k < |d.tools| ensures ReportsTool(c, d.tools[k]) {
      assert sorted[k] in joined;
      assert d.tools[k] == BundledToolOf(c.toolI18n, sorted[k]);
    }
    if Consistent(c) {
      assert forall i :: 0 <= i < |own| ==> own[i] in c.productTools;
    }
  }

  /** The bundled tools come in ascending stored sort order with the rows
      that have none last; such a row reports 0, so the reported numbers are
      ascending only up to the first row without a stored order. */
  lemma ProductByIdToolOrder(c: Catalog, id: Id)
    requires ProductById(c, id).Some?
    ensures var d := ProductById(c, id).value;
      var b := OrderedBundle(c, id);
      && |d.tools| == |b|
      && (forall i, j :: 0 <= i < j < |b| && b[j].row.sortOrder.Some? ==>
            b[i].row.sortOrder.Some? && d.tools[i].sortOrder <= d.tools[j].sortOrder)
      && (forall i :: 0 <= i < |b| ==> (b[i].row.sortOrder.None? ==> d.tools[i].sortOrder == 0))
  {
    var joined := InnerJoinTools(Where(c.productTools, BundleRowOf(id)), c.tools);
    var b := OrderedBundle(c, id);
    var tools := BundledTools(c.toolI18n, b);
    assert ProductById(c, id).value.tools == tools;
    SortByCorrect(joined, SortOrderKey, false);
    forall i, j | 0 <= i < j < |b| && b[j].row.sortOrder.Some?
      ensures b[i].row.sortOrder.Some? && tools[i].sortOrder <= tools[j].sortOrder
    {
      assert Ordered(SortOrderKey(b[i]), SortOrderKey(b[j]), false);
    }
  }

  /** A bundle row without a stored order is reported as 0 yet listed after
      rows with positive orders: the reported numbers need not be ascending. */
  lemma NullSortOrderReportedOutOfOrder(p: ProductRow, t: ToolRow)
    ensures var c := Catalog([p], [], [ProductToolRow(p.id, t.id, None, Some(5)), ProductToolRow(p.id, t.id, None, None)], [t], [], [], []);
      && ProductById(c, p.id).Some?
      && |ProductById(c, p.id).value.tools| == 2
      && ProductById(c, p.id).value.tools[0].sortOrder == 5
      && ProductById(c, p.id).value.tools[1].sortOrder == 0
  {
    var c := Catalog([p], [], [ProductToolRow(p.id, t.id, None, Some(5)), ProductToolRow(p.id, t.id, None, None)], [t], [], [], []);
    assert ProductIs(p.id)(c.products[0]);
    var rows := c.productTools;
    assert Where(rows, BundleRowOf(p.id)) == rows by {
      WhereAll(rows, BundleRowOf(p.id));
    }
    assert ToolIs(t.id)(c.tools[0]);
    var joined := InnerJoinTools(rows, c.tools);
    assert InnerJoinTools(rows[1..], c.tools) == [JoinedTool(rows[1], t)] by {
      assert rows[1..][1..] == [];
    }
    assert joined == [JoinedTool(rows[0], t), JoinedTool(rows[1], t)];
    assert SortBy(joined[1..], SortOrderKey, false) == [JoinedTool(rows[1], t)] by {
      assert joined[1..][1..] == [];
    }
  }
}

=== FILE: product_schema.dfy ===
/** The validation rules a product form must pass before any product action
    touches the database: the object schemas for a localized variant, a
    bundled tool entry, a new product and an updated product. Validation
    either yields the typed draft (with defaults filled in) or fails. */
module ProductSchema {
  import opened Common
  import opened DbSchema

  // ---------------------------------------------------------------- submitted values

  /** One localized variant as submitted. */
  datatype I18nInput = I18nInput(
    languageCode: Field<string>,
    name: Field<string>,
    description: Field<string>,
    currencyCode: Field<string>,
    price: Field<string>,
    currentPrice: Field<string>)

  /** One bundled tool as submitted. */
  datatype ToolEntryInput = ToolEntryInput(toolId: Field<string>, quotaAllocation: Field<int>, sortOrder: Field<int>)

  /** A product as submitted; `id` is only looked at by the update schema. */
  datatype ProductInput = ProductInput(
    productType: Field<string>,
    category: Field<string>,
    billingCycle: Field<string>,
    productCode: Field<string>,
    paddleProductId: Field<string>,
    paddlePriceId: Field<string>,
    iconImageUrl: Field<string>,
    isActive: Field<bool>,
    i18n: Field<seq<I18nInput>>,
    tools: Field<seq<ToolEntryInput>>,
    id: Field<string>)

  // ---------------------------------------------------------------- validated values

  datatype I18nEntry = I18nEntry(
    languageCode: LanguageCode,
    name: string,
    description: Option<string>,
    currencyCode: CurrencyCode,
    price: string,
    currentPrice: Option<string>)

  datatype ToolEntry = ToolEntry(toolId: Id, quotaAllocation: Option<int>, sortOrder: int)

  /** A validated product. The three optional-and-nullable columns keep the
      difference between "left out" and "null": an update leaves a column
      that was left out untouched. */
  datatype ProductDraft = ProductDraft(
    productType: ProductType,
    category: Option<string>,
    billingCycle: BillingCycle,
    productCode: string,
    paddleProductId: Field<string>,
    paddlePriceId: Field<string>,
    iconImageUrl: Field<string>,
    isActive: bool,
    i18n: seq<I18nEntry>,
    tools: seq<ToolEntry>)

  // ---------------------------------------------------------------- enums and formats

  function ProductTypeText(t: ProductType): string {
    match t
    case Subscription => "SUBSCRIPTION"
    case Purchase => "PURCHASE"
  }

  function ParseProductType(s: string): (r: Option<ProductType>)
    ensures r.Some? <==> s == "SUBSCRIPTION" || s == "PURCHASE"
    ensures r.Some? ==> ProductTypeText(r.value) == s
  {
    if s == "SUBSCRIPTION" then Some(Subscription) else if s == "PURCHASE" then Some(Purchase) else None
  }

  function BillingCycleText(b: BillingCycle): string {
    match b
    case Monthly => "MONTHLY"
    case Yearly => "YEARLY"
    case Once => "ONCE"
  }

  function ParseBillingCycle(s: string): (r: Option<BillingCycle>)
    ensures r.Some? <==> s == "MONTHLY" || s == "YEARLY" || s == "ONCE"
    ensures r.Some? ==> BillingCycleText(r.value) == s
  {
    if s == "MONTHLY" then Some(Monthly) else if s == "YEARLY" then Some(Yearly) else if s == "ONCE" then Some(Once) else None
  }


  /** `.optional()` on a string: left out or a string, never null. */
  function OptionalText(f: Field<string>): Option<string> {
    if f.Present? then Some(f.value) else None
  }

  // ---------------------------------------------------------------- the schemas

  /** productI18nSchema. */
  function ParseI18n(x: I18nInput): (r: Option<I18nEntry>)
    ensures r.Some? <==> ValidI18nInput(x)
    ensures r.Some? ==> WellFormedEntry(r.value)
  {
    if && x.languageCode.Present? && ParseLanguage(x.languageCode.value).Some?
       && x.name.Present? && |x.name.value| >= 1
       && !x.description.Null?
       && x.currencyCode.Present? && ParseCurrency(x.currencyCode.value).Some?
       && x.price.Present? && |x.price.value| >= 1
       && !x.currentPrice.Null?
    then
      Some(I18nEntry(ParseLanguage(x.languageCode.value).value, x.name.value, OptionalText(x.description),
                     ParseCurrency(x.currencyCode.value).value, x.price.value, OptionalText(x.currentPrice)))
    else None
  }

  /** productToolSchema: `quotaAllocation` must be given but may be null. */
  function ParseToolEntry(x: ToolEntryInput): (r: Option<ToolEntry>)
    ensures r.Some? <==> ValidToolEntryInput(x)
    ensures r.Some? ==> IsUuid(r.value.toolId)
  {
    if x.toolId.Present? && IsUuid(x.toolId.value) && !x.quotaAllocation.Absent? && x.sortOrder.Present? then
      Some(ToolEntry(x.toolId.value, if x.quotaAllocation.Present? then Some(x.quotaAllocation.value) else None, x.sortOrder.value))
    else None
  }

  /** createProductSchema: `isActive` defaults to true and `tools` to the
      empty list when left out; unknown keys such as `id` are dropped. */
  function ParseCreate(x: ProductInput): (r: Option<ProductDraft>)
    ensures r.Some? <==> ValidProductInput(x)
    ensures r.Some? ==> WellFormedDraft(r.value)
  {
    var i18n := if x.i18n.Present? then ParseEach(x.i18n.value, ParseI18n) else None;
    var tools := if x.tools.Absent? then Some([]) else if x.tools.Present? then ParseEach(x.tools.value, ParseToolEntry) else None;
    if && x.productType.Present? && ParseProductType(x.productType.value).Some?
       && !x.category.Absent?
       && x.billingCycle.Present? && ParseBillingCycle(x.billingCycle.value).Some?
       && x.productCode.Present? && |x.productCode.value| >= 1
       && !x.isActive.Null?
       && i18n.Some? && |i18n.value| >= 1
       && tools.Some?
    then
      Some(ProductDraft(
        ParseProductType(x.productType.value).value,
        if x.category.Present? then Some(x.category.value) else None,
        ParseBillingCycle(x.billingCycle.value).value,
        x.productCode.value,
        x.paddleProductId, x.paddlePriceId, x.iconImageUrl,
        if x.isActive.Present? then x.isActive.value else true,
        i18n.value,
        tools.value))
    else None
  }

  /** updateProductSchema: the create schema extended with a required uuid `id`. */
  function ParseUpdate(x: ProductInput): (r: Option<ProductDraft>)
    ensures r.Some? <==> ValidProductInput(x) && x.id.Present? && IsUuid(x.id.value)
    ensures r.Some? ==> r == ParseCreate(x)
  {
    if x.id.Present? && IsUuid(x.id.value) then ParseCreate(x) else None
  }

  // ---------------------------------------------------------------- the rules, stated per field

  predicate ValidI18nInput(x: I18nInput) {
    && x.languageCode.Present? && x.languageCode.value in {"KR", "EN", "JP"}
    && x.name.Present? && x.name.value != ""
    && !x.description.Null?
    && x.currencyCode.Present? && x.currencyCode.value in {"KRW", "USD", "JPY"}
    && x.price.Present? && x.price.value != ""
    && !x.currentPrice.Null?
  }

  predicate ValidToolEntryInput(x: ToolEntryInput) {
    x.toolId.Present? && IsUuid(x.toolId.value) && !x.quotaAllocation.Absent? && x.sortOrder.Present?
  }

  predicate ValidProductInput(x: ProductInput) {
    && x.productType.Present? && x.productType.value in {"SUBSCRIPTION", "PURCHASE"}
    && !x.category.Absent?
    && x.billingCycle.Present? && x.billingCycle.value in {"MONTHLY", "YEARLY", "ONCE"}
    && x.productCode.Present? && x.productCode.value != ""
    && !x.isActive.Null?
    && x.i18n.Present? && |x.i18n.value| >= 1
    && (forall i :: 0 <= i < |x.i18n.value| ==> ValidI18nInput(x.i18n.value[i]))
    && !x.tools.Null?
    && (x.tools.Present? ==> forall i :: 0 <= i < |x.tools.value| ==> ValidToolEntryInput(x.tools.value[i]))
  }

  predicate WellFormedEntry(e: I18nEntry) {
    e.name != "" && e.price != ""
  }

  /** What every validated product satisfies. */
  predicate WellFormedDraft(d: ProductDraft) {
    && d.productCode != ""
    && |d.i18n| >= 1
    && (forall i :: 0 <= i < |d.i18n| ==> WellFormedEntry(d.i18n[i]))
    && (forall i :: 0 <= i < |d.tools| ==> IsUuid(d.tools[i].toolId))
  }

  // ---------------------------------------------------------------- back to a form

  function EntryInput(e: I18nEntry): I18nInput {
    I18nInput(Present(LanguageText(e.languageCode)), Present(e.name),
              if e.description.Some? then Present(e.description.value) else Absent,
              Present(CurrencyText(e.currencyCode)), Present(e.price),
              if e.currentPrice.Some? then Present(e.currentPrice.value) else Absent)
  }

  function ToolEntryInputOf(t: ToolEntry): ToolEntryInput {
    ToolEntryInput(Present(t.toolId), if t.quotaAllocation.Some? then Present(t.quotaAllocation.value) else Null, Present(t.sortOrder))
  }

  /** The form an edit screen fills in from a draft. */
  function DraftInput(d: ProductDraft, id: Field<string>): ProductInput {
    ProductInput(
      Present(ProductTypeText(d.productType)),
      if d.category.Some? then Present(d.category.value) else Null,
      Present(BillingCycleText(d.billingCycle)),
      Present(d.productCode),
      d.paddleProductId, d.paddlePriceId, d.iconImageUrl,
      Present(d.isActive),
      Present(seq(|d.i18n|, i requires 0 <= i < |d.i18n| => EntryInput(d.i18n[i]))),
      Present(seq(|d.tools|, i requires 0 <= i < |d.tools| => ToolEntryInputOf(d.tools[i]))),
      id)
  }

  // ---------------------------------------------------------------- properties

  /** Every well-formed draft passes validation again unchanged: the schema
      loses nothing a valid product carries. */
  lemma ParseCreateRoundTrip(d: ProductDraft, id: Field<string>)
    requires WellFormedDraft(d)
    ensures ParseCreate(DraftInput(d, id)) == Some(d)
  {
    var x := DraftInput(d, id);
    forall i | 0 <= i < |d.i18n| ensures ParseI18n(x.i18n.value[i]) == Some(d.i18n[i]) {
      EntryRoundTrip(d.i18n[i]);
    }
    forall i | 0 <= i < |d.tools| ensures ParseToolEntry(x.tools.value[i]) == Some(d.tools[i]) {
      assert x.tools.value[i] == ToolEntryInputOf(d.tools[i]);
    }
    var i18n := ParseEach(x.i18n.value, ParseI18n);
    assert i18n.value == d.i18n;
    var tools := ParseEach(x.tools.value, ParseToolEntry);
    assert tools.value == d.tools;
    assert ParseProductType(x.productType.value) == Some(d.productType) by {
      match d.productType { case Subscription => case Purchase => }
    }
    assert ParseBillingCycle(x.billingCycle.value) == Some(d.billingCycle) by {
      match d.billingCycle { case Monthly => case Yearly => case Once => }
    }
  }

  lemma EntryRoundTrip(e: I18nEntry)
    requires WellFormedEntry(e)
    ensures ParseI18n(EntryInput(e)) == Some(e)
  {
    EnumTextRoundTrip(e.languageCode, e.currencyCode);
  }

  /** With a uuid id the update schema accepts the same drafts as the create
      schema, and without one it accepts nothing. */
  lemma UpdateIsCreatePlusId(d: ProductDraft, id: string)
    requires WellFormedDraft(d)
    ensures ParseUpdate(DraftInput(d, Present(id))) == (if IsUuid(id) then Some(d) else None)
    ensures ParseUpdate(DraftInput(d, Absent)).None? && ParseUpdate(DraftInput(d, Null)).None?
  {
    ParseCreateRoundTrip(d, Present(id));
  }

  /** Left-out `isActive` means active and left-out `tools` means no bundle. */
  lemma CreateDefaults(x: ProductInput)
    requires ParseCreate(x).Some?
    ensures x.isActive.Absent? ==> ParseCreate(x).value.isActive
    ensures x.tools.Absent? ==> ParseCreate(x).value.tools == []
    ensures x.isActive.Present? ==> ParseCreate(x).value.isActive == x.isActive.value
  {
  }

  /** Language and currency are checked independently: any language may be
      combined with any currency, and the price is any non-empty text, not
      necessarily a number. */
  lemma NoLanguageCurrencyPairing(x: I18nInput, l: LanguageCode, c: CurrencyCode, price: string)
    requires ValidI18nInput(x)
    requires price != ""
    ensures ParseI18n(x.(languageCode := Present(LanguageText(l)), currencyCode := Present(CurrencyText(c)), price := Present(price))).Some?
  {
  }

  /** Product type and billing cycle are checked independently (a one-off
      purchase may be billed monthly). */
  lemma NoTypeCyclePairing(x: ProductInput, t: ProductType, b: BillingCycle)
    requires ValidProductInput(x)
    ensures ParseCreate(x.(productType := Present(ProductTypeText(t)), billingCycle := Present(BillingCycleText(b)))).Some?
  {
  }
}

=== FILE: route_guard.dfy ===
/** The route guard that runs before the requests its matcher admits (all but
    the API routes, the Next.js static and image assets and .png files):
    protected sections need a signed-in admin, the sign-in and sign-up pages
    are for visitors only. */
module RouteGuard {
  import opened Common

  /** Sections behind sign-in, matched as path prefixes. */
  const ProtectedPrefixes: seq<string> := [
    "/home", "/admins", "/members", "/products", "/cs", "/events",
    "/invites", "/notices", "/settings", "/settlements", "/single-menu"]

  /** Pages for visitors only, matched exactly. */
  const PublicPaths: seq<string> := ["/auth/sign-in", "/auth/sign-up"]

  const SignInPath: string := "/auth/sign-in"
  const HomePath: string := "/home"

  predicate IsProtected(path: string) {
    exists i :: 0 <= i < |ProtectedPrefixes| && IsPrefix(ProtectedPrefixes[i], path)
  }

  predicate IsPublic(path: string) {
    path in PublicPaths
  }

  datatype Decision = Redirect(location: string) | Next

  predicate IsSuffix(suffix: string, s: string) {
    |suffix| <= |s| && s[|s| - |suffix|..] == suffix
  }

  /** The matcher `/((?!api|_next/static|_next/image|.*\.png$).*)`: a path
      the guard runs on starts with '/', and what follows the slash neither
      starts with "api", "_next/static" or "_next/image" nor ends in ".png". */
  predicate MatcherAdmits(path: string) {
    && IsPrefix("/", path)
    && !IsPrefix("/api", path) && !IsPrefix("/_next/static", path) && !IsPrefix("/_next/image", path)
    && !IsSuffix(".png", path)
  }

  /** The decision for a request to `path`. `sessionAdminId` is the admin id
      of the decrypted session cookie: `None` when there is no cookie or it
      does not decrypt. */
  function Decide(path: string, sessionAdminId: Option<string>): Decision {
    var signedIn := sessionAdminId.Some? && sessionAdminId.value != "";
    if IsProtected(path) && !signedIn then Redirect(SignInPath)
    else if IsPublic(path) && signedIn then Redirect(HomePath)
    else Next
  }

  /** What a request gets: the guard's decision when the matcher admits the
      path, and the page itself otherwise. */
  function Respond(path: string, sessionAdminId: Option<string>): Decision {
    if MatcherAdmits(path) then Decide(path, sessionAdminId) else Next
  }

  /** The three outcomes and exactly when each happens. */
  lemma DecideCases(path: string, sessionAdminId: Option<string>)
    ensures var signedIn := sessionAdminId.Some? && sessionAdminId.value != "";
      && (Decide(path, sessionAdminId) == Redirect(SignInPath) <==> IsProtected(path) && !signedIn)
      && (Decide(path, sessionAdminId) == Redirect(HomePath) <==> IsPublic(path) && signedIn)
      && (Decide(path, sessionAdminId) == Next <==> (IsProtected(path) ==> signedIn) && (IsPublic(path) ==> !signedIn))
  {
    NoPathIsBoth(path);
  }

  /** The prefix match admits more than the section itself: "/homepage" is
      protected too. */
  lemma PrefixMatchIsLoose()
    ensures IsProtected("/homepage")
    ensures IsProtected("/home")
  {
    assert IsPrefix(ProtectedPrefixes[0], "/homepage");
    assert IsPrefix(ProtectedPrefixes[0], "/home");
  }

  /** A public path starts with "/au", which no protected prefix does, so
      no path is both, and at most one of the two redirects can apply. */
  lemma NoPathIsBoth(path: string)
    ensures IsPublic(path) ==> !IsProtected(path)
  {
    if IsPublic(path) {
      assert path[1] == 'a' && path[2] == 'u';
      forall i | 0 <= i < |ProtectedPrefixes| ensures !IsPrefix(ProtectedPrefixes[i], path) {
        ProtectedPrefixShape(ProtectedPrefixes[i]);
      }
    }
  }

  /** Every protected prefix has at least three characters, starts with '/'
      and does not go on with "au", "ap" or '_'. */
  lemma ProtectedPrefixShape(prefix: string)
    requires prefix in ProtectedPrefixes
    ensures |prefix| >= 3 && prefix[0] == '/' && !(prefix[1] == 'a' && prefix[2] == 'u')
    ensures !(prefix[1] == 'a' && prefix[2] == 'p') && prefix[1] != '_'
  {
    assert || prefix == "/home" || prefix == "/admins" || prefix == "/members" || prefix == "/products"
           || prefix == "/cs" || prefix == "/events" || prefix == "/invites" || prefix == "/notices"
           || prefix == "/settings" || prefix == "/settlements" || prefix == "/single-menu";
  }

  /** A redirect lands on a page the guard lets through with the same
      session, so the guard never redirects twice in a row. */
  lemma RedirectIsFinal(path: string, sessionAdminId: Option<string>)
    requires Decide(path, sessionAdminId).Redirect?
    ensures Decide(Decide(path, sessionAdminId).location, sessionAdminId) == Next
  {
    NoPathIsBoth(SignInPath);
    assert !IsPublic(HomePath);
  }

  /** A path that starts with '/' and goes on with neither "ap" nor '_' is
      admitted unless it ends in ".png". */
  lemma AdmittedByShape(path: string)
    requires |path| >= 3 && path[0] == '/' && !(path[1] == 'a' && path[2] == 'p') && path[1] != '_'
    ensures MatcherAdmits(path) <==> !IsSuffix(".png", path)
  {
    assert IsPrefix("/", path) by { assert path[..1] == [path[0]]; }
    assert !IsPrefix("/api", path) by {
      assert "/api"[1] == 'a' && "/api"[2] == 'p';
      assert |path| >= 4 ==> path[..4][1] == path[1] && path[..4][2] == path[2];
    }
    assert !IsPrefix("/_next/static", path) by {
      assert "/_next/static"[1] == '_';
      assert |path| >= 13 ==> path[..13][1] == path[1];
    }
    assert !IsPrefix("/_next/image", path) by {
      assert "/_next/image"[1] == '_';
      assert |path| >= 12 ==> path[..12][1] == path[1];
    }
  }

  /** The matcher exempts no page of a protected section but .png files, and
      no public page: for those the response is the guard's decision. */
  lemma MatcherKeepsGuardedPages(path: string, sessionAdminId: Option<string>)
    ensures IsProtected(path) && !IsSuffix(".png", path) ==> MatcherAdmits(path)
    ensures IsPublic(path) ==> MatcherAdmits(path)
    ensures MatcherAdmits(path) ==> Respond(path, sessionAdminId) == Decide(path, sessionAdminId)
  {
    if IsProtected(path) {
      var i :| 0 <= i < |ProtectedPrefixes| && IsPrefix(ProtectedPrefixes[i], path);
      var prefix := ProtectedPrefixes[i];
      ProtectedPrefixShape(prefix);
      assert path[0] == prefix[0] && path[1] == prefix[1] && path[2] == prefix[2] by {
        assert path[..|prefix|] == prefix;
      }
      AdmittedByShape(path);
    }
    if IsPublic(path) {
      AdmittedByShape(path);
    }
  }

  /** The requests the matcher leaves out reach their page whatever the
      session: a .png under a protected section is served without sign-in. */
  lemma ExcludedPathsPassThrough(path: string, sessionAdminId: Option<string>)
    ensures (|| IsPrefix("/api", path) || IsPrefix("/_next/static", path) || IsPrefix("/_next/image", path)
             || IsSuffix(".png", path)) ==> Respond(path, sessionAdminId) == Next
    ensures Respond("/home/logo.png", None) == Next && Decide("/home/logo.png", None) == Redirect(SignInPath)
  {
    assert IsSuffix(".png", "/home/logo.png");
    assert IsPrefix(ProtectedPrefixes[0], "/home/logo.png");
  }

  /** A response's redirect lands on a page that is answered with the page
      itself for the same session, so redirects never loop. */
  lemma RespondRedirectIsFinal(path: string, sessionAdminId: Option<string>)
    requires Respond(path, sessionAdminId).Redirect?
    ensures Respond(Respond(path, sessionAdminId).location, sessionAdminId) == Next
  {
    RedirectIsFinal(path, sessionAdminId);
    MatcherKeepsGuardedPages(SignInPath, sessionAdminId);
    assert IsPrefix(ProtectedPrefixes[0], HomePath);
    MatcherKeepsGuardedPages(HomePath, sessionAdminId);
  }
}

=== FILE: tool_actions.dfy ===
/** The write actions of the tool catalog. A tool is its base row plus its
    localized rows (tool_i18n). Create and update run in one transaction; a
    failing statement rolls it back and the action answers with a fixed
    message. Delete is a physical delete whose foreign keys cascade; the
    status toggle is a single UPDATE. */
module ToolActions {
  import opened Common
  import opened DbSchema
  import opened CatalogStore
  import opened PgInput
  import opened ToolSchema
  import opened ToolDisplay

  /** `{ success: true, data? } | { success: false, error }`: create's data is
      the new tool's id. */
  datatype ToolResponse = ToolResponse(success: bool, error: Option<string>, createdId: Option<Id>)

  /** The tables after an action, and its answer. */
  datatype ToolOutcome = ToolOutcome(after: Catalog, response: ToolResponse)

  const CreateFailedMessage := "도구 생성 중 오류가 발생했습니다."
  const UpdateFailedMessage := "도구 수정 중 오류가 발생했습니다."
  const DeleteFailedMessage := "도구 삭제 중 오류가 발생했습니다."
  const ToggleFailedMessage := "상태 변경 중 오류가 발생했습니다."

  function Rejected(message: string): ToolResponse {
    ToolResponse(false, Some(message), None)
  }

  const Done := ToolResponse(true, None, None)

  // ---------------------------------------------------------------- the rows the actions write

  /** `value || null`: a missing, null or empty URL is stored as NULL. */
  function UrlOrNull(f: Field<string>): (r: Option<string>)
    ensures r.None? <==> !f.Present? || f.value == ""
    ensures r.Some? ==> f == Present(r.value)
  {
    if f.Present? && f.value != "" then Some(f.value) else None
  }

  function ToolI18nRowOf(toolId: Id, e: ToolI18nEntry): ToolI18nRow {
    ToolI18nRow(toolId, e.languageCode, Some(e.name), e.description)
  }

  function ToolI18nRows(toolId: Id, es: seq<ToolI18nEntry>): (r: seq<ToolI18nRow>)
    ensures |r| == |es|
    ensures forall i :: 0 <= i < |r| ==> r[i] == ToolI18nRowOf(toolId, es[i])
  {
    seq(|es|, i requires 0 <= i < |es| => ToolI18nRowOf(toolId, es[i]))
  }

  /** The inserted base row; created_at and updated_at take their
      CURRENT_TIMESTAMP defaults. */
  function NewToolRow(d: ToolDraft, id: Id, now: Time): ToolRow {
    ToolRow(id, d.category, d.toolCode, d.internalUsageLimit, d.isFree, d.tier, UrlOrNull(d.iconImageUrl),
            d.isActive, now, now)
  }

  /** A SET entry for a column the schema never lets be null. */
  function Keep<T>(current: T, f: Field<T>): T {
    if f.Present? then f.value else current
  }

  function IconAssign(current: Option<string>, f: Field<string>): Option<string> {
    if f.Absent? then current else UrlOrNull(f)
  }

  /** The update's SET: every supplied column, and updated_at always. */
  function PatchUpdate(p: ToolPatch, now: Time): ToolRow -> ToolRow {
    (t: ToolRow) => t.(category := Assign(t.category, p.category), toolCode := Keep(t.toolCode, p.toolCode),
                       internalUsageLimit := Assign(t.internalUsageLimit, p.internalUsageLimit),
                       isFree := Keep(t.isFree, p.isFree), tier := Assign(t.tier, p.tier),
                       iconImageUrl := IconAssign(t.iconImageUrl, p.iconImageUrl),
                       isActive := Keep(t.isActive, p.isActive), updatedAt := now)
  }

  /** The integers the update's SET binds, in column order: the usage limit,
      then the tier, each when supplied and not null. */
  function SetValues(p: ToolPatch): (r: seq<int>)
    ensures AllFit(r) <==>
      && (p.internalUsageLimit.Present? ==> FitsInt4(p.internalUsageLimit.value))
      && (p.tier.Present? ==> FitsInt4(p.tier.value))
  {
    var limit := Bound(OptionOf(p.internalUsageLimit));
    var tier := Bound(OptionOf(p.tier));
    AllFitAppend(limit, tier);
    limit + tier
  }

  /** The status toggle's SET. */
  function StatusUpdate(isActive: bool, now: Time): ToolRow -> ToolRow {
    (t: ToolRow) => t.(isActive := isActive, updatedAt := now)
  }

  // ---------------------------------------------------------------- create

  /** Statements: 0 base row, 1 localized rows (a valid draft always has some). */
  function CreateToolError(c: Catalog, d: ToolDraft, newId: Id, now: Time, fault: Option<Fault>): Option<DbError> {
    var base := NewToolRow(d, newId, now);
    var e0 := ToolInsertError(c, base, RaiseAt(fault, 0));
    if e0.Some? then e0
    else if |d.i18n| > 0 then ToolI18nInsertError(c.(tools := c.tools + [base]), ToolI18nRows(newId, d.i18n), RaiseAt(fault, 1))
    else None
  }

  function WithNewTool(c: Catalog, d: ToolDraft, newId: Id, now: Time): Catalog {
    c.(tools := c.tools + [NewToolRow(d, newId, now)], toolI18n := c.toolI18n + ToolI18nRows(newId, d.i18n))
  }

  function CreateToolOutcome(c: Catalog, x: ToolInput, newId: Id, now: Time, fault: Option<Fault>): ToolOutcome {
    var v := ValidateCreate(x);
    if v.Invalid? then ToolOutcome(c, Rejected(v.message))
    else if CreateToolError(c, v.value, newId, now, fault).Some? then ToolOutcome(c, Rejected(CreateFailedMessage))
    else ToolOutcome(WithNewTool(c, v.value, newId, now), ToolResponse(true, None, Some(newId)))
  }

  /** createToolAction. `newId` is the id the database generates. */
  method CreateTool(db: CatalogDb, x: ToolInput, newId: Id, now: Time, fault: Option<Fault>) returns (response: ToolResponse)
    modifies db
    ensures ToolOutcome(db.Snapshot(), response) == CreateToolOutcome(old(db.Snapshot()), x, newId, now, fault)
  {
    var v := ValidateCreate(x);
    if v.Invalid? {
      return Rejected(v.message);
    }
    var d := v.value;
    var saved := db.Snapshot();
    var err := db.InsertTool(NewToolRow(d, newId, now), RaiseAt(fault, 0));
    if err.None? && |d.i18n| > 0 {
      err := db.InsertToolI18n(ToolI18nRows(newId, d.i18n), RaiseAt(fault, 1));
    }
    if err.Some? {
      db.Restore(saved);
      return Rejected(CreateFailedMessage);
    }
    assert |d.i18n| == 0 ==> ToolI18nRows(newId, d.i18n) == [];
    return ToolResponse(true, None, Some(newId));
  }

  /** A submitted usage limit below 2^31, the bound of column type integer;
      the validator itself sets no upper bound. */
  predicate UsageLimitFits(f: Field<real>) {
    f.Present? ==> f.value < 2147483648.0
  }

  /** The integers validation lets through: a usage limit fits in integer
      exactly when it is below 2^31, and a tier (0 to 5) always does. */
  lemma ValidatedIntegersFit(x: ToolInput)
    requires ValidUsageLimit(x.internalUsageLimit) && ValidTier(x.tier)
    ensures (IntOf(x.internalUsageLimit).Present? ==> FitsInt4(IntOf(x.internalUsageLimit).value)) <==> UsageLimitFits(x.internalUsageLimit)
    ensures IntOf(x.tier).Present? ==> FitsInt4(IntOf(x.tier).value)
  {
  }

  /** Create succeeds, answering with the new id, exactly when the form is
      valid, the usage limit fits in integer, the generated id is free and
      neither statement is hit by a fault; an invalid form is answered with
      the first issue's message. */
  lemma CreateToolSucceedsIff(c: Catalog, x: ToolInput, newId: Id, now: Time, fault: Option<Fault>)
    ensures var o := CreateToolOutcome(c, x, newId, now, fault);
      && (o.response.success <==>
            && ValidToolInput(x, false) && UsageLimitFits(x.internalUsageLimit)
            && newId !in ToolIds(c.tools) && RaiseAt(fault, 0).None? && RaiseAt(fault, 1).None?)
      && (o.response.success ==> o.response.createdId == Some(newId) && o.after == WithNewTool(c, ValidateCreate(x).value, newId, now))
      && (!o.response.success ==> o.after == c && o.response.createdId.None? && o.response.error.Some?)
      && (ValidateCreate(x).Invalid? ==> o.response.error == Some(ValidateCreate(x).message))
  {
    ValidateCreateIff(x);
    if ValidateCreate(x).Valid? {
      ValidatedIntegersFit(x);
      var d := ValidateCreate(x).value;
      var base := NewToolRow(d, newId, now);
      var c1 := c.(tools := c.tools + [base]);
      assert base in c1.tools;
      var rows := ToolI18nRows(newId, d.i18n);
      assert rows[0].toolId == newId;
      assert forall i :: 0 <= i < |rows| ==> rows[i].toolId in ToolIds(c1.tools);
    }
  }

  /** The stored tool: the draft's columns with the URL stored as NULL when
      it was missing or empty, one localized row per entry, and nothing else
      of the catalog changed. */
  lemma NewToolStored(c: Catalog, d: ToolDraft, newId: Id, now: Time)
    requires Consistent(c)
    requires newId !in ToolIds(c.tools)
    ensures var a := WithNewTool(c, d, newId, now);
      && a.tools[|a.tools| - 1].id == newId
      && a.tools[|a.tools| - 1].toolCode == d.toolCode
      && a.tools[|a.tools| - 1].isActive == d.isActive
      && (a.tools[|a.tools| - 1].iconImageUrl.None? <==> !d.iconImageUrl.Present? || d.iconImageUrl.value == "")
      && Where(a.toolI18n, ToolI18nOf(newId)) == ToolI18nRows(newId, d.i18n)
      && a.products == c.products && a.productTools == c.productTools && a.productI18n == c.productI18n
  {
    forall i | 0 <= i < |c.toolI18n| ensures !ToolI18nOf(newId)(c.toolI18n[i]) {
      assert c.toolI18n[i] in c.toolI18n;
    }
    WhereAppend(c.toolI18n, ToolI18nRows(newId, d.i18n), ToolI18nOf(newId));
  }

  /** Adding a tool under a free id keeps the catalog consistent. */
  lemma NewToolConsistent(c: Catalog, d: ToolDraft, newId: Id, now: Time)
    requires Consistent(c)
    requires newId !in ToolIds(c.tools)
    ensures Consistent(WithNewTool(c, d, newId, now))
    ensures ToolIds(WithNewTool(c, d, newId, now).tools) == ToolIds(c.tools) + {newId}
  {
    var a := WithNewTool(c, d, newId, now);
    var base := NewToolRow(d, newId, now);
    assert ToolIds(a.tools) == ToolIds(c.tools) + {newId} by {
      assert base in a.tools;
    }
    forall i, j | 0 <= i < j < |a.tools| ensures a.tools[i].id != a.tools[j].id {
      if j == |a.tools| - 1 {
        assert c.tools[i] in c.tools;
      }
    }
    forall r | r in a.toolI18n ensures r.toolId in ToolIds(a.tools) {
      if r !in c.toolI18n {
        var k :| 0 <= k < |ToolI18nRows(newId, d.i18n)| && ToolI18nRows(newId, d.i18n)[k] == r;
      }
    }
  }

  lemma CreateToolKeepsConsistency(c: Catalog, x: ToolInput, newId: Id, now: Time, fault: Option<Fault>)
    requires Consistent(c)
    ensures Consistent(CreateToolOutcome(c, x, newId, now, fault).after)
  {
    CreateToolSucceedsIff(c, x, newId, now, fault);
    if CreateToolOutcome(c, x, newId, now, fault).response.success {
      NewToolConsistent(c, ValidateCreate(x).value, newId, now);
    }
  }

  // ---------------------------------------------------------------- update

  /** The localized set is replaced only when a non-empty list was sent. */
  predicate ReplacesI18n(p: ToolPatch) {
    p.i18n.Present? && |p.i18n.value| > 0
  }

  /** Statements: 0 base update; then, when the localized set is replaced,
      1 delete its rows and 2 insert the new ones. */
  function UpdateToolError(c: Catalog, id: Id, p: ToolPatch, now: Time, fault: Option<Fault>): Option<DbError> {
    var c1 := c.(tools := MapWhere(c.tools, ToolIs(id), PatchUpdate(p, now)),
                 toolI18n := Where(c.toolI18n, ToolI18nNotOf(id)));
    if KeyedError(id, SetValues(p), RaiseAt(fault, 0)).Some? then KeyedError(id, SetValues(p), RaiseAt(fault, 0))
    else if !ReplacesI18n(p) then None
    else if KeyedError(id, [], RaiseAt(fault, 1)).Some? then KeyedError(id, [], RaiseAt(fault, 1))
    else ToolI18nInsertError(c1, ToolI18nRows(id, p.i18n.value), RaiseAt(fault, 2))
  }

  function WithPatchedTool(c: Catalog, id: Id, p: ToolPatch, now: Time): Catalog {
    c.(tools := MapWhere(c.tools, ToolIs(id), PatchUpdate(p, now)),
       toolI18n := if ReplacesI18n(p) then Where(c.toolI18n, ToolI18nNotOf(id)) + ToolI18nRows(id, p.i18n.value)
                   else c.toolI18n)
  }

  function UpdateToolOutcome(c: Catalog, id: Id, x: ToolInput, now: Time, fault: Option<Fault>): ToolOutcome {
    var v := ValidateUpdate(x, id);
    if v.Invalid? then ToolOutcome(c, Rejected(v.message))
    else if UpdateToolError(c, id, v.value, now, fault).Some? then ToolOutcome(c, Rejected(UpdateFailedMessage))
    else ToolOutcome(WithPatchedTool(c, id, v.value, now), Done)
  }

  /** updateToolAction: the form is validated together with the `id`
      argument, which names the row written. */
  method UpdateTool(db: CatalogDb, id: Id, x: ToolInput, now: Time, fault: Option<Fault>) returns (response: ToolResponse)
    modifies db
    ensures ToolOutcome(db.Snapshot(), response) == UpdateToolOutcome(old(db.Snapshot()), id, x, now, fault)
  {
    var v := ValidateUpdate(x, id);
    if v.Invalid? {
      return Rejected(v.message);
    }
    var p := v.value;
    var saved := db.Snapshot();
    var err := db.UpdateTool(id, SetValues(p), PatchUpdate(p, now), RaiseAt(fault, 0));
    if err.None? && ReplacesI18n(p) {
      err := db.DeleteToolI18nOf(id, RaiseAt(fault, 1));
      if err.None? {
        err := db.InsertToolI18n(ToolI18nRows(id, p.i18n.value), RaiseAt(fault, 2));
      }
    }
    if err.Some? {
      db.Restore(saved);
      return Rejected(UpdateFailedMessage);
    }
    return Done;
  }

  /** The transaction fails exactly when a statement that runs is hit by a
      fault, a supplied usage limit or tier does not fit in integer, the id
      is not uuid text or, when the localized set is replaced, the tool does
      not exist (its new localized rows have no parent). */
  lemma UpdateToolErrorIff(c: Catalog, id: Id, p: ToolPatch, now: Time, fault: Option<Fault>)
    ensures UpdateToolError(c, id, p, now, fault).None? <==>
      && RaiseAt(fault, 0).None?
      && (p.internalUsageLimit.Present? ==> FitsInt4(p.internalUsageLimit.value))
      && (p.tier.Present? ==> FitsInt4(p.tier.value))
      && PgUuidText(id)
      && (ReplacesI18n(p) ==> id in ToolIds(c.tools) && RaiseAt(fault, 1).None? && RaiseAt(fault, 2).None?)
  {
    MapWhereKeepsToolIds(c.tools, id, PatchUpdate(p, now));
    KeyedOnlyById(id, RaiseAt(fault, 1));
    if ReplacesI18n(p) {
      var rows := ToolI18nRows(id, p.i18n.value);
      assert rows[0].toolId == id;
    }
  }

  /** Update succeeds exactly when the form and id are valid, the usage
      limit fits in integer, no statement that runs is hit by a fault and, if
      localized entries were sent, the tool exists. A validated id always
      reads as a uuid. A failed update changes nothing. */
  lemma UpdateToolSucceedsIff(c: Catalog, id: Id, x: ToolInput, now: Time, fault: Option<Fault>)
    ensures var o := UpdateToolOutcome(c, id, x, now, fault);
      && (o.response.success <==>
            && ValidToolInput(x, true) && UsageLimitFits(x.internalUsageLimit) && IsUuid(id) && RaiseAt(fault, 0).None?
            && (ValidateUpdate(x, id).Valid? && ReplacesI18n(ValidateUpdate(x, id).value) ==>
                  id in ToolIds(c.tools) && RaiseAt(fault, 1).None? && RaiseAt(fault, 2).None?))
      && (o.response.success ==> o.after == WithPatchedTool(c, id, ValidateUpdate(x, id).value, now))
      && (!o.response.success ==> o.after == c && o.response.error.Some?)
  {
    ValidateUpdateIff(x, id);
    if ValidateUpdate(x, id).Valid? {
      ValidatedIntegersFit(x);
      ValidatedUuidReads(id);
      UpdateToolErrorIff(c, id, ValidateUpdate(x, id).value, now, fault);
    }
  }

  /** Updating a tool that does not exist changes nothing: without localized
      entries the action reports success (when the usage limit fits in
      integer); with them it fails. */
  lemma UpdateMissingTool(c: Catalog, id: Id, x: ToolInput, now: Time, fault: Option<Fault>)
    requires id !in ToolIds(c.tools)
    requires ValidateUpdate(x, id).Valid?
    requires fault.None?
    ensures var o := UpdateToolOutcome(c, id, x, now, fault);
      && o.after == c
      && (o.response.success <==> !ReplacesI18n(ValidateUpdate(x, id).value) && UsageLimitFits(x.internalUsageLimit))
  {
    var p := ValidateUpdate(x, id).value;
    ValidateUpdateIff(x, id);
    UpdateToolSucceedsIff(c, id, x, now, fault);
    UpdateToolErrorIff(c, id, p, now, fault);
    if !ReplacesI18n(p) {
      var ts := MapWhere(c.tools, ToolIs(id), PatchUpdate(p, now));
      forall i | 0 <= i < |c.tools| ensures ts[i] == c.tools[i] {
        assert c.tools[i] in c.tools;
      }
    }
  }

  /** The rewritten row: a column left out of the form keeps its value, a
      supplied one takes it (an empty URL becoming NULL), updated_at is the
      current time, and the id and created_at never change. Other rows are
      untouched. */
  lemma PatchedToolRow(c: Catalog, id: Id, p: ToolPatch, now: Time, i: int)
    requires 0 <= i < |c.tools|
    ensures var t := c.tools[i];
      var a := WithPatchedTool(c, id, p, now).tools;
      && |a| == |c.tools|
      && (t.id != id ==> a[i] == t)
      && (t.id == id ==>
            && a[i].id == id && a[i].createdAt == t.createdAt && a[i].updatedAt == now
            && (p.toolCode.Absent? ==> a[i].toolCode == t.toolCode)
            && (p.toolCode.Present? ==> a[i].toolCode == p.toolCode.value)
            && (p.category.Absent? ==> a[i].category == t.category)
            && (p.category.Null? ==> a[i].category.None?)
            && (p.category.Present? ==> a[i].category == Some(p.category.value))
            && (p.internalUsageLimit.Absent? ==> a[i].internalUsageLimit == t.internalUsageLimit)
            && (p.internalUsageLimit.Null? ==> a[i].internalUsageLimit.None?)
            && (p.internalUsageLimit.Present? ==> a[i].internalUsageLimit == Some(p.internalUsageLimit.value))
            && (p.isFree.Absent? ==> a[i].isFree == t.isFree)
            && (p.isFree.Present? ==> a[i].isFree == p.isFree.value)
            && (p.tier.Absent? ==> a[i].tier == t.tier)
            && (p.tier.Null? ==> a[i].tier.None?)
            && (p.tier.Present? ==> a[i].tier == Some(p.tier.value))
            && (p.isActive.Absent? ==> a[i].isActive == t.isActive)
            && (p.isActive.Present? ==> a[i].isActive == p.isActive.value)
            && (p.iconImageUrl.Absent? ==> a[i].iconImageUrl == t.iconImageUrl)
            && (p.iconImageUrl.Null? ==> a[i].iconImageUrl.None?)
            && (p.iconImageUrl == Present("") ==> a[i].iconImageUrl.None?)
            && (p.iconImageUrl.Present? && p.iconImageUrl.value != "" ==> a[i].iconImageUrl == Some(p.iconImageUrl.value)))
  {
  }

  /** The localized rows after an update: replaced by the sent entries when a
      non-empty list was sent, untouched otherwise; other tools keep theirs. */
  lemma PatchedToolChildren(c: Catalog, id: Id, p: ToolPatch, now: Time, other: Id)
    requires other != id
    ensures var a := WithPatchedTool(c, id, p, now);
      && (ReplacesI18n(p) ==> Where(a.toolI18n, ToolI18nOf(id)) == ToolI18nRows(id, p.i18n.value))
      && (!ReplacesI18n(p) ==> a.toolI18n == c.toolI18n)
      && Where(a.toolI18n, ToolI18nOf(other)) == Where(c.toolI18n, ToolI18nOf(other))
  {
    if ReplacesI18n(p) {
      WhereReplace(c.toolI18n, ToolI18nRows(id, p.i18n.value), ToolI18nNotOf(id), ToolI18nOf(id), ToolI18nOf(other));
    }
  }

  lemma PatchedToolConsistent(c: Catalog, id: Id, p: ToolPatch, now: Time)
    requires Consistent(c)
    requires ReplacesI18n(p) ==> id in ToolIds(c.tools)
    ensures Consistent(WithPatchedTool(c, id, p, now))
    ensures ToolIds(WithPatchedTool(c, id, p, now).tools) == ToolIds(c.tools)
  {
    var a := WithPatchedTool(c, id, p, now);
    MapWhereKeepsToolIds(c.tools, id, PatchUpdate(p, now));
    if ReplacesI18n(p) {
      WhereMembers(c.toolI18n, ToolI18nNotOf(id));
      forall r | r in a.toolI18n ensures r.toolId in ToolIds(a.tools) {
        if r !in c.toolI18n {
          var k :| 0 <= k < |ToolI18nRows(id, p.i18n.value)| && ToolI18nRows(id, p.i18n.value)[k] == r;
        }
      }
    }
  }

  lemma UpdateToolKeepsConsistency(c: Catalog, id: Id, x: ToolInput, now: Time, fault: Option<Fault>)
    requires Consistent(c)
    ensures Consistent(UpdateToolOutcome(c, id, x, now, fault).after)
  {
    UpdateToolSucceedsIff(c, id, x, now, fault);
    if UpdateToolOutcome(c, id, x, now, fault).response.success {
      PatchedToolConsistent(c, id, ValidateUpdate(x, id).value, now);
    }
  }

  // ---------------------------------------------------------------- delete

  function DeleteToolOutcome(c: Catalog, id: Id, fault: Option<Fault>): ToolOutcome {
    if KeyedError(id, [], RaiseAt(fault, 0)).Some? then ToolOutcome(c, Rejected(DeleteFailedMessage))
    else ToolOutcome(DeleteToolCascade(c, id), Done)
  }

  /** deleteToolAction: a physical delete, no transaction. */
  method DeleteTool(db: CatalogDb, id: Id, fault: Option<Fault>) returns (response: ToolResponse)
    modifies db
    ensures ToolOutcome(db.Snapshot(), response) == DeleteToolOutcome(old(db.Snapshot()), id, fault)
  {
    var err := db.DeleteTool(id, RaiseAt(fault, 0));
    if err.Some? {
      return Rejected(DeleteFailedMessage);
    }
    return Done;
  }

  /** A delete that is not hit by a fault succeeds whether or not the tool
      exists; afterwards no row anywhere refers to the tool, every row that
      refers to another tool is kept and the catalog stays consistent. */
  lemma DeleteToolRemovesTool(c: Catalog, id: Id, fault: Option<Fault>)
    requires Consistent(c)
    ensures var o := DeleteToolOutcome(c, id, fault);
      && (o.response.success <==> RaiseAt(fault, 0).None? && PgUuidText(id))
      && Consistent(o.after)
      && (o.response.success ==>
            && ToolIds(o.after.tools) == ToolIds(c.tools) - {id}
            && (forall r :: r in o.after.toolI18n <==> r in c.toolI18n && r.toolId != id)
            && (forall r :: r in o.after.productTools <==> r in c.productTools && r.toolId != id)
            && (forall r :: r in o.after.quotas <==> r in c.quotas && r.toolId != id)
            && o.after.products == c.products)
      && (!o.response.success ==> o.after == c)
  {
    KeyedOnlyById(id, RaiseAt(fault, 0));
    DeleteToolCascadeConsistent(c, id);
    DeleteToolCascadeRemovesReferences(c, id);
  }

  // ---------------------------------------------------------------- status toggle

  function ToggleOutcome(c: Catalog, id: Id, isActive: bool, now: Time, fault: Option<Fault>): ToolOutcome {
    if KeyedError(id, [], RaiseAt(fault, 0)).Some? then ToolOutcome(c, Rejected(ToggleFailedMessage))
    else ToolOutcome(c.(tools := MapWhere(c.tools, ToolIs(id), StatusUpdate(isActive, now))), Done)
  }

  /** toggleToolStatusAction. */
  method ToggleToolStatus(db: CatalogDb, id: Id, isActive: bool, now: Time, fault: Option<Fault>) returns (response: ToolResponse)
    modifies db
    ensures ToolOutcome(db.Snapshot(), response) == ToggleOutcome(old(db.Snapshot()), id, isActive, now, fault)
  {
    var err := db.UpdateTool(id, [], StatusUpdate(isActive, now), RaiseAt(fault, 0));
    if err.Some? {
      return Rejected(ToggleFailedMessage);
    }
    return Done;
  }

  /** The toggle sets the flag and updated_at of the named tool and nothing
      else; it is idempotent: setting the same flag again only moves
      updated_at. */
  lemma ToggleSetsFlag(c: Catalog, id: Id, isActive: bool, now: Time, later: Time)
    requires Consistent(c)
    ensures var o := ToggleOutcome(c, id, isActive, now, None);
      && (o.response.success <==> PgUuidText(id))
      && (!PgUuidText(id) ==> o.after == c)
    ensures var a := ToggleOutcome(c, id, isActive, now, None).after;
      && a.toolI18n == c.toolI18n && a.products == c.products && a.productTools == c.productTools
      && |a.tools| == |c.tools|
      && (PgUuidText(id) ==> forall i :: 0 <= i < |c.tools| ==>
            a.tools[i] == if c.tools[i].id == id then c.tools[i].(isActive := isActive, updatedAt := now) else c.tools[i])
      && Consistent(a)
      && ToggleOutcome(a, id, isActive, later, None).after == ToggleOutcome(c, id, isActive, later, None).after
  {
    KeyedOnlyById(id, RaiseAt(None, 0));
    RewrittenToolsConsistent(c, id, StatusUpdate(isActive, now));
    StatusUpdateTwice(c.tools, id, isActive, now, later);
  }

  /** Setting the flag twice is setting it once, at the later time. */
  lemma StatusUpdateTwice(ts: seq<ToolRow>, id: Id, isActive: bool, now: Time, later: Time)
    ensures MapWhere(MapWhere(ts, ToolIs(id), StatusUpdate(isActive, now)), ToolIs(id), StatusUpdate(isActive, later))
      == MapWhere(ts, ToolIs(id), StatusUpdate(isActive, later))
  {
    var twice := MapWhere(MapWhere(ts, ToolIs(id), StatusUpdate(isActive, now)), ToolIs(id), StatusUpdate(isActive, later));
    var once := MapWhere(ts, ToolIs(id), StatusUpdate(isActive, later));
    forall i | 0 <= i < |once| ensures twice[i] == once[i] {
    }
  }
}

=== FILE: tool_display.dfy ===
/** The name a tool is shown under wherever a tool is listed next to a
    product: the name of its localized row of highest language priority
    (KR, then EN, then any other), or its tool code when there is no such
    row or that row has no name. */
module ToolDisplay {
  import opened Common
  import opened DbSchema

  /** `CASE language_code WHEN 'KR' THEN 1 WHEN 'EN' THEN 2 ELSE 3 END`. */
  function Priority(l: LanguageCode): (r: nat)
    ensures r == 1 <==> l == KR
    ensures r == 2 <==> l == EN
    ensures 1 <= r <= 3
  {
    if l == KR then 1 else if l == EN then 2 else 3
  }

  function PriorityKey(r: ToolI18nRow): SortKey {
    KInt(Priority(r.languageCode))
  }

  function ToolI18nOf(id: Id): ToolI18nRow -> bool {
    (r: ToolI18nRow) => r.toolId == id
  }

  /** The row `ORDER BY priority LIMIT 1` picks among the tool's rows. */
  function ChosenI18n(toolI18n: seq<ToolI18nRow>, id: Id): Option<ToolI18nRow> {
    Head(SortBy(Where(toolI18n, ToolI18nOf(id)), PriorityKey, false))
  }

  /** `COALESCE((SELECT name ... LIMIT 1), tool_code)`. */
  function DisplayName(toolI18n: seq<ToolI18nRow>, t: ToolRow): string {
    var chosen := ChosenI18n(toolI18n, t.id);
    if chosen.Some? && chosen.value.name.Some? then chosen.value.name.value else t.toolCode
  }

  /** The chosen row belongs to the tool and no row of the tool has a higher
      priority; there is a chosen row exactly when the tool has any row. */
  lemma ChosenI18nIsHighestPriority(toolI18n: seq<ToolI18nRow>, id: Id)
    ensures ChosenI18n(toolI18n, id).None? <==> forall i :: 0 <= i < |toolI18n| ==> toolI18n[i].toolId != id
    ensures ChosenI18n(toolI18n, id).Some? ==>
      var r := ChosenI18n(toolI18n, id).value;
      && r in toolI18n && r.toolId == id
      && forall x :: x in toolI18n && x.toolId == id ==> Priority(r.languageCode) <= Priority(x.languageCode)
  {
    var own := Where(toolI18n, ToolI18nOf(id));
    WhereMembers(toolI18n, ToolI18nOf(id));
    if own == [] {
      forall i | 0 <= i < |toolI18n| ensures toolI18n[i].toolId != id {
        assert toolI18n[i] !in own;
      }
    } else {
      var sorted := SortBy(own, PriorityKey, false);
      SortByHead(own, PriorityKey, false);
      SortByMembers(own, PriorityKey, false);
      assert sorted[0] in own;
      forall x | x in toolI18n && x.toolId == id ensures Priority(sorted[0].languageCode) <= Priority(x.languageCode) {
        assert x in own;
      }
      assert own[0] in toolI18n;
    }
  }

  /** `r` is a row of tool `id` and no row of the tool has a higher priority. */
  predicate IsTopRow(toolI18n: seq<ToolI18nRow>, id: Id, r: ToolI18nRow) {
    && r in toolI18n && r.toolId == id
    && forall x :: x in toolI18n && x.toolId == id ==> Priority(r.languageCode) <= Priority(x.languageCode)
  }

  /** The display name falls back to the tool code when the tool has no
      localized row or its rows of highest priority have no name; when they
      all have one, it is the name of one of them. Otherwise it is the name
      of one of the tool's rows. A KR row wins over every other row, an EN
      row over every JP row. */
  lemma DisplayNameByPriority(toolI18n: seq<ToolI18nRow>, t: ToolRow)
    ensures (forall i :: 0 <= i < |toolI18n| ==> toolI18n[i].toolId != t.id) ==> DisplayName(toolI18n, t) == t.toolCode
    ensures (forall r :: IsTopRow(toolI18n, t.id, r) ==> r.name.None?) ==> DisplayName(toolI18n, t) == t.toolCode
    ensures (exists r :: r in toolI18n && r.toolId == t.id) && (forall r :: IsTopRow(toolI18n, t.id, r) ==> r.name.Some?)
      ==> exists r :: IsTopRow(toolI18n, t.id, r) && r.name == Some(DisplayName(toolI18n, t))
    ensures DisplayName(toolI18n, t) == t.toolCode
      || exists r :: r in toolI18n && r.toolId == t.id && r.name == Some(DisplayName(toolI18n, t))
    ensures (exists r :: r in toolI18n && r.toolId == t.id && r.languageCode == KR)
      ==> ChosenI18n(toolI18n, t.id).Some? && ChosenI18n(toolI18n, t.id).value.languageCode == KR
    ensures (forall r :: r in toolI18n && r.toolId == t.id ==> r.languageCode != KR)
      && (exists r :: r in toolI18n && r.toolId == t.id && r.languageCode == EN)
      ==> ChosenI18n(toolI18n, t.id).Some? && ChosenI18n(toolI18n, t.id).value.languageCode == EN
  {
    ChosenI18nIsHighestPriority(toolI18n, t.id);
    if exists r :: r in toolI18n && r.toolId == t.id {
      var r :| r in toolI18n && r.toolId == t.id;
      var i :| 0 <= i < |toolI18n| && toolI18n[i] == r;
      assert IsTopRow(toolI18n, t.id, ChosenI18n(toolI18n, t.id).value);
    }
  }

  /** A tool with a row in Korean, every Korean row named, shows the name of
      one of its Korean rows. */
  lemma DisplayNameFromKr(toolI18n: seq<ToolI18nRow>, t: ToolRow)
    requires exists r :: r in toolI18n && r.toolId == t.id && r.languageCode == KR
    requires forall r :: r in toolI18n && r.toolId == t.id && r.languageCode == KR ==> r.name.Some?
    ensures exists r :: r in toolI18n && r.toolId == t.id && r.languageCode == KR && r.name == Some(DisplayName(toolI18n, t))
  {
    DisplayNameByPriority(toolI18n, t);
    ChosenI18nIsHighestPriority(toolI18n, t.id);
  }

  /** A tool with no row in Korean and a row in English, every English row
      named, shows the name of one of its English rows. */
  lemma DisplayNameFromEn(toolI18n: seq<ToolI18nRow>, t: ToolRow)
    requires forall r :: r in toolI18n && r.toolId == t.id ==> r.languageCode != KR
    requires exists r :: r in toolI18n && r.toolId == t.id && r.languageCode == EN
    requires forall r :: r in toolI18n && r.toolId == t.id && r.languageCode == EN ==> r.name.Some?
    ensures exists r :: r in toolI18n && r.toolId == t.id && r.languageCode == EN && r.name == Some(DisplayName(toolI18n, t))
  {
    DisplayNameByPriority(toolI18n, t);
    ChosenI18nIsHighestPriority(toolI18n, t.id);
  }
}

=== FILE: tool_queries.dfy ===
/** The tool list page, the tool detail read and the workflow options of the
    tool form. */
module ToolQueries {
  import opened Common
  import opened DbSchema
  import opened CatalogStore
  import opened ToolDisplay
  import opened PgInput

  // ---------------------------------------------------------------- list parameters

  /** The list query's parameters; `None` is a parameter left out. */
  datatype ToolListParams = ToolListParams(
    search: Option<string>,
    status: Option<string>,
    page: Option<int>,
    pageSize: Option<int>,
    sortBy: Option<string>,
    sortOrder: Option<string>,
    locale: Option<string>)

  /** The language whose localized row a list row shows: English for 'en',
      Korean for every other locale. */
  function ToolLanguage(locale: string): (r: LanguageCode)
    ensures r == EN <==> locale == "en"
    ensures r == KR <==> locale != "en"
  {
    if locale == "en" then EN else KR
  }

  /** 'active' and 'inactive' filter on the active flag; any other status
      keeps every tool. */
  function StatusFilter(status: string): (f: ToolRow -> bool)
    ensures forall t :: f(t) <==> (status == "active" ==> t.isActive) && (status == "inactive" ==> !t.isActive)
  {
    (t: ToolRow) => if status == "active" then t.isActive else if status == "inactive" then !t.isActive else true
  }

  // ---------------------------------------------------------------- search

  /** `name ILIKE '%q%' OR description ILIKE '%q%'` on a localized row. */
  function I18nMatchesSearch(q: string): ToolI18nRow -> bool {
    (r: ToolI18nRow) => NullableContainsIgnoringCase(r.name, q) || ContainsIgnoringCase(r.description, q)
  }

  /** The tool ids of the localized rows, in any language, a search matches. */
  function SearchHits(toolI18n: seq<ToolI18nRow>, q: string): (r: seq<Id>)
    ensures forall x :: x in r <==> exists i :: 0 <= i < |toolI18n| && toolI18n[i].toolId == x && I18nMatchesSearch(q)(toolI18n[i])
  {
    var matching := Where(toolI18n, I18nMatchesSearch(q));
    var ids := seq(|matching|, i requires 0 <= i < |matching| => matching[i].toolId);
    assert forall i :: 0 <= i < |toolI18n| && I18nMatchesSearch(q)(toolI18n[i]) ==> toolI18n[i].toolId in ids by {
      forall i | 0 <= i < |toolI18n| && I18nMatchesSearch(q)(toolI18n[i]) ensures toolI18n[i].toolId in ids {
        var k :| 0 <= k < |matching| && matching[k] == toolI18n[i];
        assert ids[k] == toolI18n[i].toolId;
      }
    }
    ids
  }

  /** The search condition: `tool_code ILIKE '%q%' OR id IN (hits)`, or the
      code condition alone when there are no hits. */
  function SearchFilter(q: string, hits: seq<Id>): ToolRow -> bool {
    if |hits| > 0 then (t: ToolRow) => ContainsIgnoringCase(t.toolCode, q) || t.id in hits
    else (t: ToolRow) => ContainsIgnoringCase(t.toolCode, q)
  }

  /** The WHERE clause of the count and of the page. */
  function ListFilter(status: string, q: string, hits: seq<Id>): ToolRow -> bool {
    (t: ToolRow) => StatusFilter(status)(t) && (q != "" ==> SearchFilter(q, hits)(t))
  }

  /** Some localized row of the tool, in any language, has a name or a
      description containing the search text. */
  predicate LocalizedMatch(toolI18n: seq<ToolI18nRow>, id: Id, q: string) {
    exists i :: 0 <= i < |toolI18n| && toolI18n[i].toolId == id && I18nMatchesSearch(q)(toolI18n[i])
  }

  /** Whichever branch the query builds, a search admits exactly the tools
      whose code contains the text, ignoring case, or that have a localized
      row in any language (not only the displayed one) whose name or
      description contains it. */
  lemma SearchAdmits(toolI18n: seq<ToolI18nRow>, q: string, t: ToolRow)
    ensures SearchFilter(q, SearchHits(toolI18n, q))(t) <==>
      ContainsIgnoringCase(t.toolCode, q) || LocalizedMatch(toolI18n, t.id, q)
  {
    var hits := SearchHits(toolI18n, q);
    if LocalizedMatch(toolI18n, t.id, q) {
      assert t.id in hits;
    }
  }

  // ---------------------------------------------------------------- the join

  /** A tool and the localized row the left join pairs it with, if any. */
  type ToolListRow = Joined<ToolRow, ToolI18nRow>

  /** The join condition: the same tool, the locale's language. */
  function JoinsWith(language: LanguageCode): ToolRow -> ToolI18nRow -> bool {
    (t: ToolRow) => (r: ToolI18nRow) => r.toolId == t.id && r.languageCode == language
  }

  /** The ORDER BY expression: the localized name (COLLATE "C"), the code,
      the lower-cased category, the active flag, the tier, or the creation
      time, which is also what any other value means. A missing name,
      category or tier is NULL. */
  function ListSortKey(sortBy: string): ToolListRow -> SortKey {
    (r: ToolListRow) =>
      if sortBy == "name" then (if r.right.Some? && r.right.value.name.Some? then KText(r.right.value.name.value) else KNull)
      else if sortBy == "toolCode" then KText(r.left.toolCode)
      else if sortBy == "category" then (if r.left.category.Some? then KText(LowerText(CategoryText(r.left.category.value))) else KNull)
      else if sortBy == "isActive" then KBool(r.left.isActive)
      else if sortBy == "tier" then (if r.left.tier.Some? then KInt(r.left.tier.value) else KNull)
      else KInt(r.left.createdAt)
  }

  // ---------------------------------------------------------------- the list

  /** One row of the list page; `name` is null when the tool has no
      localized row in the language or that row has no name. */
  datatype ToolListItem = ToolListItem(
    id: Id,
    toolCode: string,
    category: Option<ToolCategory>,
    isActive: bool,
    isFree: bool,
    tier: Option<int>,
    createdAt: Time,
    updatedAt: Time,
    name: Option<string>)

  datatype ToolListPage = ToolListPage(data: seq<ToolListItem>, total: nat, page: int, pageSize: int)

  function ItemOf(r: ToolListRow): ToolListItem {
    ToolListItem(r.left.id, r.left.toolCode, r.left.category, r.left.isActive, r.left.isFree, r.left.tier,
                 r.left.createdAt, r.left.updatedAt, if r.right.Some? then r.right.value.name else None)
  }

  function Items(rs: seq<ToolListRow>): (r: seq<ToolListItem>)
    ensures |r| == |rs|
    ensures forall i :: 0 <= i < |rs| ==> r[i] == ItemOf(rs[i])
  {
    seq(|rs|, i requires 0 <= i < |rs| => ItemOf(rs[i]))
  }

  /** The filtered tools joined with their localized rows, before ordering. */
  function JoinedListRows(c: Catalog, params: ToolListParams): seq<ToolListRow> {
    var search := OrElse(params.search, "");
    var filter := ListFilter(OrElse(params.status, "all"), search, SearchHits(c.toolI18n, search));
    LeftJoin(Where(c.tools, filter), c.toolI18n, JoinsWith(ToolLanguage(OrElse(params.locale, "ko"))))
  }

  /** The joined rows in the requested order, the list pages are cut from. */
  function OrderedListRows(c: Catalog, params: ToolListParams): seq<ToolListRow> {
    SortBy(JoinedListRows(c, params), ListSortKey(OrElse(params.sortBy, "createdAt")), OrElse(params.sortOrder, "desc") == "desc")
  }

  /** getToolList. The count runs over the same join as the page. A
      negative LIMIT or OFFSET makes the page query fail. */
  function ToolList(c: Catalog, params: ToolListParams): QueryResult<ToolListPage> {
    var page := OrElse(params.page, 1);
    var pageSize := OrElse(params.pageSize, 20);
    var rows := PageOf(OrderedListRows(c, params), page, pageSize);
    if rows.QueryFailed? then QueryFailed(rows.error)
    else Rows(ToolListPage(Items(rows.value), |JoinedListRows(c, params)|, page, pageSize))
  }

  /** A row a list may show: a tool passing the filter, paired with a
      localized row in the language, or with nothing when it has none. */
  predicate ShownRow(c: Catalog, filter: ToolRow -> bool, language: LanguageCode, row: ToolListRow) {
    row.left in c.tools && filter(row.left) && JoinedRow(c.toolI18n, JoinsWith(language), row)
  }

  /** Filtering, joining and ordering keeps exactly the rows the list may
      show, a row for every tool passing the filter, and a row for every
      such tool paired with each localized row joining it. */
  lemma SortedJoinShown(c: Catalog, filter: ToolRow -> bool, language: LanguageCode, key: ToolListRow -> SortKey, desc: bool)
    ensures var rows := SortBy(LeftJoin(Where(c.tools, filter), c.toolI18n, JoinsWith(language)), key, desc);
      && (forall row :: row in rows ==> ShownRow(c, filter, language, row))
      && (forall t :: t in c.tools && filter(t) ==> exists row :: row in rows && row.left == t)
      && (forall t, r :: t in c.tools && filter(t) && r in c.toolI18n && JoinsWith(language)(t)(r) ==>
            Joined(t, Some(r)) in rows)
  {
    var filtered := Where(c.tools, filter);
    var joined := LeftJoin(filtered, c.toolI18n, JoinsWith(language));
    var rows := SortBy(joined, key, desc);
    SortByMembers(joined, key, desc);
    LeftJoinRows(filtered, c.toolI18n, JoinsWith(language));
    WhereMembers(c.tools, filter);
    forall t | t in c.tools && filter(t) ensures exists row :: row in rows && row.left == t {
      assert t in filtered;
      var row :| row in joined && row.left == t;
      assert row in rows;
    }
    forall t, r | t in c.tools && filter(t) && r in c.toolI18n && JoinsWith(language)(t)(r)
      ensures Joined(t, Some(r)) in rows
    {
      SortedJoinCount(c, filter, language, key, desc, t, r);
      MulPositive(multiset(c.tools)[t], multiset(c.toolI18n)[r]);
      assert Pairings(multiset(c.tools)[t], multiset(c.toolI18n)[r]) > 0;
    }
  }

  /** How many times the list shows a row: a tool passing the filter paired
      with a localized row joining it once per occurrence of each, and paired
      with nothing once per occurrence when no localized row joins it. */
  lemma SortedJoinCount(c: Catalog, filter: ToolRow -> bool, language: LanguageCode, key: ToolListRow -> SortKey, desc: bool,
                        t: ToolRow, r: ToolI18nRow)
    ensures var rows := multiset(SortBy(LeftJoin(Where(c.tools, filter), c.toolI18n, JoinsWith(language)), key, desc));
      && rows[Joined(t, Some(r))] == (if filter(t) && JoinsWith(language)(t)(r) then Pairings(multiset(c.tools)[t], multiset(c.toolI18n)[r]) else 0)
      && rows[Joined(t, None)] == (if filter(t) && Where(c.toolI18n, JoinsWith(language)(t)) == [] then multiset(c.tools)[t] else 0)
  {
    var filtered := Where(c.tools, filter);
    var joined := LeftJoin(filtered, c.toolI18n, JoinsWith(language));
    SortByCorrect(joined, key, desc);
    LeftJoinPairCount(filtered, c.toolI18n, JoinsWith(language), t, r);
    LeftJoinUnpairedCount(filtered, c.toolI18n, JoinsWith(language), t);
    WhereCount(c.tools, filter, t);
  }

  /** The query fails exactly when the window is negative. Otherwise the
      total counts the rows of the join, not the tools: at least the number
      of tools passing the filters, exactly that number when no tool has two
      localized rows in the language. The page holds the rows of the ordered
      list from the offset on, at most `pageSize` of them, and the page
      parameters are echoed. */
  lemma ToolListCounts(c: Catalog, params: ToolListParams)
    ensures var page := OrElse(params.page, 1);
      var pageSize := OrElse(params.pageSize, 20);
      var search := OrElse(params.search, "");
      var filtered := Where(c.tools, ListFilter(OrElse(params.status, "all"), search, SearchHits(c.toolI18n, search)));
      var language := ToolLanguage(OrElse(params.locale, "ko"));
      var r := ToolList(c, params);
      && (r.Rows? <==> pageSize >= 0 && (page >= 1 || pageSize == 0))
      && (r.Rows? ==>
            && r.value.page == page && r.value.pageSize == pageSize
            && |r.value.data| <= pageSize
            && |r.value.data| == PageLength(r.value.total, page, pageSize)
            && r.value.total == |OrderedListRows(c, params)|
            && r.value.total >= |filtered|
            && ((forall i :: 0 <= i < |filtered| ==> |Where(c.toolI18n, JoinsWith(language)(filtered[i]))| <= 1) ==>
                  r.value.total == |filtered|))
  {
    var search := OrElse(params.search, "");
    var filtered := Where(c.tools, ListFilter(OrElse(params.status, "all"), search, SearchHits(c.toolI18n, search)));
    SortByLength(JoinedListRows(c, params), ListSortKey(OrElse(params.sortBy, "createdAt")), OrElse(params.sortOrder, "desc") == "desc");
    assert |OrderedListRows(c, params)| == |JoinedListRows(c, params)|;
    LeftJoinLength(filtered, c.toolI18n, JoinsWith(ToolLanguage(OrElse(params.locale, "ko"))));
  }

  /** Row `i` of a page is the item of row `offset + i` of the ordered list,
      and so shows a tool passing the status and search filters, with the
      name of its localized row in the locale's language, or no name when it
      has none. */
  lemma ToolListPageRow(c: Catalog, params: ToolListParams, i: int)
    requires ToolList(c, params).Rows?
    requires 0 <= i < |ToolList(c, params).value.data|
    ensures var offset := Offset(OrElse(params.page, 1), OrElse(params.pageSize, 20));
      && 0 <= offset + i < |OrderedListRows(c, params)|
      && ToolList(c, params).value.data[i] == ItemOf(OrderedListRows(c, params)[offset + i])
    ensures exists row :: && ShownRow(c, ListFilter(OrElse(params.status, "all"), OrElse(params.search, ""),
                                                    SearchHits(c.toolI18n, OrElse(params.search, ""))),
                                      ToolLanguage(OrElse(params.locale, "ko")), row)
                          && ToolList(c, params).value.data[i] == ItemOf(row)
  {
    var search := OrElse(params.search, "");
    var filter := ListFilter(OrElse(params.status, "all"), search, SearchHits(c.toolI18n, search));
    var language := ToolLanguage(OrElse(params.locale, "ko"));
    var key := ListSortKey(OrElse(params.sortBy, "createdAt"));
    var desc := OrElse(params.sortOrder, "desc") == "desc";
    var ordered := OrderedListRows(c, params);
    SortedJoinShown(c, filter, language, key, desc);
    var window := PageOf(ordered, OrElse(params.page, 1), OrElse(params.pageSize, 20));
    var row := window.value[i];
    assert row in ordered;
  }

  /** The ordered list the pages are cut from is ordered by the requested
      key, any order other than 'desc' being ascending. It holds every tool
      passing the filters, each paired with every localized row joining it,
      and each row as many times as the filter and join yield it. */
  lemma ToolListOrder(c: Catalog, params: ToolListParams)
    ensures var search := OrElse(params.search, "");
      var filter := ListFilter(OrElse(params.status, "all"), search, SearchHits(c.toolI18n, search));
      var language := ToolLanguage(OrElse(params.locale, "ko"));
      var rows := OrderedListRows(c, params);
      && SortedBy(rows, ListSortKey(OrElse(params.sortBy, "createdAt")), OrElse(params.sortOrder, "desc") == "desc")
      && multiset(rows) == multiset(JoinedListRows(c, params))
      && (forall t :: t in c.tools && filter(t) ==> exists row :: row in rows && row.left == t)
      && (forall t, r :: t in c.tools && filter(t) && r in c.toolI18n && JoinsWith(language)(t)(r) ==>
            Joined(t, Some(r)) in rows)
  {
    var search := OrElse(params.search, "");
    var filter := ListFilter(OrElse(params.status, "all"), search, SearchHits(c.toolI18n, search));
    var key := ListSortKey(OrElse(params.sortBy, "createdAt"));
    var desc := OrElse(params.sortOrder, "desc") == "desc";
    SortByCorrect(JoinedListRows(c, params), key, desc);
    SortedJoinShown(c, filter, ToolLanguage(OrElse(params.locale, "ko")), key, desc);
  }

  // ---------------------------------------------------------------- the detail

  datatype ToolDetail = ToolDetail(tool: ToolRow, i18n: seq<ToolI18nRow>)

  /** `ORDER BY language_code`: enum declaration order. */
  function LanguageKey(r: ToolI18nRow): SortKey {
    KInt(LanguageRank(r.languageCode))
  }

  /** getToolById: the first tool with the id, and all its localized rows
      ordered by language. */
  function ToolById(c: Catalog, id: Id): Option<ToolDetail> {
    var t := First(c.tools, ToolIs(id));
    if t.None? then None
    else Some(ToolDetail(t.value, SortBy(Where(c.toolI18n, ToolI18nOf(id)), LanguageKey, false)))
  }

  /** getToolById as the database answers it: text that is not a uuid makes
      the call reject. */
  function FetchToolById(c: Catalog, id: Id): QueryResult<Option<ToolDetail>> {
    if PgUuidText(id) then Rows(ToolById(c, id)) else QueryFailed(InvalidInput("uuid", id))
  }

  /** The call rejects exactly when the id is not uuid text (a short id never
      is); otherwise the detail is absent exactly when there is no tool with
      the id, and present it is that tool with exactly its localized rows
      (every one of them, in every language), in KR, EN, JP order. */
  lemma ToolByIdFound(c: Catalog, id: Id)
    ensures FetchToolById(c, id).QueryFailed? <==> !PgUuidText(id)
    ensures |id| < 32 ==> FetchToolById(c, id) == QueryFailed(InvalidInput("uuid", id))
    ensures FetchToolById(c, id).Rows? ==> FetchToolById(c, id).value == ToolById(c, id)
    ensures ToolById(c, id).None? <==> id !in ToolIds(c.tools)
    ensures ToolById(c, id).Some? ==>
      var d := ToolById(c, id).value;
      && d.tool in c.tools && d.tool.id == id
      && multiset(d.i18n) == multiset(Where(c.toolI18n, ToolI18nOf(id)))
      && (forall r :: r in d.i18n <==> r in c.toolI18n && r.toolId == id)
      && (forall i, j :: 0 <= i < j < |d.i18n| ==> LanguageRank(d.i18n[i].languageCode) <= LanguageRank(d.i18n[j].languageCode))
  {
    if id in ToolIds(c.tools) {
      var t :| t in c.tools && t.id == id;
      var i :| 0 <= i < |c.tools| && c.tools[i] == t;
      assert ToolIs(id)(c.tools[i]);
    }
    if |id| < 32 {
      ShortTextIsNoUuid(id);
    }
    var own := Where(c.toolI18n, ToolI18nOf(id));
    var sorted := SortBy(own, LanguageKey, false);
    SortByCorrect(own, LanguageKey, false);
    SortByMembers(own, LanguageKey, false);
    WhereMembers(c.toolI18n, ToolI18nOf(id));
    forall i, j | 0 <= i < j < |sorted| ensures LanguageRank(sorted[i].languageCode) <= LanguageRank(sorted[j].languageCode) {
      assert Ordered(LanguageKey(sorted[i]), LanguageKey(sorted[j]), false);
    }
  }

  // ---------------------------------------------------------------- workflow options

  datatype WorkflowOption = WorkflowOption(id: Id, workflowId: Option<string>, name: Option<string>)

  function IsActiveWorkflow(w: WorkflowRow): bool { w.isActive }

  /** `ORDER BY name`: a missing name sorts last. */
  function NameKey(name: Option<string>): SortKey {
    if name.Some? then KText(name.value) else KNull
  }

  function WorkflowNameKey(w: WorkflowRow): SortKey {
    NameKey(w.name)
  }

  function OptionOf(w: WorkflowRow): WorkflowOption {
    WorkflowOption(w.id, w.workflowId, w.name)
  }

  /** getWorkflowOptions. */
  function WorkflowOptions(workflows: seq<WorkflowRow>): seq<WorkflowOption> {
    var rows := SortBy(Where(workflows, IsActiveWorkflow), WorkflowNameKey, false);
    seq(|rows|, i requires 0 <= i < |rows| => OptionOf(rows[i]))
  }

  /** The options are the active workflows, one per row. */
  lemma WorkflowOptionsAreActive(workflows: seq<WorkflowRow>)
    ensures var r := WorkflowOptions(workflows);
      && |r| == |Where(workflows, IsActiveWorkflow)|
      && (forall o :: o in r ==> exists w :: w in workflows && w.isActive && OptionOf(w) == o)
      && (forall w :: w in workflows && w.isActive ==> OptionOf(w) in r)
  {
    var active := Where(workflows, IsActiveWorkflow);
    var rows := SortBy(active, WorkflowNameKey, false);
    var r := WorkflowOptions(workflows);
    SortByLength(active, WorkflowNameKey, false);
    SortByMembers(active, WorkflowNameKey, false);
    forall o | o in r ensures exists w :: w in workflows && w.isActive && OptionOf(w) == o {
      var k :| 0 <= k < |r| && r[k] == o;
      assert rows[k] in active;
    }
    forall w | w in workflows && w.isActive ensures OptionOf(w) in r {
      WhereMembers(workflows, IsActiveWorkflow);
      assert w in rows;
      var k :| 0 <= k < |rows| && rows[k] == w;
      assert r[k] == OptionOf(w);
    }
  }

  /** The options are ordered by name, unnamed workflows last. */
  lemma WorkflowOptionsByName(workflows: seq<WorkflowRow>)
    ensures var r := WorkflowOptions(workflows);
      && (forall i, j :: 0 <= i < j < |r| ==> Ordered(NameKey(r[i].name), NameKey(r[j].name), false))
      && (forall i, j :: 0 <= i < j < |r| && r[i].name.None? ==> r[j].name.None?)
  {
    var active := Where(workflows, IsActiveWorkflow);
    var rows := SortBy(active, WorkflowNameKey, false);
    var r := WorkflowOptions(workflows);
    SortByCorrect(active, WorkflowNameKey, false);
    forall i, j | 0 <= i < j < |r| ensures Ordered(NameKey(r[i].name), NameKey(r[j].name), false) {
      assert Ordered(WorkflowNameKey(rows[i]), WorkflowNameKey(rows[j]), false);
    }
  }
}

=== FILE: tool_schema.dfy ===
/** The validation of the tool form: a create schema whose fields are
    checked in declaration order, the first failing check giving the message
    the action reports, and an update schema that makes every field optional
    and adds a required uuid id. Messages are the validator's (zod 3) own
    texts or the form's custom ones. */
module ToolSchema {
  import opened Common
  import opened DbSchema

  // ---------------------------------------------------------------- submitted values

  /** One submitted localized entry. */
  datatype ToolI18nInput = ToolI18nInput(languageCode: Field<string>, name: Field<string>, description: Field<string>)

  /** The submitted tool form. Numbers are real so that a fractional value,
      which the schema rejects, can be submitted. */
  datatype ToolInput = ToolInput(
    category: Field<string>,
    toolCode: Field<string>,
    internalUsageLimit: Field<real>,
    isFree: Field<bool>,
    tier: Field<real>,
    iconImageUrl: Field<string>,
    isActive: Field<bool>,
    i18n: Field<seq<ToolI18nInput>>)

  // ---------------------------------------------------------------- validated values

  datatype ToolI18nEntry = ToolI18nEntry(languageCode: LanguageCode, name: string, description: string)

  /** What the create schema yields: defaults filled in. `iconImageUrl` keeps
      the difference between left out, null, "" and a URL. */
  datatype ToolDraft = ToolDraft(
    category: Option<ToolCategory>,
    toolCode: string,
    internalUsageLimit: Option<int>,
    isFree: bool,
    tier: Option<int>,
    iconImageUrl: Field<string>,
    isActive: bool,
    i18n: seq<ToolI18nEntry>)

  /** What the update schema yields: a field left out stays left out. */
  datatype ToolPatch = ToolPatch(
    category: Field<ToolCategory>,
    toolCode: Field<string>,
    internalUsageLimit: Field<int>,
    isFree: Field<bool>,
    tier: Field<int>,
    iconImageUrl: Field<string>,
    isActive: Field<bool>,
    i18n: Field<seq<ToolI18nEntry>>,
    id: string)

  datatype Validated<T> = Valid(value: T) | Invalid(message: string)

  // ---------------------------------------------------------------- messages

  const RequiredMessage := "Required"
  const ToolNameMessage := "도구명을 입력해주세요"
  const ToolCodeMessage := "도구 코드를 입력해주세요"
  const I18nMinMessage := "최소 하나의 언어 정보가 필요합니다"
  const NotIntegerMessage := "Expected integer, received float"
  const NotPositiveMessage := "Number must be greater than 0"
  const BelowZeroMessage := "Number must be greater than or equal to 0"
  const AboveFiveMessage := "Number must be less than or equal to 5"
  const InvalidUrlMessage := "Invalid url"
  const InvalidUuidMessage := "Invalid uuid"
  const LanguageOptions := "'KR' | 'EN' | 'JP'"
  const CategoryOptions := "'SEARCH' | 'GENERATION' | 'OPERATION' | 'DOCUMENTS' | 'UTILITY' | 'KNOWLEDGE_BASE' | 'AMUSEMENT'"

  function NullMessage(expected: string): string {
    "Expected " + expected + ", received null"
  }

  function EnumMessage(options: string, received: string): string {
    "Invalid enum value. Expected " + options + ", received '" + received + "'"
  }

  // ---------------------------------------------------------------- formats

  predicate IsSchemeChar(c: char) {
    'a' <= c <= 'z' || 'A' <= c <= 'Z' || '0' <= c <= '9' || c == '+' || c == '-' || c == '.'
  }

  /** An absolute URL: a scheme (a letter, then letters, digits, '+', '-'
      or '.'), a colon and a non-empty remainder. */
  predicate IsUrl(s: string) {
    exists i :: 1 <= i < |s| - 1 && s[i] == ':'
      && ('a' <= s[0] <= 'z' || 'A' <= s[0] <= 'Z')
      && forall j :: 0 <= j < i ==> IsSchemeChar(s[j])
  }

  predicate IsInteger(x: real) {
    x == x.Floor as real
  }

  // ---------------------------------------------------------------- one field at a time

  /** The first issue of one field, if any. `optional` is the update schema's
      "left out is fine". */
  function CategoryIssue(f: Field<string>, optional: bool): Option<string> {
    match f
    case Absent => if optional then None else Some(RequiredMessage)
    case Null => None
    case Present(s) => if ParseCategory(s).Some? then None else Some(EnumMessage(CategoryOptions, s))
  }

  function ToolCodeIssue(f: Field<string>, optional: bool): Option<string> {
    match f
    case Absent => if optional then None else Some(RequiredMessage)
    case Null => Some(NullMessage("string"))
    case Present(s) => if |s| >= 1 then None else Some(ToolCodeMessage)
  }

  /** `int().positive()`, optional and nullable. */
  function UsageLimitIssue(f: Field<real>): Option<string> {
    match f
    case Present(x) =>
      if !IsInteger(x) then Some(NotIntegerMessage)
      else if x <= 0.0 then Some(NotPositiveMessage)
      else None
    case _ => None
  }

  /** A boolean with a default: left out is fine, null is not. */
  function FlagIssue(f: Field<bool>): Option<string> {
    if f.Null? then Some(NullMessage("boolean")) else None
  }

  /** `int().min(0).max(5)`, optional and nullable. */
  function TierIssue(f: Field<real>): Option<string> {
    match f
    case Present(x) =>
      if !IsInteger(x) then Some(NotIntegerMessage)
      else if x < 0.0 then Some(BelowZeroMessage)
      else if x > 5.0 then Some(AboveFiveMessage)
      else None
    case _ => None
  }

  /** `string().url().optional().nullable().or(literal(""))`. */
  function IconUrlIssue(f: Field<string>): Option<string> {
    if f.Present? && f.value != "" && !IsUrl(f.value) then Some(InvalidUrlMessage) else None
  }

  function EntryIssue(x: ToolI18nInput): Option<string> {
    if x.languageCode.Absent? then Some(RequiredMessage)
    else if x.languageCode.Null? then Some(NullMessage(LanguageOptions))
    else if ParseLanguage(x.languageCode.value).None? then Some(EnumMessage(LanguageOptions, x.languageCode.value))
    else if x.name.Absent? then Some(RequiredMessage)
    else if x.name.Null? then Some(NullMessage("string"))
    else if x.name.value == "" then Some(ToolNameMessage)
    else if x.description.Null? then Some(NullMessage("string"))
    else None
  }

  /** The array's length is checked before its elements. */
  function I18nIssue(f: Field<seq<ToolI18nInput>>, optional: bool): Option<string> {
    match f
    case Absent => if optional then None else Some(RequiredMessage)
    case Null => Some(NullMessage("array"))
    case Present(xs) =>
      if |xs| < 1 then Some(I18nMinMessage)
      else
        var bad := First(xs, (x: ToolI18nInput) => EntryIssue(x).Some?);
        if bad.Some? then EntryIssue(bad.value) else None
  }

  /** The first issue in declaration order. */
  function FirstIssue(issues: seq<Option<string>>): (r: Option<string>)
    ensures r.None? <==> forall i :: 0 <= i < |issues| ==> issues[i].None?
    ensures r.Some? ==> exists i :: 0 <= i < |issues| && issues[i] == r && forall j :: 0 <= j < i ==> issues[j].None?
  {
    if issues == [] then None
    else if issues[0].Some? then issues[0]
    else
      var rest := FirstIssue(issues[1..]);
      assert forall i :: 1 <= i < |issues| ==> issues[i] == issues[1..][i - 1];
      rest
  }

  /** The first check that fails decides the message. */
  lemma FirstIssueAt(issues: seq<Option<string>>, k: nat)
    requires k < |issues| && issues[k].Some?
    requires forall j :: 0 <= j < k ==> issues[j].None?
    ensures FirstIssue(issues) == issues[k]
  {
    if k > 0 {
      FirstIssueAt(issues[1..], k - 1);
    }
  }

  /** `FirstIssue` of a sequence with one more check at its end. */
  lemma FirstIssueAppend(issues: seq<Option<string>>, last: Option<string>)
    ensures FirstIssue(issues + [last]) == if FirstIssue(issues).Some? then FirstIssue(issues) else last
  {
    if issues != [] {
      assert (issues + [last])[1..] == issues[1..] + [last];
      FirstIssueAppend(issues[1..], last);
    }
  }

  function FieldIssues(x: ToolInput, optional: bool): seq<Option<string>> {
    [CategoryIssue(x.category, optional), ToolCodeIssue(x.toolCode, optional), UsageLimitIssue(x.internalUsageLimit),
     FlagIssue(x.isFree), TierIssue(x.tier), IconUrlIssue(x.iconImageUrl), FlagIssue(x.isActive),
     I18nIssue(x.i18n, optional)]
  }

  /** No field of the form has an issue. */
  predicate NoFieldIssue(x: ToolInput, optional: bool) {
    && CategoryIssue(x.category, optional).None? && ToolCodeIssue(x.toolCode, optional).None?
    && UsageLimitIssue(x.internalUsageLimit).None? && FlagIssue(x.isFree).None? && TierIssue(x.tier).None?
    && IconUrlIssue(x.iconImageUrl).None? && FlagIssue(x.isActive).None? && I18nIssue(x.i18n, optional).None?
  }

  lemma FieldIssuesNone(x: ToolInput, optional: bool)
    ensures FirstIssue(FieldIssues(x, optional)).None? <==> NoFieldIssue(x, optional)
  {
    var s := FieldIssues(x, optional);
    assert s[0] == CategoryIssue(x.category, optional) && s[1] == ToolCodeIssue(x.toolCode, optional);
    assert s[2] == UsageLimitIssue(x.internalUsageLimit) && s[3] == FlagIssue(x.isFree) && s[4] == TierIssue(x.tier);
    assert s[5] == IconUrlIssue(x.iconImageUrl) && s[6] == FlagIssue(x.isActive) && s[7] == I18nIssue(x.i18n, optional);
  }

  /** The check of the update's id, which comes after every field. */
  function IdIssue(id: string): Option<string> {
    if IsUuid(id) then None else Some(InvalidUuidMessage)
  }

  // ---------------------------------------------------------------- the parsed values

  function EntryOf(x: ToolI18nInput): ToolI18nEntry
    requires EntryIssue(x).None?
  {
    ToolI18nEntry(ParseLanguage(x.languageCode.value).value, x.name.value,
                  if x.description.Present? then x.description.value else "")
  }

  function EntriesOf(xs: seq<ToolI18nInput>): (r: seq<ToolI18nEntry>)
    requires forall i :: 0 <= i < |xs| ==> EntryIssue(xs[i]).None?
    ensures |r| == |xs|
    ensures forall i :: 0 <= i < |xs| ==> r[i] == EntryOf(xs[i])
  {
    seq(|xs|, i requires 0 <= i < |xs| => EntryOf(xs[i]))
  }

  function IntOf(f: Field<real>): Field<int> {
    match f
    case Absent => Absent
    case Null => Null
    case Present(x) => Present(x.Floor)
  }

  function OptionOf<T>(f: Field<T>): Option<T> {
    if f.Present? then Some(f.value) else None
  }

  function CategoryOf(f: Field<string>): Field<ToolCategory>
    requires f.Present? ==> ParseCategory(f.value).Some?
  {
    match f
    case Absent => Absent
    case Null => Null
    case Present(s) => Present(ParseCategory(s).value)
  }

  function I18nEntriesOf(f: Field<seq<ToolI18nInput>>): Field<seq<ToolI18nEntry>>
    requires I18nIssue(f, true).None?
  {
    match f
    case Absent => Absent
    case Null => Null
    case Present(xs) =>
      assert forall i :: 0 <= i < |xs| ==> EntryIssue(xs[i]).None?;
      Present(EntriesOf(xs))
  }

  /** createToolSchema.safeParse. */
  function ValidateCreate(x: ToolInput): Validated<ToolDraft> {
    FieldIssuesNone(x, false);
    var issue := FirstIssue(FieldIssues(x, false));
    if issue.Some? then Invalid(issue.value)
    else
      Valid(ToolDraft(OptionOf(CategoryOf(x.category)), x.toolCode.value, OptionOf(IntOf(x.internalUsageLimit)),
                      if x.isFree.Present? then x.isFree.value else false,
                      OptionOf(IntOf(x.tier)), x.iconImageUrl,
                      if x.isActive.Present? then x.isActive.value else true,
                      I18nEntriesOf(x.i18n).value))
  }

  /** updateToolSchema.safeParse of the submitted data with `id` set to the
      action's argument. The id is checked after every other field. */
  function ValidateUpdate(x: ToolInput, id: string): Validated<ToolPatch> {
    FieldIssuesNone(x, true);
    FirstIssueAppend(FieldIssues(x, true), IdIssue(id));
    var issue := FirstIssue(FieldIssues(x, true) + [IdIssue(id)]);
    if issue.Some? then Invalid(issue.value)
    else
      Valid(ToolPatch(CategoryOf(x.category), x.toolCode, IntOf(x.internalUsageLimit), x.isFree, IntOf(x.tier),
                      x.iconImageUrl, x.isActive, I18nEntriesOf(x.i18n), id))
  }

  // ---------------------------------------------------------------- the rules, stated per field

  predicate ValidEntry(x: ToolI18nInput) {
    && x.languageCode.Present? && x.languageCode.value in {"KR", "EN", "JP"}
    && x.name.Present? && x.name.value != ""
    && !x.description.Null?
  }

  /** A positive integer, when given. */
  predicate ValidUsageLimit(f: Field<real>) {
    f.Present? ==> IsInteger(f.value) && f.value > 0.0
  }

  /** An integer from 0 to 5, when given. */
  predicate ValidTier(f: Field<real>) {
    f.Present? ==> IsInteger(f.value) && 0.0 <= f.value <= 5.0
  }

  predicate ValidIconUrl(f: Field<string>) {
    f.Present? ==> f.value == "" || IsUrl(f.value)
  }

  /** The create schema's rules: one of the seven categories or null, a
      non-empty code, a positive integer usage limit and an integer tier from
      0 to 5 when given, a URL, "" or nothing as icon, flags not null, and at
      least one valid localized entry. With `optional` (the update schema)
      each field may also be left out. */
  predicate ValidToolInput(x: ToolInput, optional: bool) {
    && (x.category.Absent? ==> optional)
    && (x.category.Present? ==> x.category.value in {"SEARCH", "GENERATION", "OPERATION", "DOCUMENTS", "UTILITY", "KNOWLEDGE_BASE", "AMUSEMENT"})
    && (x.toolCode.Absent? ==> optional) && !x.toolCode.Null? && (x.toolCode.Present? ==> x.toolCode.value != "")
    && ValidUsageLimit(x.internalUsageLimit)
    && !x.isFree.Null?
    && ValidTier(x.tier)
    && ValidIconUrl(x.iconImageUrl)
    && !x.isActive.Null?
    && (x.i18n.Absent? ==> optional) && !x.i18n.Null?
    && (x.i18n.Present? ==> |x.i18n.value| >= 1 && forall i :: 0 <= i < |x.i18n.value| ==> ValidEntry(x.i18n.value[i]))
  }

  predicate WellFormedDraft(d: ToolDraft) {
    && d.toolCode != ""
    && (d.internalUsageLimit.Some? ==> d.internalUsageLimit.value > 0)
    && (d.tier.Some? ==> 0 <= d.tier.value <= 5)
    && ValidIconUrl(d.iconImageUrl)
    && |d.i18n| >= 1
    && (forall i :: 0 <= i < |d.i18n| ==> d.i18n[i].name != "")
  }

  lemma EntryIssueIff(x: ToolI18nInput)
    ensures EntryIssue(x).None? <==> ValidEntry(x)
  {
    if x.languageCode.Present? {
      var l := ParseLanguage(x.languageCode.value);
      assert l.Some? <==> x.languageCode.value in {"KR", "EN", "JP"};
    }
  }

  lemma I18nIssueIff(f: Field<seq<ToolI18nInput>>, optional: bool)
    ensures I18nIssue(f, optional).None? <==>
      (f.Absent? ==> optional) && !f.Null? && (f.Present? ==> |f.value| >= 1 && forall i :: 0 <= i < |f.value| ==> ValidEntry(f.value[i]))
  {
    if f.Present? && |f.value| >= 1 {
      var xs := f.value;
      forall i | 0 <= i < |xs| ensures EntryIssue(xs[i]).None? <==> ValidEntry(xs[i]) {
        EntryIssueIff(xs[i]);
      }
      var bad := First(xs, (x: ToolI18nInput) => EntryIssue(x).Some?);
      if bad.Some? {
        assert EntryIssue(bad.value).Some?;
        var k :| 0 <= k < |xs| && xs[k] == bad.value;
      }
    }
  }

  lemma CategoryIssueIff(f: Field<string>, optional: bool)
    ensures CategoryIssue(f, optional).None? <==>
      (f.Absent? ==> optional)
      && (f.Present? ==> f.value in {"SEARCH", "GENERATION", "OPERATION", "DOCUMENTS", "UTILITY", "KNOWLEDGE_BASE", "AMUSEMENT"})
  {
  }

  /** The create schema accepts exactly the inputs that follow its rules, and
      what it yields is well formed: defaults filled, bounds met. */
  lemma ValidateCreateIff(x: ToolInput)
    ensures ValidateCreate(x).Valid? <==> ValidToolInput(x, false)
    ensures ValidateCreate(x).Valid? ==> WellFormedDraft(ValidateCreate(x).value)
    ensures ValidateCreate(x).Valid? ==>
      && ValidateCreate(x).value.isFree == (x.isFree.Present? && x.isFree.value)
      && ValidateCreate(x).value.isActive == (x.isActive.Absent? || x.isActive.value)
  {
    NoFieldIssueIff(x, false);
    FieldIssuesNone(x, false);
    if ValidateCreate(x).Valid? {
      var d := ValidateCreate(x).value;
      var xs := x.i18n.value;
      assert forall i :: 0 <= i < |xs| ==> d.i18n[i] == EntryOf(xs[i]);
    }
  }

  /** The update schema accepts exactly the inputs that follow the create
      rules with every field optional, given a uuid id; a field left out stays
      left out rather than taking its create default. */
  lemma ValidateUpdateIff(x: ToolInput, id: string)
    ensures ValidateUpdate(x, id).Valid? <==> ValidToolInput(x, true) && IsUuid(id)
    ensures ValidateUpdate(x, id).Valid? ==>
      var p := ValidateUpdate(x, id).value;
      && p.id == id
      && (p.category.Absent? <==> x.category.Absent?) && (p.toolCode.Absent? <==> x.toolCode.Absent?)
      && (p.internalUsageLimit.Absent? <==> x.internalUsageLimit.Absent?) && (p.isFree.Absent? <==> x.isFree.Absent?)
      && (p.tier.Absent? <==> x.tier.Absent?) && (p.iconImageUrl.Absent? <==> x.iconImageUrl.Absent?)
      && (p.isActive.Absent? <==> x.isActive.Absent?) && (p.i18n.Absent? <==> x.i18n.Absent?)
      && (p.i18n.Present? ==> |p.i18n.value| >= 1)
  {
    NoFieldIssueIff(x, true);
    FieldIssuesNone(x, true);
    FirstIssueAppend(FieldIssues(x, true), IdIssue(id));
  }

  /** Every field passes its check exactly when the form follows the rules. */
  lemma NoFieldIssueIff(x: ToolInput, optional: bool)
    ensures NoFieldIssue(x, optional) <==> ValidToolInput(x, optional)
  {
    I18nIssueIff(x.i18n, optional);
    CategoryIssueIff(x.category, optional);
  }

  /** A create input passes the update schema too (with a uuid id): the
      update's rules are the create's with every field optional. */
  lemma CreateInputPassesUpdate(x: ToolInput, id: string)
    requires ValidateCreate(x).Valid?
    requires IsUuid(id)
    ensures ValidateUpdate(x, id).Valid?
  {
    ValidateCreateIff(x);
    ValidateUpdateIff(x, id);
  }

  /** An otherwise valid form with an empty localized list reports the
      custom minimum message, on create and on update alike: an empty list
      never reaches the update action. */
  lemma EmptyI18nReported(x: ToolInput, id: string)
    requires x.i18n == Present([])
    requires x.category.Present? && ParseCategory(x.category.value).Some?
    requires x.toolCode.Present? && x.toolCode.value != ""
    requires ValidUsageLimit(x.internalUsageLimit) && ValidTier(x.tier) && ValidIconUrl(x.iconImageUrl)
    requires !x.isFree.Null? && !x.isActive.Null?
    ensures ValidateCreate(x) == Invalid(I18nMinMessage)
    ensures ValidateUpdate(x, id) == Invalid(I18nMinMessage)
  {
    FirstIssueAt(FieldIssues(x, false), 7);
    FirstIssueAt(FieldIssues(x, true), 7);
    FirstIssueAppend(FieldIssues(x, true), IdIssue(id));
  }

  /** A fractional tier is reported as a non-integer before its range is
      looked at, whatever its value. */
  lemma FractionalTierReportedAsNotInteger(x: real)
    requires !IsInteger(x)
    ensures TierIssue(Present(x)) == Some(NotIntegerMessage)
    ensures UsageLimitIssue(Present(x)) == Some(NotIntegerMessage)
  {
  }

  // ---------------------------------------------------------------- back to a form

  function EntryInput(e: ToolI18nEntry): ToolI18nInput {
    ToolI18nInput(Present(LanguageText(e.languageCode)), Present(e.name), Present(e.description))
  }

  function FormOf(d: ToolDraft): ToolInput {
    ToolInput(if d.category.Some? then Present(CategoryText(d.category.value)) else Null,
              Present(d.toolCode),
              if d.internalUsageLimit.Some? then Present(d.internalUsageLimit.value as real) else Null,
              Present(d.isFree),
              if d.tier.Some? then Present(d.tier.value as real) else Null,
              d.iconImageUrl,
              Present(d.isActive),
              Present(EntryInputs(d.i18n)))
  }

  function EntryInputs(es: seq<ToolI18nEntry>): seq<ToolI18nInput> {
    seq(|es|, i requires 0 <= i < |es| => EntryInput(es[i]))
  }

  /** Filling the form from a well-formed draft and validating it yields the
      draft back. */
  lemma ValidateCreateRoundTrip(d: ToolDraft)
    requires WellFormedDraft(d)
    ensures ValidateCreate(FormOf(d)) == Valid(d)
  {
    var x := FormOf(d);
    FormOfPasses(d);
    FieldIssuesNone(x, false);
    EntriesRoundTrip(d.i18n);
    assert OptionOf(CategoryOf(x.category)) == d.category;
    assert OptionOf(IntOf(x.internalUsageLimit)) == d.internalUsageLimit;
    assert OptionOf(IntOf(x.tier)) == d.tier;
  }

  /** The form of a well-formed draft has no field issue. */
  lemma FormOfPasses(d: ToolDraft)
    requires WellFormedDraft(d)
    ensures NoFieldIssue(FormOf(d), false)
    ensures d.category.Some? ==> ParseCategory(CategoryText(d.category.value)) == Some(d.category.value)
  {
    if d.category.Some? {
      assert ParseCategory(CategoryText(d.category.value)) == Some(d.category.value) by {
        match d.category.value {
          case Search =>
          case Generation =>
          case Operation =>
          case Documents =>
          case Utility =>
          case KnowledgeBase =>
          case Amusement =>
        }
      }
    }
    EntriesRoundTrip(d.i18n);
  }

  /** The localized entries of a well-formed draft pass the array's checks
      and parse back to themselves. */
  lemma EntriesRoundTrip(es: seq<ToolI18nEntry>)
    requires |es| >= 1 && forall i :: 0 <= i < |es| ==> es[i].name != ""
    ensures I18nIssue(Present(EntryInputs(es)), false).None? && I18nEntriesOf(Present(EntryInputs(es))) == Present(es)
  {
    var xs := EntryInputs(es);
    forall i | 0 <= i < |xs| ensures ValidEntry(xs[i]) && EntryOf(xs[i]) == es[i] {
      EnumTextRoundTrip(es[i].languageCode, USD);
      EntryIssueIff(xs[i]);
    }
    I18nIssueIff(Present(xs), false);
    assert EntriesOf(xs) == es;
  }
}

=== FILE: url_params.dfy ===
/** A query string as the browser's URLSearchParams holds it: an ordered list
    of key/value pairs in which a key may repeat. */
module UrlParams {
  import opened Common

  type Entry = (string, string)

  /** `get(key)`: the value of the first pair with the key. */
  function Lookup(entries: seq<Entry>, key: string): Option<string> {
    if entries == [] then None
    else if entries[0].0 == key then Some(entries[0].1)
    else Lookup(entries[1..], key)
  }

  /** Lookup finds a value exactly when some pair has the key, and the value
      it finds is that of the first such pair. */
  lemma {:induction false} LookupFirstPair(entries: seq<Entry>, key: string)
    ensures Lookup(entries, key).Some? <==> exists i :: 0 <= i < |entries| && entries[i].0 == key
    ensures Lookup(entries, key).Some? ==>
      exists i :: 0 <= i < |entries| && entries[i] == (key, Lookup(entries, key).value) && forall j :: 0 <= j < i ==> entries[j].0 != key
  {
    if entries != [] && entries[0].0 != key {
      var rest := entries[1..];
      LookupFirstPair(rest, key);
      assert forall i :: 0 <= i < |rest| ==> rest[i] == entries[i + 1];
      if Lookup(rest, key).Some? {
        var i :| 0 <= i < |rest| && rest[i] == (key, Lookup(rest, key).value) && forall j :: 0 <= j < i ==> rest[j].0 != key;
        assert entries[i + 1] == rest[i];
      } else {
        assert forall i :: 1 <= i < |entries| ==> entries[i] == rest[i - 1];
      }
    } else if entries != [] {
      assert entries[0] == (key, Lookup(entries, key).value);
    }
  }

  function HasKey(key: string): Entry -> bool {
    (e: Entry) => e.0 == key
  }

  function OtherKey(key: string): Entry -> bool {
    (e: Entry) => e.0 != key
  }

  /** `delete(key)`: every pair with the key goes. */
  function Without(entries: seq<Entry>, key: string): seq<Entry> {
    Where(entries, OtherKey(key))
  }

  /** The first pair with the key takes the value, later pairs with the key go. */
  function ReplaceFirst(entries: seq<Entry>, key: string, value: string): seq<Entry> {
    if entries == [] then []
    else if entries[0].0 == key then [(key, value)] + Without(entries[1..], key)
    else [entries[0]] + ReplaceFirst(entries[1..], key, value)
  }

  /** `set(key, value)`: the value replaces the first pair with the key and
      the others with the key go; a new key is appended. */
  function WithSet(entries: seq<Entry>, key: string, value: string): seq<Entry> {
    if Lookup(entries, key).None? then entries + [(key, value)] else ReplaceFirst(entries, key, value)
  }

  /** Looking up a key is not affected by removing another key. */
  lemma {:induction false} LookupWithout(entries: seq<Entry>, key: string, other: string)
    requires other != key
    ensures Lookup(Without(entries, key), other) == Lookup(entries, other)
  {
    if entries != [] {
      LookupWithout(entries[1..], key, other);
      var rest := Without(entries[1..], key);
      if entries[0].0 != key {
        assert Without(entries, key) == [entries[0]] + rest;
        assert ([entries[0]] + rest)[1..] == rest;
      } else {
        assert Without(entries, key) == rest;
      }
    }
  }

  lemma {:induction false} WithoutHasNoKey(entries: seq<Entry>, key: string)
    ensures Lookup(Without(entries, key), key) == None
    ensures Without(Without(entries, key), key) == Without(entries, key)
  {
    WhereAll(Without(entries, key), OtherKey(key));
    LookupFirstPair(Without(entries, key), key);
  }

  /** After `set`, the key reads as the new value and occurs exactly once. */
  lemma {:induction false} WithSetReads(entries: seq<Entry>, key: string, value: string)
    ensures Lookup(WithSet(entries, key, value), key) == Some(value)
    ensures |Where(WithSet(entries, key, value), HasKey(key))| == 1
  {
    if Lookup(entries, key).None? {
      LookupFirstPair(entries, key);
      WhereNone(entries, HasKey(key));
      WhereConcat(entries, [(key, value)], HasKey(key));
      LookupAppend(entries, key, value);
    } else {
      ReplaceFirstReads(entries, key, value);
    }
  }

  lemma {:induction false} LookupAppend(entries: seq<Entry>, key: string, value: string)
    requires Lookup(entries, key).None?
    ensures Lookup(entries + [(key, value)], key) == Some(value)
  {
    var s := entries + [(key, value)];
    assert s[|entries|] == (key, value);
    LookupFirstPair(entries, key);
    LookupFirstPair(s, key);
  }

  lemma {:induction false} ReplaceFirstReads(entries: seq<Entry>, key: string, value: string)
    requires Lookup(entries, key).Some?
    ensures Lookup(ReplaceFirst(entries, key, value), key) == Some(value)
    ensures |Where(ReplaceFirst(entries, key, value), HasKey(key))| == 1
  {
    var r := ReplaceFirst(entries, key, value);
    if entries[0].0 == key {
      var rest := Without(entries[1..], key);
      WhereConcat([(key, value)], rest, HasKey(key));
      forall i | 0 <= i < |rest| ensures !HasKey(key)(rest[i]) {
      }
      WhereNone(rest, HasKey(key));
    } else {
      ReplaceFirstReads(entries[1..], key, value);
      WhereConcat([entries[0]], ReplaceFirst(entries[1..], key, value), HasKey(key));
      assert r == [entries[0]] + ReplaceFirst(entries[1..], key, value);
    }
  }

  /** `set` leaves the pairs of every other key as they were, in order. */
  lemma {:induction false} WithSetKeepsOthers(entries: seq<Entry>, key: string, value: string)
    ensures Without(WithSet(entries, key, value), key) == Without(entries, key)
  {
    if Lookup(entries, key).None? {
      WhereConcat(entries, [(key, value)], OtherKey(key));
    } else {
      ReplaceFirstKeepsOthers(entries, key, value);
    }
  }

  lemma {:induction false} ReplaceFirstKeepsOthers(entries: seq<Entry>, key: string, value: string)
    ensures Without(ReplaceFirst(entries, key, value), key) == Without(entries, key)
  {
    if entries != [] {
      assert Without(entries, key) == (if entries[0].0 != key then [entries[0]] else []) + Without(entries[1..], key);
      if entries[0].0 == key {
        WithoutHasNoKey(entries[1..], key);
        WhereConcat([(key, value)], Without(entries[1..], key), OtherKey(key));
      } else {
        ReplaceFirstKeepsOthers(entries[1..], key, value);
        WhereConcat([entries[0]], ReplaceFirst(entries[1..], key, value), OtherKey(key));
      }
    }
  }

  /** Every other key reads the same after `set` or `delete` of a key. */
  lemma OtherKeysUnchanged(entries: seq<Entry>, key: string, value: string, other: string)
    requires other != key
    ensures Lookup(WithSet(entries, key, value), other) == Lookup(entries, other)
    ensures Lookup(Without(entries, key), other) == Lookup(entries, other)
  {
    WithSetKeepsOthers(entries, key, value);
    LookupWithout(WithSet(entries, key, value), key, other);
    LookupWithout(entries, key, other);
  }

  /** A copy of the current query string that handlers change before they
      navigate to it. */
  class SearchParams {
    var entries: seq<Entry>

    constructor (init: seq<Entry>)
      ensures entries == init
    {
      entries := init;
    }

    /** `get(key)`, scanning the pairs in order. */
    method Get(key: string) returns (r: Option<string>)
      ensures r == Lookup(entries, key)
    {
      var i := 0;
      while i < |entries|
        invariant 0 <= i <= |entries|
        invariant Lookup(entries, key) == Lookup(entries[i..], key)
      {
        if entries[i].0 == key {
          return Some(entries[i].1);
        }
        assert entries[i..][1..] == entries[i + 1..];
        i := i + 1;
      }
      r := None;
    }

    method Set(key: string, value: string)
      modifies this
      ensures entries == WithSet(old(entries), key, value)
    {
      entries := WithSet(entries, key, value);
    }

    method Delete(key: string)
      modifies this
      ensures entries == Without(old(entries), key)
    {
      entries := Without(entries, key);
    }
  }
}
